=== FILE: README.md ===
# pages: a Dafny model of its core rules

This project models the decision logic of the `pages` Rails engine. Every piece of it works
on plain values: database rows are passed in, and "now", "today" and foreign calls are
parameters. The model covers:

- the page record: the status enum, the autopublish flag, publication time, ordering and
  redirects;
- the upward page tree walks and sibling lookup;
- the in-memory meaning of the page finder's conditions and its pagination;
- user account rules: activation, authentication guard, authorisation, validation and
  password generation;
- the admin controller's constant-time comparison and redirects;
- the role and admin-menu registries;
- the ISO 639-3 language table;
- the application-name and configuration rules of `PagesCore`;
- search-document dictionaries;
- the HTML formatter's truncation and image placeholders;
- the date, meta-tag and admin page-name helpers;
- the static-cache guards and the page-image policy.

One Dafny module per source file:

| file | module | source |
|---|---|---|
| pages.dfy | `Pages` | app/models/page.rb (record, status, save hook, ordering, redirects) |
| page_tree.dfy | `PageTree` | app/models/page.rb (parent walks, siblings, `for_request`) |
| page_query.dfy | `PageQuery` | app/models/page.rb (`get_pages_options`, `get_pages`, `autopublish!`) |
| page_text.dfy | `PageText` | app/models/page.rb (`string_to_slug`, `word_count`) |
| user.dfy | `Users` | app/models/user.rb |
| admin_controller.dfy | `AdminController` | app/controllers/pages_core/admin_controller.rb |
| role.dfy | `Roles` | app/models/role.rb |
| admin_menu.dfy | `AdminMenu` | lib/pages_core/admin_menu_item.rb |
| language.dfy | `Languages` | lib/language.rb |
| pages_core.dfy | `PagesCore` | lib/pages_core.rb |
| search_document.dfy | `SearchDocuments` | app/models/search_document.rb |
| html_formatter.dfy | `HtmlFormatter` | lib/pages_core/html_formatter.rb |
| frontend_helper.dfy | `FrontendHelper` | app/helpers/pages_core/frontend_helper.rb |
| meta_tags.dfy | `MetaTags` | app/helpers/pages_core/meta_tags_helper.rb |
| pages_helper.dfy | `AdminPagesHelper` | app/helpers/admin/pages_helper.rb |
| static_cache.dfy | `StaticCache` | app/controllers/concerns/pages_core/static_cache_controller.rb |
| page_image_policy.dfy | `PageImagePolicy` | app/policies/page_image_policy.rb |

Three support modules hold shared definitions:

- `Wrappers` has `Option` and `Result`.
- `Text` has Ruby's character classes, `split`, line splitting and `downcase`, plus
  decimal conversion and string order.
- `Sorting` has an insertion sort with its permutation proof.

Ruby semantics that the model writes out explicitly:

- `^` and `$` match at line boundaries. Patterns that use them are evaluated line by line.
- `split` drops trailing empty fields.
- `Array#[]` accepts negative indexes.
- `s[0..n]` is an inclusive range.
- `to_i` truncates toward zero.
- `a, b = true` leaves `b` nil.

Where the repository's own description of behaviour and its code disagree, the model
follows the code:

- `status_label` indexes the label array the Ruby way. Statuses -5..-1 count from the end
  and any other out-of-range status gives nil; nothing raises.
- `reorderable_children?` and `reorderable?` depend on `content_order` mentioning
  "position", not on the `news_page` flag.
- `Language.codes` returns the sorted names.
- `code_for_name` returns the ISO 639-3 code, because `Definition#code` ignores its
  argument.

## Model

| member | source | states |
|---|---|---|
| Pages.LabelIndex | app/models/page.rb:715 | the index found for a name is a label equal to it ignoring case, and none is found exactly when no label matches |
| Pages.LowerLabelsDistinct | app/models/page.rb:25 | the five lower-cased status labels are pairwise different, so a label names one status |
| Pages.SetStatus | app/models/page.rb:711-720 | integers are written with no range check; fractions are truncated; a string with an all-digit line is read as a number; a label in any case gives its index; an unknown label or another type keeps the status |
| Pages.StatusLabel | app/models/page.rb:700-702 | the label is defined exactly for statuses -5..4; 0..4 give their own label and -5..-1 the label counted from the end |
| Pages.NegativeStatusCountsFromEnd | app/models/page.rb:700-702 | a status and that status less five give the same label; -1 gives "Deleted" |
| Pages.DigitSecondLineReadsZero | app/models/page.rb:712 | "abc\n12" passes the line-anchored digit test and is read by `to_i` as status 0 |
| Pages.SetStatusLabelRoundTrip | app/models/page.rb:700-720 | setting a status by label in any letter case, as string or symbol, gives the label's index, and `status_label` then gives the canonical label |
| Pages.StatusQuery | app/models/page.rb:828-841 | a `<label>?` query exists exactly for the five labels (any case) and answers whether the status equals that label's index |
| Pages.PublishedIsLabelQuery | app/models/page.rb:862-864 | `published?` holds iff `published?` as a label query holds and the page is not waiting for autopublishing |
| Pages.IsPublished | app/models/page.rb:862-864 | a published page carries the label "Published" and is not waiting for autopublishing |
| Pages.BeforeSave | app/models/page.rb:37-39 | a missing publication time becomes the creation time (the reader's default) or else now; autopublish is set iff that time is in the future; nothing else changes; the saved page is published iff its status is Published and its time has come |
| Pages.BeforeSaveIdempotent | app/models/page.rb:37-39 | saving twice at the same instant equals saving once |
| Pages.ReorderableChildren | app/models/page.rb:795-797 | children are not hand-sortable exactly when the page has a non-blank content order that does not contain "position" |
| Pages.DefaultOrderIsPosition | app/models/page.rb:874-876 | without a stored order, `content_order` is "position" and the children are reorderable |
| Pages.Redirects | app/models/page.rb:774-779 | "0" and non-string/non-hash values never redirect; a path redirects iff it is not all white space; a hash redirects iff it is not empty |
| Pages.RedirectToOptions | app/models/page.rb:782-792 | a non-hash redirect is returned unchanged; for a hash, every key of the redirect other than `language` wins over the options, and `language` is present iff the redirect has one, with the options' value when they give one |
| Pages.RedirectToOptionsEffects | app/models/page.rb:783-788 | the in-place changes: the options lose `language` unless the redirect has one, the redirect hash loses `language` iff the options still have one, and nothing else of the page changes |
| Pages.RedirectToOptionsIsMergeOfEffects | app/models/page.rb:783-790 | the value returned is the changed options with the changed redirect merged over them |
| Pages.MergeWithNothing | app/models/page.rb:782-792 | merging a redirect hash over no options returns the hash and changes nothing |
| Pages.MergedStillRedirects | app/models/page.rb:774-792 | a redirecting hash still redirects once merged, whatever the options |
| Pages.LanguageOptionEmptiesRedirect | app/models/page.rb:783-788 | a redirect of only `language: "nor"` merged with `language: "eng"` is left empty and no longer redirects |
| PageTree.ParentOf | app/models/page.rb:529-537 | the parent is the row named by the page's parent id, when that row exists |
| PageTree.Ancestors | app/models/page.rb:546-552 | the ancestors form the parent chain from the page's parent to a root, empty exactly for a root |
| PageTree.SelfAndAncestors | app/helpers/pages_core/frontend_helper.rb:52 | the page followed by its ancestors |
| PageTree.AncestorsOfAncestor | app/models/page.rb:546-552 | the ancestors of the k-th ancestor are the rest of the chain after it |
| PageTree.NotOwnAncestor | app/models/page.rb:546-556 | in an acyclic table no page is among its own ancestors |
| PageTree.AncestorTransitive | app/models/page.rb:554-556 | an ancestor of an ancestor is an ancestor |
| PageTree.RootPage | app/models/page.rb:663-669 | the loop ends at a page without parent that is the page itself or one of its ancestors: the last element of `self_and_ancestors` |
| PageTree.ChildWalk | app/models/page.rb:671-678 | the walk answers true iff `page` occurs on the upward walk |
| PageTree.IsChildOf | app/models/page.rb:671-678 | `is_child_of(page)` holds iff `page` is a strict ancestor, so never for the page itself |
| PageTree.IsAncestor | app/models/page.rb:554-556 | `a.is_ancestor?(b)` holds iff `b.is_child_of(a)` |
| PageTree.GrandchildIsChildOfRoot | spec/models/page_spec.rb:4-17 | a page under a parent under a root is a child of both, and of neither itself nor a root of its own descendant |
| PageTree.SiblingByOffset | app/models/page.rb:681-687 | a root page gives nil; a page missing from its siblings raises; otherwise the sibling `offset` places away, or nil out of range |
| PageTree.NextThenPrevious | app/models/page.rb:690-697 | when `b` is `a`'s next sibling, `a` is `b`'s previous sibling |
| PageTree.OffsetZeroIsSelf | app/models/page.rb:681-687 | the sibling at offset 0 of a page with a parent is the page itself |
| PageTree.Reorderable | app/models/page.rb:800-802 | a root page is reorderable; otherwise iff its parent's children are reorderable |
| PageTree.FirstMatching | app/models/page.rb:764-767 | the index found is the first page whose hash redirect agrees with every request parameter, and none is found iff no page matches |
| PageTree.ForRequest | app/models/page.rb:755-771 | a limit that is not an array raises; otherwise the parameters are cut to the limit keys, the page returned matches and no page before it does, and the blank page comes back iff no page matches |
| PageTree.ForRequestFindsFirst | app/models/page.rb:764-767 | whichever page is the first to match is the page returned |
| PageTree.FewerParamsStillMatch | app/models/page.rb:757-767 | a page matching the full parameters also matches any restriction of them |
| PageQuery.FlagsOf | app/models/page.rb:411-423 | `:all` switches every inclusion flag on; otherwise each flag is its option, with a deprecated `show_` option taking precedence |
| PageQuery.PassesStatus | app/models/page.rb:449-457 | a published page passes under any flags, and a page waiting for autopublishing needs the `:autopublish` flag |
| PageQuery.DefaultIsPublished | app/models/page.rb:449-457 | with no options a page passes the status filter iff it is published |
| PageQuery.AllPassesEverything | app/models/page.rb:419-423 | with `:all`, every page passes the status filter |
| PageQuery.PublishedAlwaysPasses | app/models/page.rb:449-457 | a published page passes under every combination of flags |
| PageQuery.AutopublishNeedsFlag | app/models/page.rb:457 | a page waiting for autopublishing passes only when `:autopublish` is on |
| PageQuery.PassesMonotone | app/models/page.rb:449-457 | switching more inclusion flags on never removes a page |
| PageQuery.ShowPrefixWins | app/models/page.rb:411-416 | a deprecated `show_hidden` overrides `hidden` |
| PageQuery.DateBounds | app/models/page.rb:460-473 | `published_within` replaces both bounds by its last and first element; otherwise the before/after options are the bounds |
| PageQuery.Select | app/models/page.rb:433-473 | the result holds exactly the rows satisfying every condition, each as often as in the table |
| PageQuery.SelectAppend | app/models/page.rb:433-473 | selection distributes over concatenation, so the rows keep their table order |
| PageQuery.SelectOne | app/models/page.rb:433-473 | a single row is selected iff it matches |
| PageQuery.Find | app/models/page.rb:440-442 | an empty parent collection produces SQL the database refuses; otherwise the selected rows |
| PageQuery.RootListing | app/models/page.rb:438-457 | a root listing with default flags holds exactly the published pages without parent |
| PageQuery.CeilDiv | app/models/page.rb:197 | the quotient is the ceiling of a/b for either sign of b |
| PageQuery.CurrentPage | app/models/page.rb:195-196 | the page defaults to 1 and is at least 1 |
| PageQuery.WindowStart | app/models/page.rb:199-200 | the offset is per_page·(page−1) plus the initial offset, raised to 0 when negative |
| PageQuery.PlanFor | app/models/page.rb:190-203 | a zero page size raises; the page count is ⌈(total − offset)/per_page⌉; the limit is per_page unless `:limit` is given; the pagination is reported iff the count is positive |
| PageQuery.PagesCoverRows | app/models/page.rb:190-203 | every row from the offset on lies in the window of a reported page, and no other page's window holds it |
| PageQuery.Window | app/models/page.rb:207-208 | the window is the rows from the offset on, at most limit of them, in order; a negative limit is refused |
| PageQuery.GetPages | app/models/page.rb:187-230 | it fails with the empty-parents error exactly when the parent collection is empty, and succeeds exactly when no error applies; a zero page size raises, and a negative row limit (`:limit`, else the page size) is refused; otherwise the rows are the run of the selection from the window start, min(limit, rows left) of them, with the page info of the plan; without pagination or limit the result is the full selection |
| PageQuery.SweepAsWritten | app/models/page.rb:107-111 | each due row is given autopublish false and then saved, which runs the save hook again |
| PageQuery.SweepAsWrittenKeepsFlag | app/models/page.rb:37-39 | a row due within the fuzziness window whose time lies ahead is flagged again by the sweep |
| PageQuery.Sweep | app/models/page.rb:107-111 | the intended sweep: due rows (flagged, time before now plus fuzziness, default 120 s) lose the flag, other rows are unchanged |
| PageQuery.SweepProperties | app/models/page.rb:107-111 | after the sweep no row is due, no status changed, and sweeping again changes nothing |
| PageQuery.SweepAsWrittenAgreement | app/models/page.rb:37-39 | the written and intended sweeps differ on a row exactly when it is due and its time is still ahead |
| PageText.KeepWordAndSpace | app/models/page.rb:394 | only word characters and white space of the text remain, and text made of them is unchanged |
| PageText.KeepWordAndSpaceSnoc | app/models/page.rb:394 | a character added at the end is kept, at the end, iff it is a word or space character, so the kept characters keep their order |
| PageText.StringToSlug | app/models/page.rb:393-396 | the slug consists only of lower-case letters, digits and "_" |
| PageText.SlugOfWords | app/models/page.rb:393-396 | words of slug characters separated by blanks come out joined with "_" |
| PageText.SlugOfIndentedWords | app/models/page.rb:393-396 | the same words after a leading blank come out with a leading "_" |
| PageText.SlugIdempotent | app/models/page.rb:393-396 | the slug of a slug is itself, when transliteration leaves ASCII alone |
| PageText.StripTags | app/models/page.rb:742 | the result is no longer than the text, draws only on its characters, equals it when there is no "<", and no "<" left has a ">" after it |
| PageText.StripTagsKeepsPlainPrefix | app/models/page.rb:742 | text before the first "<" is kept as it is |
| PageText.StripTagsRemovesTag | app/models/page.rb:742 | "<", anything but ">", then ">" is removed and nothing else |
| PageText.KeepWordCaretSpace | app/models/page.rb:743 | only word characters, "^" and white space of the text remain, and text made of them is unchanged |
| PageText.KeepWordCaretSpaceSnoc | app/models/page.rb:743 | a character added at the end is kept, at the end, iff it is a word character, "^" or white space |
| PageText.WordsOfSplit | app/models/page.rb:744 | splitting on white-space runs gives one field per word, plus an empty first field when the text starts blank |
| PageText.WordCount | app/models/page.rb:740-745 | the count is the number of word starts in the cleaned body, plus one when it starts blank and holds a word |
| PageText.WordCountIsWords | app/models/page.rb:740-745 | `word_count` counts the words of the body after tags and punctuation are removed, plus one for a leading blank |
| Users.Activate | app/models/user.rb:153-161 | a deleted user is refused and unchanged; otherwise activation succeeds iff a non-blank token equals the one given, and only success marks the user activated |
| Users.ActivateIdempotent | app/models/user.rb:153-161 | activating twice with the same token equals activating once |
| Users.Authenticate | app/models/user.rb:171-193 | deleted or unactivated users are denied; a token and address naming a login row whose password hash matches return that login, before the password is looked at; a password login needs the password's hash to match, and otherwise the user is denied |
| Users.TokenWinsOverPassword | app/models/user.rb:176-181 | with a valid token login and the right password both given, the token login is returned |
| Users.InactiveNeverAuthenticates | app/models/user.rb:173 | whatever the credentials, a deleted or unactivated user is denied |
| Users.ActivationOpensPassword | app/models/user.rb:153-193 | after activation with the right token, the right password authenticates |
| Users.EditableBy | app/models/user.rb:200-204 | nil never edits; a non-special editor never edits a special user; otherwise editing is allowed iff the editor is the user, is special, or holds the account |
| Users.IsDeletable | app/models/user.rb:220-222 | a user is deletable iff neither special nor the account holder, and a deletable user may edit itself |
| Users.SpecialEditsAll | app/models/user.rb:200-213 | a special editor edits everyone, and a non-special user edits itself |
| Users.HashPassword | app/models/user.rb:137-143 | a nil or empty password changes nothing; otherwise the hash is replaced and the changed flag set iff the hash differs |
| Users.HashPasswordIdempotent | app/models/user.rb:137-143 | hashing twice equals hashing once |
| Users.NormalizeWebLink | app/models/user.rb:57 | "http://" is prefixed exactly to a non-blank link with no `word://` line, and a non-blank result always has a scheme |
| Users.NormalizeWebLinkIdempotent | app/models/user.rb:57 | normalising twice equals normalising once |
| Users.ValidateHook | app/models/user.rb:49-59 | the validate block hashes the password, normalises the link, and makes a super admin an admin; other fields are unchanged |
| Users.ValidateHookIdempotent | app/models/user.rb:49-59 | running the validate block twice equals running it once |
| Users.UsernameFormatAsWrittenAdmitsMarkup | app/models/user.rb:31 | a username with a good first line and a markup second line passes the pattern as written and fails the intended one |
| Users.UsernameFormatsAgree | app/models/user.rb:31 | both username formats agree on names without a line feed |
| Users.Validate | app/models/user.rb:25-32 | each error is reported iff its rule fails: presence of username, e-mail, real name, password on create; username taken; username length 4..32; password under 5; the username pattern with line anchors; e-mail format |
| Users.ValidateIntended | app/models/user.rb:25-32 | the same errors, with the username pattern anchored at the whole name |
| Users.ValidationsAgree | app/models/user.rb:31 | the two validations differ at most in the username format error, and not at all for names without a line feed |
| Users.ValidateAdmitsMarkupName | app/models/user.rb:31 | the user "anna\n<b>" gets no format error as written and one under the intended rule |
| Users.ValidUsername | app/models/user.rb:25-31 | a username that passes the intended validation is 4..32 allowed characters on one line |
| Users.PasswordAlphabetIsAlnum | app/models/user.rb:128 | the password alphabet has 62 characters, exactly the ASCII letters and digits |
| Users.GenerateNewPassword | app/models/user.rb:127-133 | the password has 6..8 alphanumeric characters and is stored as both password and confirmation |
| Users.GeneratedPasswordLongEnough | app/models/user.rb:127-133 | a generated password never triggers the too-short error |
| AdminController.SecureCompare | app/controllers/pages_core/admin_controller.rb:49-58 | true iff both strings are present and byte-for-byte equal |
| AdminController.RequireAuthentication | app/controllers/pages_core/admin_controller.rb:39-47 | logged-in requests proceed; others go to new-user iff there are no users, else to login |
| AdminController.NewsPages | app/controllers/pages_core/admin_controller.rb:24 | exactly the news pages that are not deleted, each as often as in the table and never more rows than the table |
| AdminController.NewsPagesAppend | app/controllers/pages_core/admin_controller.rb:24 | the news pages of two tables in a row are those of each, in that order, so the table order is kept |
| AdminController.Redirect | app/controllers/pages_core/admin_controller.rb:23-29 | the start page is the news admin iff some non-deleted news page exists |
| Roles.Current | app/models/role.rb:22-24 | the registry's list, or the defaults before the first read |
| Roles.DefaultRegistry | app/models/role.rb:32-41 | the first read gives "users" (not default) then "pages" (default), with distinct names |
| Roles.NameToS | app/models/role.rb:10 | a name is stored in its string form; nil gives "" |
| Roles.Define | app/models/role.rb:9-20 | a taken name raises and changes nothing; a fresh name appends exactly one entry |
| Roles.DefineKeepsNamesUnique | app/models/role.rb:9-20 | names stay unique under `define` |
| Roles.DefineTwice | app/models/role.rb:10-12 | defining the same name again fails and leaves the registry as it was |
| Roles.ValidateRole | app/models/role.rb:3-6 | each error is reported iff its rule fails: the name is present, unique per user, and a registered role |
| Roles.SetName | app/models/role.rb:44-46 | `name=` stores the string form of the name |
| Roles.PagesRoleValid | app/models/role.rb:3-6 | the "pages" role given by symbol is valid for a user who lacks it |
| Roles.DefinedRoleValidates | app/models/role.rb:3-20 | a non-blank name just registered by `define` validates for a user who does not hold it |
| Roles.UndefinedRoleRefused | app/models/role.rb:6 | a name that is not registered never validates |
| AdminMenu.Items | lib/pages_core/admin_menu_item.rb:8-11 | no entries before the first registration, and afterwards the stored entries |
| AdminMenu.FreshIsEmpty | lib/pages_core/admin_menu_item.rb:9 | the fresh registry lists nothing |
| AdminMenu.NewEntry | lib/pages_core/admin_menu_item.rb:20-22 | group defaults to `:custom` (written "custom") and options to an empty map |
| AdminMenu.Find | lib/pages_core/admin_menu_item.rb:16 | the position found holds the key, and none is found iff no entry has it |
| AdminMenu.Register | lib/pages_core/admin_menu_item.rb:13-17 | returns the new entry; a taken (group, label) key is replaced in place, a fresh key is appended, and keys stay unique |
| AdminMenu.ReRegisterKeepsCount | lib/pages_core/admin_menu_item.rb:13-17 | registering under a taken key keeps the count and stores the new path |
| Languages.DropCR | lib/language.rb:27 | one trailing carriage return is removed |
| Languages.SplitLines | lib/language.rb:27 | no line holds a line feed and the last line is not empty |
| Languages.SplitLinesRoundTrip | lib/language.rb:27 | lines joined with "\n" or "\r\n" split back into the same lines |
| Languages.ParseLine | lib/language.rb:28-29 | a line without a tab holds only a code, and an empty line nothing |
| Languages.ParseLineOfFields | lib/language.rb:28-29 | fields joined with tabs come back in the columns iso639_3, 2b, 2t, 1, scope, type and name, in order, missing ones nil |
| Languages.LoadData | lib/language.rb:24-34 | one definition per line, its tab fields assigned in order |
| Languages.LoadDataOfLines | lib/language.rb:24-34 | a table text made of lines gives each line parsed on its own, in order |
| Languages.Lookup | lib/language.rb:37 | the definition found is the first whose ISO 639-3 or 639-1 code equals the code, and none is found iff none has it |
| Languages.Load | lib/language.rb:37 | the table is loaded once and kept |
| Languages.DefinitionFor | lib/language.rb:36-38 | with a consistent cache, `definition` is the first matching row and the cache stays consistent |
| Languages.DefinitionStable | lib/language.rb:36-38 | looking up other codes in between never changes a code's answer |
| Languages.NameForCode | lib/language.rb:51-56 | the first matching row's name, or nil |
| Languages.LookupName | lib/language.rb:61 | the row found carries the name and no earlier row does; none is found iff no row has it |
| Languages.CodeForName | lib/language.rb:59-64 | the ISO 639-3 code of the first row with the name, or nil |
| Languages.ToLanguageName | lib/language.rb:86-88 | the name for the code, else the string itself |
| Languages.ToLanguageCode | lib/language.rb:89-91 | the code for the name, else the string itself |
| Languages.NameCodeRoundTrip | lib/language.rb:86-91 | a name whose first row's code leads back to that row turns into its code and back into the name |
| Languages.SortByName | lib/language.rb:67-79 | with all names present the result is a sorted permutation; with all nil it is unchanged; a mix raises |
| Languages.Names | lib/language.rb:67-69 | the names sorted ascending, a permutation of the table's names |
| Languages.Codes | lib/language.rb:72-74 | `codes` returns the sorted names |
| Languages.SortedCodes | lib/language.rb:71-74 | the corrected `codes`: the sorted permutation of the table's codes |
| Languages.CodesListsNames | lib/language.rb:72-74 | on a one-row table `codes` gives the name where the code was meant |
| Languages.CodesAndNames | lib/language.rb:77-79 | the (code, name) pairs sorted by name, a permutation of the table's pairs |
| Languages.CodesAndNamesComplete | lib/language.rb:77-79 | every row's pair appears and the list is as long as the table |
| PagesCore.StripCurrent | lib/pages_core.rb:88 | a trailing "/current" or "/current/" is removed, anything else is kept |
| PagesCore.StripReleases | lib/pages_core.rb:88 | the result is a prefix of the line |
| PagesCore.StripReleasesRemoves | lib/pages_core.rb:88 | a trailing "/releases/<digits>" with an optional "/" is removed |
| PagesCore.ApplicationName | lib/pages_core.rb:86-89 | the name is a non-empty segment without "/" |
| PagesCore.NameOfAppDir | lib/pages_core.rb:86-89 | a plain application directory is named by its last segment |
| PagesCore.NameOfRelease | lib/pages_core.rb:88 | a release directory is named by the directory above "releases" |
| PagesCore.NameOfCurrent | lib/pages_core.rb:88 | a "current" directory is named by the directory above it |
| PagesCore.Loaded | lib/pages_core.rb:127-128 | the stored configuration, or the defaults before the first access |
| PagesCore.Get | lib/pages_core.rb:131 | the stored value of the key, nil when unset |
| PagesCore.Configuration | lib/pages_core.rb:127-135 | the defaults load on first access; a non-nil value is written; the answer is the key's value, or the whole configuration without a key |
| PagesCore.DefaultsOnFirstRead | lib/pages_core.rb:117-122 | localizations are disabled, page_cache enabled, text_filter textile, and other keys unset |
| PagesCore.NilValueReads | lib/pages_core.rb:130-131 | a nil value leaves the configuration as it was |
| PagesCore.ApplyPairsLastWrite | lib/pages_core.rb:111-113 | after the legacy pairs each key holds its last non-nil value, or what it held before |
| PagesCore.Configure | lib/pages_core.rb:101-115 | with a block, `:defaults` reloads the defaults, `true` starts empty, anything else keeps the configuration; without a block, each pair goes through `config` |
| SearchDocuments.Unaccent | app/models/search_document.rb:44-51 | the dictionary name is the language name followed by "_unaccent" |
| SearchDocuments.SearchConfigurations | app/models/search_document.rb:42-51 | one (locale, dictionary) entry per language |
| SearchDocuments.DictionaryOf | app/models/search_document.rb:39 | the dictionary of the key, and none iff the key is absent |
| SearchDocuments.DictionaryTable | app/models/search_document.rb:42-51 | 22 entries with distinct locales, each dictionary ending in "_unaccent" |
| SearchDocuments.SearchConfiguration | app/models/search_document.rb:38-40 | the mapped dictionary for a known locale, else "simple_unaccent", also for nil |
| SearchDocuments.StringAndSymbolAgree | app/models/search_document.rb:39 | a locale given as string or as symbol gets the same dictionary |
| SearchDocuments.AlwaysUnaccented | app/models/search_document.rb:38-51 | every answer ends in "_unaccent" |
| SearchDocuments.SearchDictionary | app/models/search_document.rb:31-35 | a search without locale uses the current locale's dictionary |
| SearchDocuments.BeforeValidation | app/models/search_document.rb:63-69 | the dictionary is set from the locale and the timestamp from the searchable; a missing searchable raises |
| SearchDocuments.BeforeValidationIdempotent | app/models/search_document.rb:63-69 | running the callbacks twice equals running them once |
| SearchDocuments.LocaleRequired | app/models/search_document.rb:8 | a document with a blank locale is invalid |
| SearchDocuments.LocalizedSearchable | app/models/search_document.rb:55-59 | the searchable unchanged unless it can be localised, then its localisation to the document's locale |
| SearchDocuments.Results | app/models/search_document.rb:27-29 | one localised searchable per document, in order |
| SearchDocuments.ResultsAppend | app/models/search_document.rb:27-29 | the results of two runs of documents are the results of each, in order |
| SearchDocuments.ResultsWithoutLocalize | app/models/search_document.rb:55-59 | `localize` is consulted only for records that respond to it |
| SearchDocuments.ResultsPresent | app/models/search_document.rb:55-59 | a document has a result iff it has a searchable record |
| HtmlFormatter.LeadingDigitCount | lib/pages_core/html_formatter.rb:30 | the length of the leading run of digits |
| HtmlFormatter.ParseImages | lib/pages_core/html_formatter.rb:29-38 | it raises only for a placeholder whose digits name no image, and never when every image exists |
| HtmlFormatter.PlaceholderAt | lib/pages_core/html_formatter.rb:30 | a placeholder is "[image:", one or more digits, then "]" |
| HtmlFormatter.NoPlaceholderUnchanged | lib/pages_core/html_formatter.rb:29-38 | text without "[image:" is returned as is |
| HtmlFormatter.PlaceholderReplaced | lib/pages_core/html_formatter.rb:30-36 | a placeholder is replaced by the image tag of its id, and a missing image raises |
| HtmlFormatter.Shorten | lib/pages_core/html_formatter.rb:18-20 | no `:shorten` or a short enough text is kept; otherwise the inclusive prefix up to index n (counting from the end for negative n) followed by "..." |
| HtmlFormatter.Append | lib/pages_core/html_formatter.rb:21-23 | `:append` adds one space and its text |
| HtmlFormatter.Prepare | lib/pages_core/html_formatter.rb:16-23 | images are substituted first, then the text is shortened, then appended to |
| HtmlFormatter.ToHtml | lib/pages_core/html_formatter.rb:16-25 | the prepared text is handed to Textile |
| HtmlFormatter.ClassToHtml | lib/pages_core/html_formatter.rb:6-8 | the class method equals building a formatter and converting |
| HtmlFormatter.ShortenedPlainText | lib/pages_core/html_formatter.rb:17-23 | a plain text longer than n becomes its first n+1 characters, "...", a space and the appended text |
| HtmlFormatter.ShortenNeedsLongText | lib/pages_core/html_formatter.rb:18 | shortening a text no longer than n changes nothing |
| FrontendHelper.Effective | app/helpers/pages_core/frontend_helper.rb:21 | `:short` turns short month names on and short day names off |
| FrontendHelper.Months | app/helpers/pages_core/frontend_helper.rb:22-28 | Norwegian month names iff the locale is "nor", long or short as asked |
| FrontendHelper.Days | app/helpers/pages_core/frontend_helper.rb:22-29 | seven day names in the locale, lower-cased unless capitalised |
| FrontendHelper.YearText | app/helpers/pages_core/frontend_helper.rb:34 | `%Y` writes at least four characters, zero-padded |
| FrontendHelper.YearTextValue | app/helpers/pages_core/frontend_helper.rb:34 | a year's text reads back as the year |
| FrontendHelper.YearTextInjective | app/helpers/pages_core/frontend_helper.rb:34 | two years have the same text iff they are equal |
| FrontendHelper.FormattedDate | app/helpers/pages_core/frontend_helper.rb:12-36 | today gives "Today" and yesterday "Yesterday" before any option is looked at |
| FrontendHelper.FormattedDateParts | app/helpers/pages_core/frontend_helper.rb:29-35 | otherwise the text is the optional day name and a space, "D. Month", then " YYYY" iff the year differs or `:include_year` is set |
| FrontendHelper.TodayYesterdayExactly | app/helpers/pages_core/frontend_helper.rb:17-18 | the answer is "Today" iff the date is today, and "Yesterday" iff it is yesterday and not today |
| FrontendHelper.ShortKeepsFullDayNames | app/helpers/pages_core/frontend_helper.rb:21 | with `:short`, a requested short day name still comes out in full |
| FrontendHelper.NorwegianMonthNames | app/helpers/pages_core/frontend_helper.rb:22-28 | "nor" and other locales name every month differently |
| FrontendHelper.FormattedTime | app/helpers/pages_core/frontend_helper.rb:38-42 | a time is formatted as its date |
| FrontendHelper.FormattedTimeIgnoresClock | app/helpers/pages_core/frontend_helper.rb:38-42 | two moments of the same day give the same text |
| FrontendHelper.NavSelected | app/helpers/pages_core/frontend_helper.rb:50-52 | selected iff the page redirects to an options hash whose `:controller` equals the request's (both possibly nil), or it is the current page or one of its ancestors |
| FrontendHelper.NavSelectedByRedirect | app/helpers/pages_core/frontend_helper.rb:50 | the redirect test reads the page's own hash, since merging it over no options changes nothing |
| FrontendHelper.NavListItem | app/helpers/pages_core/frontend_helper.rb:49-56 | a selected item carries the selected class ("selected" by default) and others none |
| FrontendHelper.AncestorsAreSelected | app/helpers/pages_core/frontend_helper.rb:52 | every ancestor of the current page is selected |
| MetaTags.Strip | app/helpers/pages_core/meta_tags_helper.rb:35 | nil stays nil; text is stripped of tags |
| MetaTags.DefaultMetaImage | app/helpers/pages_core/meta_tags_helper.rb:11-17 | an argument is stored and returned; without arguments the stored value is read |
| MetaTags.DescriptionOf | app/helpers/pages_core/meta_tags_helper.rb:32-35 | the explicit description, else the page's non-blank meta description, else its non-empty excerpt, stripped of tags; nil iff none exists |
| MetaTags.MetaDescription | app/helpers/pages_core/meta_tags_helper.rb:28-37 | with arguments the first is stored; without them the fallback chain is read |
| MetaTags.DescriptionSetThenGet | app/helpers/pages_core/meta_tags_helper.rb:28-37 | after setting a description, reading gives it stripped of tags |
| MetaTags.ChosenImage | app/helpers/pages_core/meta_tags_helper.rb:54-57 | the explicit image, else the page's meta image, else its image, else the default |
| MetaTags.ImageOf | app/helpers/pages_core/meta_tags_helper.rb:54-62 | an image record becomes its URL; a path passes through |
| MetaTags.MetaImage | app/helpers/pages_core/meta_tags_helper.rb:50-64 | with arguments the first is stored and returned; without them the chosen image is read |
| MetaTags.ExplicitImageWins | app/helpers/pages_core/meta_tags_helper.rb:50-57 | a set image is read back whatever the page has |
| MetaTags.DefaultImageSuffices | app/helpers/pages_core/meta_tags_helper.rb:66-69 | once a default image is set, `meta_image?` holds |
| MetaTags.KeywordsText | app/helpers/pages_core/meta_tags_helper.rb:77 | a list is joined with single spaces; a string is kept; nil gives "" |
| MetaTags.KeywordsOf | app/helpers/pages_core/meta_tags_helper.rb:79-81 | the stored keywords, else the page's tag list when it has tags, stripped of tags |
| MetaTags.MetaKeywords | app/helpers/pages_core/meta_tags_helper.rb:75-83 | with arguments the joined text is stored and returned; without them the fallback is read |
| MetaTags.KeywordListRoundTrip | app/helpers/pages_core/meta_tags_helper.rb:75-82 | a keyword list set is read back joined by spaces and stripped of tags |
| MetaTags.MetaDescriptionTag | app/helpers/pages_core/meta_tags_helper.rb:92-95 | a description tag exists iff `meta_description?`, with the description as content |
| MetaTags.MetaKeywordsTag | app/helpers/pages_core/meta_tags_helper.rb:97-100 | a keywords tag exists iff `meta_keywords?`, with the keywords as content |
| MetaTags.NothingSetNoTags | app/helpers/pages_core/meta_tags_helper.rb:92-100 | with nothing set and no page, neither tag is built |
| MetaTags.DescriptionTagAfterSet | app/helpers/pages_core/meta_tags_helper.rb:28-43 | a description set that does not strip to blank becomes the description tag's content |
| MetaTags.KeywordsTagAfterSet | app/helpers/pages_core/meta_tags_helper.rb:75-83 | keywords set as a list that do not strip to blank become the keywords tag's content, joined with spaces |
| MetaTags.BlankDescriptionNoTag | app/helpers/pages_core/meta_tags_helper.rb:28-43 | a description that strips to blank gives no tag, though it is stored |
| AdminPagesHelper.TemplatesForSelect | app/helpers/admin/pages_helper.rb:7-15 | one option per template in order: "index" as ("[Default]", "index"), others as (humanized, name) |
| AdminPagesHelper.TemplateValuesAreNames | app/helpers/admin/pages_helper.rb:7-15 | the option values are exactly the template names |
| AdminPagesHelper.FileEmbedCode | app/helpers/admin/pages_helper.rb:17-19 | the code is "[file:", digits, "]" |
| AdminPagesHelper.FileEmbedCodeRoundTrip | app/helpers/admin/pages_helper.rb:17-19 | the digits of the code read back as the file id |
| AdminPagesHelper.NameWithFallback | app/helpers/admin/pages_helper.rb:61-69 | the name, else the default-locale name in brackets, else "(Untitled)" |
| AdminPagesHelper.NamedPages | app/helpers/admin/pages_helper.rb:34-38 | the page alone, or the reversed `self_and_ancestors`, ending at the page |
| AdminPagesHelper.NamedPagesChain | app/helpers/admin/pages_helper.rb:34-38 | with parents the list starts at a root and each page is the parent of the next |
| AdminPagesHelper.PageName | app/helpers/admin/pages_helper.rb:33-43 | without parents, the page's escaped fallback name; with parents, the escaped names of the reversed `self_and_ancestors` joined with " &raquo; " |
| AdminPagesHelper.ParentNamePrefix | app/helpers/admin/pages_helper.rb:33-43 | with parents, a page's name is its parent's name, " &raquo; ", then its own escaped name |
| AdminPagesHelper.RootNameHasNoParents | app/helpers/admin/pages_helper.rb:33-43 | a root page reads the same with or without parents |
| AdminPagesHelper.ChildName | app/helpers/admin/pages_helper.rb:33-43 | a child of a root reads "<parent> &raquo; <child>" with parents |
| AdminPagesHelper.SameNameCount | app/helpers/admin/pages_helper.rb:22 | the count is at least 2 iff two news pages carry the page's name, and 0 iff none does |
| AdminPagesHelper.NewsSectionName | app/helpers/admin/pages_helper.rb:21-27 | parents are included iff more than one news page shares the page's name |
| AdminPagesHelper.PublishFormat | app/helpers/admin/pages_helper.rb:45-53 | the full format iff the year differs; the month-day format iff only the date differs; the time-only format iff it is today |
| AdminPagesHelper.PublishTime | app/helpers/admin/pages_helper.rb:45-53 | the time written with the chosen format |
| AdminPagesHelper.PublishTimeSameDay | app/helpers/admin/pages_helper.rb:45-53 | the text depends only on the day of "now", not on its clock time |
| AdminPagesHelper.PublishTimeWordings | app/helpers/admin/pages_helper.rb:45-53 | a moment of today is written with the clock format, one of another year with the full format |
| AdminPagesHelper.Uniq | app/helpers/admin/pages_helper.rb:30 | no repeats, the same elements, and the first element first |
| AdminPagesHelper.UniqSnoc | app/helpers/admin/pages_helper.rb:30 | an element added at the end appears at the end of the result iff it is new, so the result is the first occurrences in input order |
| AdminPagesHelper.PageAuthors | app/helpers/admin/pages_helper.rb:29-31 | the author first, then every activated user, each once |
| AdminPagesHelper.PageAuthorsSnoc | app/helpers/admin/pages_helper.rb:29-31 | one more activated user is appended iff it is neither the author nor already listed |
| StaticCache.RegisterStaticCache | app/controllers/concerns/pages_core/static_cache_controller.rb:8-16 | no hook iff caching is off; the hook covers the actions and is permanent iff asked |
| StaticCache.DisableStaticCache | app/controllers/concerns/pages_core/static_cache_controller.rb:21-23 | the instance is marked disabled |
| StaticCache.Allowed | app/controllers/concerns/pages_core/static_cache_controller.rb:43-46 | caching is allowed iff GET or HEAD, status 200, caching on and not disabled |
| StaticCache.RunHook | app/controllers/concerns/pages_core/static_cache_controller.rb:27-41 | the handler is called iff allowed, permanently iff the hook is permanent |
| StaticCache.DisabledNeverCaches | app/controllers/concerns/pages_core/static_cache_controller.rb:21-46 | after `disable_static_cache!` no hook caches |
| StaticCache.RegisteredHookCaches | app/controllers/concerns/pages_core/static_cache_controller.rb:8-41 | a registered action is cached permanently iff `permanent:` and allowed, normally iff not `permanent:` and allowed |
| StaticCache.OnlySuccessfulReads | app/controllers/concerns/pages_core/static_cache_controller.rb:43-46 | only successful GET and HEAD responses are cached |
| PageImagePolicy.Permits | app/policies/page_image_policy.rb:3-23 | index and show are always allowed; reorder, new and edit iff the user has the pages role |
| PageImagePolicy.RecordIrrelevant | app/policies/page_image_policy.rb:3-23 | no answer depends on the record |
| PageImagePolicy.ChangesGrantedTogether | app/policies/page_image_policy.rb:8-22 | reorder, new and edit are granted together |

## Left out

- SQL and persistence: `find`, `count`, `update_attribute` and the counter caches. The
  finder conditions are predicates over rows held in memory, given in the query's order.
- The language and category joins, `:order` and `:include` of the finder. They only
  shape SQL over textbit and category tables that are not part of this model.
- Sibling positions and tree storage come from the `acts_as_list` and `acts_as_tree` gems.
  Parent walks assume an acyclic table, because the code has no cycle guard.
- The image download with `curl` in the save hook, the search index, the XML import and
  export, textbit localisation, and template autodetection. These need the shell, a
  search engine, XML libraries or template configuration.
- `Time.now` is read more than once in the save hook and in `formatted_date`; the model
  reads it once, as a parameter.
- Pages.SetStatus: a float is modelled as a real number, not an IEEE double.
- PageQuery.PlanFor: the page count uses exact integer ceiling, not the float division of
  the source, which can differ for counts beyond 2^53.
- SHA1, RedCloth/Textile, `strip_tags`, `html_escape`, `humanize`, `strftime`,
  `dynamic_image_url`/`dynamic_image_tag`, `convert_to_ascii` and `localize` are
  uninterpreted function parameters.
- `Image.find` is an image-tag function that may fail. The failure stands for
  `RecordNotFound`.
- `SiteConfiguration` is not part of this model. The configuration is a map from key to
  value, and `configuration.send(key, value)` writes the map.
- The table file of `Language` is read elsewhere; its text is a parameter.
- SearchDocuments.SearchConfigurations: the table states each dictionary as the
  language name followed by "_unaccent", for the 22 locales of the source.
- `Role.define` with a taken name raises. The message interpolates an undefined local,
  so the exception is a `NameError`; the model records only that it raises.
- AdminMenu.Register: the default group is the symbol `:custom`; the model writes groups as strings, so `:custom` and "custom" are one key here, though Ruby keeps them apart.
- FrontendHelper.NavSelected: the `controller` comparison compares strings. A symbol
  parameter against a string redirect value is not distinguished.
- PageTree.ForRequest: request parameters and redirect hashes map strings to strings. A
  symbol and a string with the same text count as equal here, while Ruby's `==` tells a
  symbol value from a string value apart, so a match the source misses can match here.
  The `rescue nil` around the finder only guards against database errors, which are not
  modelled.
- FrontendHelper.FormattedDate: the caller's options hash is changed in place
  (`symbolize_keys!`, `||=` and the `:short` assignments). The model returns only the
  text and leaves the options unchanged.
- `nested_array?` in the pages helper is unused there and is not modelled.
- The policy base class is not shown. A user is represented by its role names, and
  `role?(:pages)` by membership of "pages".
- The static cache handler is not shown; a hook's effect is the handler call it makes.
- Deprecated `show_` options are modelled for the four inclusion flags only. They are
  the only options the status filter reads.

## Findings

| source | as written | input that shows it | evidently intended | confidence | as-written member | corrected member |
|---|---|---|---|---|---|---|
| app/models/page.rb:107-111 | `autopublish!` clears the flag with `update_attribute`, which saves and so runs the save hook, which sets the flag again from `published_at > now` | a Published page with autopublish on and `published_at` = now + 60 s, swept with the default 120 s fuzziness | every selected page loses the flag, so pages within the fuzziness window go live | not executed | PageQuery.SweepAsWrittenKeepsFlag | PageQuery.SweepProperties |
| app/models/user.rb:31 | the username pattern `/^[-_\w\d@\.]+$/` uses line anchors, so one good line is enough | the username `"anna\n<b>"` | the whole username consists of allowed characters (`\A…\z`) | not executed | Users.ValidateAdmitsMarkupName | Users.ValidUsername |
| lib/language.rb:72-74 | `codes` collects `l.name`, so it returns the sorted names | a one-row table with code "nob" and name "Bokmal": `codes` gives ["Bokmal"] | the sorted language codes, as the comment above it says | not executed | Languages.CodesListsNames | Languages.SortedCodes |

=== FILE: admin_controller.dfy ===
/**
 The decisions of app/controllers/pages_core/admin_controller.rb: the constant-time
 string comparison, where an unauthenticated request is sent, and where the admin
 start page redirects. Strings are compared as their bytes.
 */
module AdminController {

  import opened Wrappers
  import opened Pages
  import PageQuery

  type Byte = bv8

  /**
   `secure_compare`: false when either string is nil or the byte lengths differ;
   otherwise every byte pair is XOR-ed into one accumulator, whatever the earlier pairs
   gave, and the strings are equal when the accumulator stays zero.
   */
  method SecureCompare(compare: Option<seq<Byte>>, other: Option<seq<Byte>>) returns (equal: bool)
    ensures equal <==> compare.Some? && other.Some? && compare.value == other.value
  {
    if compare.None? || other.None? {
      return false;
    }
    var a := compare.value;
    var b := other.value;
    if |a| != |b| {
      return false;
    }
    var res: Byte := 0;
    var i := 0;
    while i < |b|
      invariant 0 <= i <= |b|
      invariant res == 0 <==> a[..i] == b[..i]
    {
      assert a[..i + 1] == a[..i] + [a[i]] && b[..i + 1] == b[..i] + [b[i]];
      res := res | (b[i] ^ a[i]);
      i := i + 1;
    }
    assert a[..i] == a && b[..i] == b;
    return res == 0;
  }

  /** What `require_authentication` does with a request. */
  datatype AuthAction = Proceed | RedirectToNewUser | RedirectToLogin

  /**
   `require_authentication`: a logged-in request proceeds; otherwise it is sent to
   create the first user when there are no users, else to the login form.
   */
  function RequireAuthentication(loggedIn: bool, userCount: nat): (r: AuthAction)
    ensures loggedIn <==> r == Proceed
    ensures !loggedIn ==> (r == RedirectToNewUser <==> userCount == 0)
  {
    if loggedIn then Proceed
    else if userCount < 1 then RedirectToNewUser
    else RedirectToLogin
  }

  /** A news page that is not deleted. */
  predicate LiveNewsPage(p: Page)
  {
    p.newsPage && p.status < Deleted
  }

  /** `Page.news_pages`: the news pages that are not deleted, filtered in table order. */
  function NewsPages(pages: seq<Page>): (r: seq<Page>)
    ensures |r| <= |pages|
    ensures forall k | 0 <= k < |r| :: r[k] in pages && r[k].newsPage && r[k].status < Deleted
    ensures forall k | 0 <= k < |pages| && pages[k].newsPage && pages[k].status < Deleted :: pages[k] in r
    ensures forall p :: multiset(r)[p] == if LiveNewsPage(p) then multiset(pages)[p] else 0
  {
    PageQuery.Filter(pages, LiveNewsPage)
  }

  /** The news pages of two tables one after the other are those of each, in that order. */
  lemma NewsPagesAppend(a: seq<Page>, b: seq<Page>)
    ensures NewsPages(a + b) == NewsPages(a) + NewsPages(b)
  {
    PageQuery.FilterAppend(a, b, LiveNewsPage);
  }

  /** `Page.news_pages?`: some news page is not deleted. */
  predicate NewsPagesExist(pages: seq<Page>)
  {
    exists k | 0 <= k < |pages| :: pages[k].newsPage && pages[k].status < Deleted
  }

  datatype AdminStart = NewsAdmin | PagesAdmin

  /** `redirect`: the news admin when there are news pages, else the pages admin. */
  function Redirect(pages: seq<Page>): (r: AdminStart)
    ensures r == NewsAdmin <==> NewsPagesExist(pages)
  {
    var news := NewsPages(pages);
    assert |news| > 0 <==> NewsPagesExist(pages) by {
      if |news| > 0 {
        assert news[0] in pages;
      }
      if NewsPagesExist(pages) {
        var k :| 0 <= k < |pages| && pages[k].newsPage && pages[k].status < Deleted;
        assert pages[k] in news;
      }
    }
    if |news| > 0 then NewsAdmin else PagesAdmin
  }
}

=== FILE: admin_menu.dfy ===
/**
 The admin menu registry of lib/pages_core/admin_menu_item.rb: entries keyed by group
 and label, kept in the order their keys were first registered (Ruby's hashes keep
 insertion order, and assigning an existing key keeps its place).
 */
module AdminMenu {

  import opened Wrappers

  /** A menu entry; `caption` is the label it is shown with. */
  datatype Entry = Entry(caption: string, path: string, group: string, options: map<string, string>)

  type Key = (string, string)

  function KeyOf(e: Entry): Key { (e.group, e.caption) }

  /** The class-level `@menu_items` hash: None until the first `register`. */
  datatype Registry = Registry(menuItems: Option<seq<Entry>>)

  const Fresh := Registry(None)

  /** No two entries share a key, as in a hash. */
  predicate KeysUnique(entries: seq<Entry>)
  {
    forall i, j | 0 <= i < j < |entries| :: KeyOf(entries[i]) != KeyOf(entries[j])
  }

  predicate Valid(reg: Registry)
  {
    reg.menuItems.Some? ==> KeysUnique(reg.menuItems.value)
  }

  /** `items`: the entries in key order, empty before any registration. */
  function Items(reg: Registry): (r: seq<Entry>)
    ensures reg.menuItems.None? ==> r == []
    ensures reg.menuItems.Some? ==> r == reg.menuItems.value
  {
    reg.menuItems.GetOr([])
  }

  /** Nothing is listed before something is registered. */
  lemma FreshIsEmpty()
    ensures Items(Fresh) == [] && Valid(Fresh)
  {
  }

  /** `new(label, path, group = :custom, options = {})`. */
  function NewEntry(caption: string, path: string, group: Option<string>, options: Option<map<string, string>>)
    : (e: Entry)
    ensures e.caption == caption && e.path == path
    ensures e.group == (if group.Some? then group.value else "custom")
    ensures e.options == (if options.Some? then options.value else map[])
  {
    Entry(caption, path, group.GetOr("custom"), options.GetOr(map[]))
  }

  /** The position of the entry with key `k`, if any. */
  function Find(entries: seq<Entry>, k: Key): (r: Option<nat>)
    ensures r.Some? ==> r.value < |entries| && KeyOf(entries[r.value]) == k
    ensures r.None? ==> forall i | 0 <= i < |entries| :: KeyOf(entries[i]) != k
  {
    if |entries| == 0 then None
    else if KeyOf(entries[0]) == k then Some(0)
    else
      match Find(entries[1..], k)
      case None => None
      case Some(i) => Some(i + 1)
  }

  /**
   `register`: store the new entry under (group, label), replacing an entry with that key
   in its place or appending it, and return the entry.
   */
  function Register(reg: Registry, caption: string, path: string, group: Option<string>,
                    options: Option<map<string, string>>): (r: (Entry, Registry))
    requires Valid(reg)
    ensures r.0 == NewEntry(caption, path, group, options)
    ensures Valid(r.1) && r.1.menuItems.Some?
    ensures r.0 in Items(r.1)
    ensures var before := Items(reg);
            var after := Items(r.1);
            && (forall i | 0 <= i < |before| && KeyOf(before[i]) == KeyOf(r.0) :: after == before[i := r.0])
            && ((forall i | 0 <= i < |before| :: KeyOf(before[i]) != KeyOf(r.0)) ==> after == before + [r.0])
  {
    var e := NewEntry(caption, path, group, options);
    var entries := Items(reg);
    match Find(entries, KeyOf(e))
    case Some(i) =>
      var after := entries[i := e];
      assert KeysUnique(after) by {
        forall a, b | 0 <= a < b < |after| ensures KeyOf(after[a]) != KeyOf(after[b]) {
          if a == i || b == i {
            assert KeyOf(after[a]) == KeyOf(entries[a]) && KeyOf(after[b]) == KeyOf(entries[b]);
          }
        }
      }
      assert after[i] == e;
      (e, Registry(Some(after)))
    case None =>
      (e, Registry(Some(entries + [e])))
  }

  /** Registering under a taken key keeps the number of entries. */
  lemma ReRegisterKeepsCount(reg: Registry, caption: string, path: string, path2: string,
                             group: Option<string>, options: Option<map<string, string>>)
    requires Valid(reg)
    ensures var once := Register(reg, caption, path, group, options).1;
            var twice := Register(once, caption, path2, group, options);
            |Items(twice.1)| == |Items(once)| && twice.0.path == path2
  {
    var once := Register(reg, caption, path, group, options);
    var e := once.0;
    var i :| 0 <= i < |Items(once.1)| && Items(once.1)[i] == e;
    var e2 := NewEntry(caption, path2, group, options);
    assert KeyOf(Items(once.1)[i]) == KeyOf(e2);
  }
}

=== FILE: frontend_helper.dfy ===
/**
 The frontend helpers of app/helpers/pages_core/frontend_helper.rb: the date text with
 its "Today"/"Yesterday" shortcut and Norwegian or English names, and the rule that
 marks a navigation item as selected. Today, yesterday and the current year are
 parameters; dates carry their weekday.
 */
module FrontendHelper {

  import opened Wrappers
  import opened Text
  import opened Pages
  import opened PageTree

  /** A calendar date; `weekday` is 0 for Sunday, as `%w` gives it. */
  datatype Date = Date(year: int, month: int, day: int, weekday: int)

  predicate ValidDate(d: Date)
  {
    1 <= d.month <= 12 && 1 <= d.day <= 31 && 0 <= d.weekday <= 6
  }

  /** The options `formatted_date` reads, each as its truth value. */
  datatype DateOptions = DateOptions(
    includeDay: bool, short: bool, shortMonth: bool, shortDay: bool,
    capitalizeDay: bool, includeYear: bool)

  const NorMonths: seq<string> := ["januar", "februar", "mars", "april", "mai", "juni", "juli", "august", "september", "oktober", "november", "desember"]
  const NorShortMonths: seq<string> := ["jan", "feb", "mar", "apr", "mai", "jun", "jul", "aug", "sep", "okt", "nov", "des"]
  const NorDays: seq<string> := ["søndag", "mandag", "tirsdag", "onsdag", "torsdag", "fredag", "lørdag"]
  const NorShortDays: seq<string> := ["søn", "man", "tir", "ons", "tor", "fre", "lør"]
  const EnMonths: seq<string> := ["January", "February", "March", "April", "May", "June", "July", "August", "September", "October", "November", "December"]
  const EnShortMonths: seq<string> := ["Jan", "Feb", "Mar", "Apr", "May", "Jun", "Jul", "Aug", "Sep", "Oct", "Nov", "Dec"]
  const EnDays: seq<string> := ["Sunday", "Monday", "Tuesday", "Wednesday", "Thursday", "Friday", "Saturday"]
  const EnShortDays: seq<string> := ["Sun", "Mon", "Tue", "Wed", "Thu", "Fri", "Sat"]

  /** `options[:short_month], options[:short_day] = true`: short months, and short days switched off. */
  function Effective(o: DateOptions): (e: DateOptions)
    ensures o.short ==> e.shortMonth && !e.shortDay
    ensures !o.short ==> e == o
  {
    if o.short then o.(shortMonth := true, shortDay := false) else o
  }

  /** The month names for the locale (`@locale.to_s`). */
  function Months(locale: string, short: bool): (r: seq<string>)
    ensures |r| == 12
    ensures locale == "nor" ==> r == (if short then NorShortMonths else NorMonths)
    ensures locale != "nor" ==> r == (if short then EnShortMonths else EnMonths)
  {
    if locale == "nor" then (if short then NorShortMonths else NorMonths)
    else (if short then EnShortMonths else EnMonths)
  }

  /** The day names for the locale, lower-cased unless `capitalize` is set. */
  function Days(locale: string, short: bool, capitalize: bool): (r: seq<string>)
    ensures |r| == 7
  {
    var days := if locale == "nor" then (if short then NorShortDays else NorDays)
                else (if short then EnShortDays else EnDays);
    if capitalize then days else seq(7, k requires 0 <= k < 7 => Lower(days[k]))
  }

  /** A run of zeros. */
  function Zeros(n: nat): (r: string)
    ensures |r| == n && AllDigits(r) && forall k | 0 <= k < n :: r[k] == '0'
  {
    if n == 0 then "" else "0" + Zeros(n - 1)
  }

  /** `strftime("%Y")`: the year padded with zeros to four digits, with a minus sign when negative. */
  function YearText(y: int): (r: string)
    ensures |r| >= 4
    ensures y >= 0 <==> IsDigit(r[0])
    ensures y < 0 ==> r[0] == '-'
  {
    var digits := NatToString(if y < 0 then -y else y);
    var padded := if |digits| >= 4 then digits else Zeros(4 - |digits|) + digits;
    if y < 0 then "-" + padded else padded
  }

  /** Leading zeros do not change the value of a digit string. */
  lemma {:induction false} ZerosValue(n: nat, s: string)
    requires AllDigits(s)
    ensures DigitsValue(Zeros(n) + s) == DigitsValue(s)
    decreases |s|, n
  {
    if |s| == 0 {
      assert Zeros(n) + s == Zeros(n);
      if n > 0 {
        assert Zeros(n)[..n - 1] == Zeros(n - 1) + "" by {
          assert forall k | 0 <= k < n - 1 :: Zeros(n)[k] == '0';
        }
        ZerosValue(n - 1, "");
      }
    } else {
      var t := Zeros(n) + s;
      assert t[..|t| - 1] == Zeros(n) + s[..|s| - 1];
      ZerosValue(n, s[..|s| - 1]);
    }
  }

  /** The value a non-negative year's text denotes is the year. */
  lemma YearTextValue(y: int)
    requires y >= 0
    ensures AllDigits(YearText(y)) && DigitsValue(YearText(y)) == y
  {
    var digits := NatToString(y);
    NatToStringValue(y);
    if |digits| < 4 {
      ZerosValue(4 - |digits|, digits);
    }
  }

  /** Different years have different texts, so comparing the texts compares the years. */
  lemma YearTextInjective(a: int, b: int)
    ensures YearText(a) == YearText(b) <==> a == b
  {
    if YearText(a) == YearText(b) {
      if a >= 0 && b >= 0 {
        YearTextValue(a);
        YearTextValue(b);
      } else if a < 0 && b < 0 {
        YearTextValue(-a);
        YearTextValue(-b);
        assert YearText(a)[1..] == YearText(-a);
        assert YearText(b)[1..] == YearText(-b);
      }
    }
  }

  /** The weekday name and a space, with `include_day`; nothing otherwise. */
  function DayPart(date: Date, e: DateOptions, locale: string): string
    requires ValidDate(date)
  {
    if e.includeDay then Days(locale, e.shortDay, e.capitalizeDay)[date.weekday] + " " else ""
  }

  /** "<day>. <month>". */
  function DayMonth(date: Date, e: DateOptions, locale: string): string
    requires ValidDate(date)
  {
    NatToString(date.day) + ". " + Months(locale, e.shortMonth)[date.month - 1]
  }

  /** A space and the year, when the year's text differs from the current one's or `include_year` is set. */
  function YearPart(date: Date, e: DateOptions, currentYear: int): string
  {
    if YearText(date.year) != YearText(currentYear) || e.includeYear then " " + YearText(date.year) else ""
  }

  /**
   `formatted_date`: "Today" for today and "Yesterday" for yesterday whatever the
   options; otherwise "<day>. <month>", preceded by the weekday and a space with
   `include_day`, and followed by " <year>" when the year's text differs from the current
   year's or `include_year` is set.
   */
  function FormattedDate(date: Date, o: DateOptions, locale: string, today: Date, yesterday: Date, currentYear: int)
    : (r: string)
    requires ValidDate(date)
    ensures date == today ==> r == "Today"
    ensures date != today && date == yesterday ==> r == "Yesterday"
  {
    if date == today then "Today"
    else if date == yesterday then "Yesterday"
    else
      var e := Effective(o);
      DayPart(date, e, locale) + DayMonth(date, e, locale) + YearPart(date, e, currentYear)
  }

  /**
   The parts of the date text on a day that is neither today nor yesterday: the optional
   day name, "D. Month", then " YYYY" exactly when the year differs from the current one
   or `include_year` is set.
   */
  lemma FormattedDateParts(date: Date, o: DateOptions, locale: string, today: Date, yesterday: Date, currentYear: int)
    requires ValidDate(date) && date != today && date != yesterday
    ensures var r := FormattedDate(date, o, locale, today, yesterday, currentYear);
            var dayPart := DayPart(date, Effective(o), locale);
            var core := DayMonth(date, Effective(o), locale);
            && StartsWith(r, dayPart)
            && r[|dayPart|..|dayPart| + |core|] == core
            && ((date.year != currentYear || o.includeYear) ==> r == dayPart + core + " " + YearText(date.year))
            && (!(date.year != currentYear || o.includeYear) ==> r == dayPart + core)
  {
    YearTextInjective(date.year, currentYear);
    var e := Effective(o);
    var dayPart := DayPart(date, e, locale);
    var core := DayMonth(date, e, locale);
    var yearPart := YearPart(date, e, currentYear);
    assert e.includeYear == o.includeYear;
    assert yearPart == if date.year != currentYear || o.includeYear then " " + YearText(date.year) else "";
    ThreeParts(dayPart, core, yearPart);
    if yearPart != "" {
      assert (dayPart + core) + (" " + YearText(date.year)) == dayPart + core + " " + YearText(date.year);
    } else {
      assert dayPart + core + "" == dayPart + core;
    }
  }

  /** A text made of three parts starts with the first and holds the second right after it. */
  lemma ThreeParts(a: string, b: string, c: string)
    ensures (a + b + c)[..|a|] == a && (a + b + c)[|a|..|a| + |b|] == b
  {
  }

  /** Every date text other than "Today" and "Yesterday" holds the dot after the day number. */
  lemma DotAfterDay(date: Date, o: DateOptions, locale: string, today: Date, yesterday: Date, currentYear: int)
    requires ValidDate(date) && date != today && date != yesterday
    ensures '.' in FormattedDate(date, o, locale, today, yesterday, currentYear)
  {
    var e := Effective(o);
    var dayPart := DayPart(date, e, locale);
    var core := DayMonth(date, e, locale);
    var digits := NatToString(date.day);
    assert core[|digits|] == '.';
    var r := dayPart + core + YearPart(date, e, currentYear);
    ThreeParts(dayPart, core, YearPart(date, e, currentYear));
    assert r[|dayPart|..|dayPart| + |core|][|digits|] == '.';
    assert r[|dayPart| + |digits|] == '.';
  }

  /** "Today" and "Yesterday" come out exactly for today and yesterday: every other date text holds ". ". */
  lemma TodayYesterdayExactly(date: Date, o: DateOptions, locale: string, today: Date, yesterday: Date, currentYear: int)
    requires ValidDate(date)
    ensures FormattedDate(date, o, locale, today, yesterday, currentYear) == "Today" <==> date == today
    ensures FormattedDate(date, o, locale, today, yesterday, currentYear) == "Yesterday" <==> date != today && date == yesterday
  {
    if date != today && date != yesterday {
      DotAfterDay(date, o, locale, today, yesterday, currentYear);
      assert '.' !in "Today" && '.' !in "Yesterday";
    }
  }

  /** `:short` turns short day names off, so asking for them as well changes nothing. */
  lemma ShortKeepsFullDayNames(date: Date, o: DateOptions, locale: string, today: Date, yesterday: Date, currentYear: int)
    requires ValidDate(date) && o.short
    ensures FormattedDate(date, o.(shortDay := true), locale, today, yesterday, currentYear)
         == FormattedDate(date, o.(shortDay := false), locale, today, yesterday, currentYear)
  {
  }

  /** Norwegian names are used exactly for the "nor" locale: its month names differ from the English ones. */
  lemma NorwegianMonthNames(short: bool, month: int)
    requires 1 <= month <= 12
    ensures Months("nor", short)[month - 1] == (if short then NorShortMonths else NorMonths)[month - 1]
    ensures Months("en", short)[month - 1] == (if short then EnShortMonths else EnMonths)[month - 1]
    ensures Months("nor", short)[month - 1] != Months("en", short)[month - 1]
  {
    var k := month - 1;
    assert IsLower(Months("nor", short)[k][0]) && IsUpper(Months("en", short)[k][0]);
  }

  /** A moment: its date and the clock time, which `formatted_time` ignores. */
  datatype Time = Time(date: Date, seconds: int)

  /** `formatted_time`: the text of the moment's date, as `formatted_date` gives it. */
  function FormattedTime(time: Time, o: DateOptions, locale: string, today: Date, yesterday: Date, currentYear: int)
    : (r: string)
    requires ValidDate(time.date)
    ensures r == FormattedDate(time.date, o, locale, today, yesterday, currentYear)
  {
    FormattedDate(time.date, o, locale, today, yesterday, currentYear)
  }

  /** Two moments of the same day are written the same way, whatever their clock times. */
  lemma FormattedTimeIgnoresClock(t1: Time, t2: Time, o: DateOptions, locale: string, today: Date, yesterday: Date, currentYear: int)
    requires ValidDate(t1.date) && t1.date == t2.date
    ensures FormattedTime(t1, o, locale, today, yesterday, currentYear) == FormattedTime(t2, o, locale, today, yesterday, currentYear)
  {
  }

  // ---- nav_list_item -------------------------------------------------------------

  /** The `:controller` of a redirect hash, nil when it has none. */
  function ControllerOf(h: map<string, string>): (c: Option<string>)
    ensures c.Some? <==> "controller" in h
    ensures c.Some? ==> c.value == h["controller"]
  {
    if "controller" in h then Some(h["controller"]) else None
  }

  /**
   Whether `nav_list_item` marks the page selected: its redirect is an options hash whose
   controller is the current one, or it is the current page (`@page`) or one of its
   ancestors.
   */
  function NavSelected(db: Db, page: PageId, current: Option<PageId>, controller: Option<string>): (selected: bool)
    requires Acyclic(db) && page in db
    requires current.Some? ==> current.value in db
    ensures selected <==>
              || (Redirects(db[page]) && db[page].redirectTo.RedirectOptions?
                  && ControllerOf(db[page].redirectTo.options) == controller)
              || (current.Some? && (current.value == page || page in Ancestors(db, current.value)))
  {
    var p := db[page];
    var viaRedirect := Redirects(p) && match RedirectToOptions(p, map[])
      case RedirectOptions(h) => ControllerOf(h) == controller
      case _ => false;
    NavSelectedByRedirect(p, controller);
    viaRedirect || (current.Some? && page in SelfAndAncestors(db, current.value))
  }

  /** The redirect branch reads the page's own hash: merging it over no options changes nothing. */
  lemma NavSelectedByRedirect(p: Page, controller: Option<string>)
    ensures (Redirects(p) && match RedirectToOptions(p, map[])
               case RedirectOptions(h) => ControllerOf(h) == controller
               case _ => false)
            <==> Redirects(p) && p.redirectTo.RedirectOptions? && ControllerOf(p.redirectTo.options) == controller
  {
    if p.redirectTo.RedirectOptions? {
      MergeWithNothing(p);
    }
  }

  /** The item's markup: the selected class on the list item when selected. */
  function NavListItem(link: string, selected: bool, selectedClass: Option<string>): (r: string)
    ensures selected ==> r == "<li class=\"" + selectedClass.GetOr("selected") + "\">" + link + "</li>"
    ensures !selected ==> r == "<li>" + link + "</li>"
  {
    if selected then "<li class=\"" + selectedClass.GetOr("selected") + "\">" + link + "</li>"
    else "<li>" + link + "</li>"
  }

  /** The root of the current page is always selected, as are all pages on the way up. */
  lemma AncestorsAreSelected(db: Db, current: PageId, controller: Option<string>)
    requires Acyclic(db) && current in db
    ensures forall k | 0 <= k < |Ancestors(db, current)| ::
              NavSelected(db, Ancestors(db, current)[k], Some(current), controller)
  {
  }
}

=== FILE: html_formatter.dfy ===
/**
 `PagesCore::HtmlFormatter` of lib/pages_core/html_formatter.rb: image placeholders are
 replaced by image tags, the text is optionally shortened and appended to, and the
 result goes through Textile. The image lookup and tag builder and the Textile
 renderer are parameters.
 */
module HtmlFormatter {

  import opened Wrappers
  import opened Text

  /** The options the formatter reads. */
  datatype Options = Options(shorten: Option<int>, append: Option<string>)

  /** `Image.find(id)` raises when there is no image with the id. */
  datatype FormatError = ImageNotFound(id: string)

  /** The number of digits at the start of `s`. */
  function LeadingDigitCount(s: string): (n: nat)
    ensures n <= |s| && forall k | 0 <= k < n :: IsDigit(s[k])
    ensures n < |s| ==> !IsDigit(s[n])
  {
    if |s| == 0 || !IsDigit(s[0]) then 0 else 1 + LeadingDigitCount(s[1..])
  }

  const Opening := "[image:"

  /** The length of the `[image:<digits>]` placeholder at the start of `s`, if one is there. */
  function PlaceholderAt(s: string): (r: Option<nat>)
    ensures r.Some? ==> 9 <= r.value <= |s| && StartsWith(s, Opening) && s[r.value - 1] == ']'
    ensures r.Some? ==> AllDigits(s[7..r.value - 1]) && r.value == 8 + LeadingDigitCount(s[7..])
    ensures r.None? ==> !StartsWith(s, Opening) || LeadingDigitCount(s[7..]) == 0
                        || 7 + LeadingDigitCount(s[7..]) == |s| || s[7 + LeadingDigitCount(s[7..])] != ']'
  {
    if !StartsWith(s, Opening) then None
    else
      var n := LeadingDigitCount(s[7..]);
      if n > 0 && 7 + n < |s| && s[7 + n] == ']' then Some(8 + n) else None
  }

  /**
   `parse_images`: scanning left to right, each `[image:<digits>]` becomes the tag of
   that image (`imageTag`, None when the image does not exist, which raises); the rest
   is copied.
   */
  function ParseImages(s: string, imageTag: string -> Option<string>): (r: Result<string, FormatError>)
    ensures r.Err? ==> r.error.id != "" && AllDigits(r.error.id) && imageTag(r.error.id).None?
    ensures (forall id :: imageTag(id).Some?) ==> r.Ok?
    decreases |s|
  {
    if |s| == 0 then Ok("")
    else
      match PlaceholderAt(s)
      case Some(len) =>
        (match imageTag(s[7..len - 1])
         case None => Err(ImageNotFound(s[7..len - 1]))
         case Some(tag) =>
           match ParseImages(s[len..], imageTag)
           case Ok(rest) => Ok(tag + rest)
           case Err(e) => Err(e))
      case None =>
        match ParseImages(s[1..], imageTag)
        case Ok(rest) => Ok([s[0]] + rest)
        case Err(e) => Err(e)
  }

  /** Text with no "[" holds no placeholder and is left as it is. */
  lemma {:induction false} NoPlaceholderUnchanged(s: string, imageTag: string -> Option<string>)
    requires '[' !in s
    ensures ParseImages(s, imageTag) == Ok(s)
    decreases |s|
  {
    if |s| > 0 {
      assert !StartsWith(s, Opening) by { assert s[0] != '['; }
      NoPlaceholderUnchanged(s[1..], imageTag);
      assert [s[0]] + s[1..] == s;
    }
  }

  /** A placeholder at the start becomes the image's tag; a missing image is an error. */
  lemma PlaceholderReplaced(digits: string, rest: string, imageTag: string -> Option<string>)
    requires |digits| > 0 && AllDigits(digits)
    ensures var s := Opening + digits + "]" + rest;
            && (imageTag(digits).None? ==> ParseImages(s, imageTag) == Err(ImageNotFound(digits)))
            && (imageTag(digits).Some? && ParseImages(rest, imageTag).Ok? ==>
                  ParseImages(s, imageTag) == Ok(imageTag(digits).value + ParseImages(rest, imageTag).value))
  {
    var s := Opening + digits + "]" + rest;
    assert StartsWith(s, Opening);
    assert s[7..] == digits + "]" + rest;
    var n := LeadingDigitCount(s[7..]);
    assert n == |digits| by {
      assert (digits + "]" + rest)[|digits|] == ']';
    }
    assert PlaceholderAt(s) == Some(8 + |digits|);
    assert s[7..8 + |digits| - 1] == digits;
    assert s[8 + |digits|..] == rest;
  }

  /**
   `string[0..n] + "..."` when the option is set and the text is longer than `n`. The
   range is inclusive; a negative `n` counts from the end and gives "" below the start.
   */
  function Shorten(s: string, shorten: Option<int>): (r: string)
    ensures shorten.None? || |s| <= shorten.value ==> r == s
    ensures shorten.Some? && 0 <= shorten.value < |s| ==>
              r == s[..shorten.value + 1] + "..." && |r| == shorten.value + 4
    ensures shorten.Some? && shorten.value < 0 && |s| + shorten.value >= 0 ==>
              r == s[..|s| + shorten.value + 1] + "..."
    ensures shorten.Some? && |s| + shorten.value < 0 ==> r == "..."
  {
    match shorten
    case None => s
    case Some(n) =>
      if |s| > n then
        var end := if n >= 0 then n else |s| + n;
        (if end < 0 then "" else s[..end + 1]) + "..."
      else s
  }

  /** `string += " #{append}"` when the option is set. */
  function Append(s: string, append: Option<string>): (r: string)
    ensures append.None? ==> r == s
    ensures append.Some? ==> r == s + " " + append.value
  {
    match append
    case None => s
    case Some(a) => s + " " + a
  }

  /** The text handed to Textile: images substituted, then shortened, then appended to. */
  function Prepare(s: string, options: Options, imageTag: string -> Option<string>): (r: Result<string, FormatError>)
    ensures ParseImages(s, imageTag).Err? <==> r.Err?
    ensures r.Ok? ==> r.value == Append(Shorten(ParseImages(s, imageTag).value, options.shorten), options.append)
  {
    match ParseImages(s, imageTag)
    case Err(e) => Err(e)
    case Ok(parsed) => Ok(Append(Shorten(parsed, options.shorten), options.append))
  }

  /** A formatter instance: the text and the options it was built with. */
  datatype Formatter = Formatter(text: string, options: Options)

  /** `to_html` of an instance: Textile applied to the prepared text. */
  function ToHtml(f: Formatter, imageTag: string -> Option<string>, textile: string -> string)
    : (r: Result<string, FormatError>)
    ensures r.Ok? <==> Prepare(f.text, f.options, imageTag).Ok?
    ensures r.Ok? ==> r.value == textile(Prepare(f.text, f.options, imageTag).value)
  {
    match Prepare(f.text, f.options, imageTag)
    case Err(e) => Err(e)
    case Ok(t) => Ok(textile(t))
  }

  /** The class-level `to_html` builds an instance and renders it. */
  function ClassToHtml(s: string, options: Options, imageTag: string -> Option<string>, textile: string -> string)
    : (r: Result<string, FormatError>)
    ensures r == ToHtml(Formatter(s, options), imageTag, textile)
  {
    ToHtml(Formatter(s, options), imageTag, textile)
  }

  /** Plain text longer than the limit keeps its first n+1 characters, then "...", then the appended text. */
  lemma ShortenedPlainText(s: string, n: nat, append: string, imageTag: string -> Option<string>)
    requires '[' !in s && n < |s|
    ensures Prepare(s, Options(Some(n), Some(append)), imageTag) == Ok(s[..n + 1] + "..." + " " + append)
  {
    NoPlaceholderUnchanged(s, imageTag);
  }

  /** A text within the limit is never cut: shortening keeps exactly what a missing option keeps. */
  lemma ShortenNeedsLongText(s: string, n: int, append: Option<string>, imageTag: string -> Option<string>)
    requires ParseImages(s, imageTag).Ok? && |ParseImages(s, imageTag).value| <= n
    ensures Prepare(s, Options(Some(n), append), imageTag) == Prepare(s, Options(None, append), imageTag)
  {
  }
}

=== FILE: language.dfy ===
/**
 The ISO 639-3 language table of lib/language.rb: the parser of the tab-separated
 table text, the lookups by code and by name with the definition cache, and the sorted
 name lists. The table file is read elsewhere; its text is a parameter.
 */
module Languages {

  import opened Wrappers
  import opened Text
  import opened Sorting

  /** One row of the table; a field the row does not have is nil. */
  datatype Definition = Definition(
    iso639_3: Option<string>,
    iso639_2b: Option<string>,
    iso639_2t: Option<string>,
    iso639_1: Option<string>,
    scope: Option<string>,
    kind: Option<string>,
    name: Option<string>)

  /** `Definition#code`: the ISO 639-3 code, whatever kind of code is asked for. */
  function Code(d: Definition): Option<string>
  {
    d.iso639_3
  }

  // ---- load_data -------------------------------------------------------------

  /** `s` ends in a carriage return. */
  predicate EndsInCR(s: string)
  {
    |s| > 0 && s[|s| - 1] == '\r'
  }

  /** `s` without one carriage return at its end. */
  function DropCR(s: string): (r: string)
    ensures EndsInCR(s) ==> r + "\r" == s
    ensures !EndsInCR(s) ==> r == s
  {
    if EndsInCR(s) then s[..|s| - 1] else s
  }

  /** Every field followed by a line feed loses the carriage return the separator swallowed. */
  function StripSeparatorCR(fields: seq<string>): (r: seq<string>)
    ensures |r| == |fields|
    ensures forall k | 0 <= k < |r| - 1 :: r[k] == DropCR(fields[k])
    ensures |r| > 0 ==> r[|r| - 1] == fields[|fields| - 1]
  {
    if |fields| <= 1 then fields else [DropCR(fields[0])] + StripSeparatorCR(fields[1..])
  }

  /** `split(/[\r]?\n/)`: the lines, ended by "\n" or "\r\n", trailing empty lines dropped. */
  function SplitLines(text: string): (r: seq<string>)
    ensures forall k | 0 <= k < |r| :: '\n' !in r[k]
    ensures |r| > 0 ==> r[|r| - 1] != ""
  {
    var fields := Lines(text);
    var stripped := StripSeparatorCR(fields);
    assert forall k | 0 <= k < |stripped| :: '\n' !in stripped[k] by {
      forall k | 0 <= k < |stripped| ensures '\n' !in stripped[k] {
        if k < |stripped| - 1 {
          assert '\n' !in fields[k];
          assert forall j | 0 <= j < |DropCR(fields[k])| :: DropCR(fields[k])[j] == fields[k][j];
        }
      }
    }
    DropTrailingEmpty(stripped)
  }

  /** The `k`-th field, or nil past the end (multiple assignment pads with nil). */
  function FieldAt(fields: seq<string>, k: nat): (r: Option<string>)
    ensures k < |fields| <==> r.Some?
    ensures r.Some? ==> r.value == fields[k]
  {
    if k < |fields| then Some(fields[k]) else None
  }

  predicate IsTab(c: char) { c == '\t' }

  /**
   One line: its tab fields, trailing empty ones dropped, in the order of the columns.
   A line without a tab holds only a code, and an empty line holds nothing.
   */
  function ParseLine(line: string): (d: Definition)
    ensures '\t' !in line ==> d == Definition(if line == "" then None else Some(line), None, None, None, None, None, None)
  {
    var f := SplitOn(line, IsTab);
    assert '\t' !in line ==> f == (if line == "" then [] else [line]) by {
      if '\t' !in line {
        FieldsOfNoSep(line, IsTab);
      }
    }
    Definition(FieldAt(f, 0), FieldAt(f, 1), FieldAt(f, 2), FieldAt(f, 3), FieldAt(f, 4), FieldAt(f, 5), FieldAt(f, 6))
  }

  /**
   Fields joined with tabs come back in the columns iso639_3, iso639_2b, iso639_2t,
   iso639_1, scope, type and name, in that order; a column with no field is nil.
   */
  lemma ParseLineOfFields(fields: seq<string>)
    requires forall i | 0 <= i < |fields| :: '\t' !in fields[i]
    requires |fields| > 0 ==> fields[|fields| - 1] != ""
    ensures ParseLine(Join(fields, "\t")) ==
            Definition(FieldAt(fields, 0), FieldAt(fields, 1), FieldAt(fields, 2), FieldAt(fields, 3),
                       FieldAt(fields, 4), FieldAt(fields, 5), FieldAt(fields, 6))
  {
    if |fields| > 0 {
      assert forall i | 0 <= i < |fields| :: NoSep(fields[i], IsTab);
      FieldsOfJoin(fields, '\t', IsTab);
    }
  }

  /** `load_data`, over the text of the table file. */
  function LoadData(text: string): (r: seq<Definition>)
    ensures |r| == |SplitLines(text)|
    ensures forall k | 0 <= k < |r| :: r[k] == ParseLine(SplitLines(text)[k])
  {
    seq(|SplitLines(text)|, k requires 0 <= k < |SplitLines(text)| => ParseLine(SplitLines(text)[k]))
  }

  /** Lines that hold no line break and do not end in a carriage return. */
  predicate PlainLines(lines: seq<string>)
  {
    forall k | 0 <= k < |lines| :: '\n' !in lines[k] && !EndsInCR(lines[k])
  }

  /** A line end: "\n", or "\r\n" whose carriage return stays in the field before it. */
  predicate LineEnd(eol: string)
  {
    eol == "\n" || eol == "\r\n"
  }

  /** The line end without its final line feed: "" or "\r". */
  function CarriageOf(eol: string): (cr: string)
    requires LineEnd(eol)
    ensures cr + ['\n'] == eol && '\n' !in cr
  {
    eol[..|eol| - 1]
  }

  /** Joined lines start with the first line, the line end's carriage part and a line feed. */
  lemma JoinedHead(lines: seq<string>, eol: string)
    requires |lines| >= 2 && LineEnd(eol)
    ensures Join(lines, eol) == (lines[0] + CarriageOf(eol)) + ['\n'] + Join(lines[1..], eol)
  {
    var c := CarriageOf(eol);
    var rest := Join(lines[1..], eol);
    assert Join(lines, eol) == lines[0] + eol + rest;
    assert eol == c + ['\n'];
    assert lines[0] + (c + ['\n']) == (lines[0] + c) + ['\n'];
  }

  /** A line without line feed keeps none when the carriage part is added. */
  lemma HeadHasNoLineFeed(line: string, eol: string)
    requires LineEnd(eol) && '\n' !in line
    ensures forall j | 0 <= j < |line + CarriageOf(eol)| :: (line + CarriageOf(eol))[j] != '\n'
  {
    var h := line + CarriageOf(eol);
    forall j | 0 <= j < |h| ensures h[j] != '\n' {
      if j < |line| {
        assert h[j] == line[j];
      } else {
        assert h[j] == CarriageOf(eol)[j - |line|];
      }
    }
  }

  /** A line feed after a line without line feeds ends its first line. */
  lemma LinesCons(head: string, rest: string)
    requires forall j | 0 <= j < |head| :: head[j] != '\n'
    ensures Lines(head + ['\n'] + rest) == [head] + Lines(rest)
  {
    FieldsCons(head, '\n', rest, c => c == '\n');
  }

  /** Fields that are the lines followed by the line end's carriage part, except the last. */
  predicate CarriedLines(fields: seq<string>, lines: seq<string>, eol: string)
    requires LineEnd(eol)
  {
    && |fields| == |lines| >= 1 && PlainLines(lines)
    && fields[|fields| - 1] == lines[|lines| - 1]
    && forall k | 0 <= k < |lines| - 1 :: fields[k] == lines[k] + CarriageOf(eol)
  }

  /** Dropping the first field and the first line keeps the shape. */
  lemma CarriedTails(fields: seq<string>, lines: seq<string>, eol: string)
    requires LineEnd(eol) && CarriedLines(fields, lines, eol) && |fields| > 1
    ensures CarriedLines(fields[1..], lines[1..], eol)
  {
    var fs := fields[1..];
    var ls := lines[1..];
    forall k | 0 <= k < |ls| ensures '\n' !in ls[k] && !EndsInCR(ls[k]) {
      assert ls[k] == lines[k + 1];
    }
    forall k | 0 <= k < |ls| - 1 ensures fs[k] == ls[k] + CarriageOf(eol) {
      assert fs[k] == fields[k + 1] && ls[k] == lines[k + 1];
    }
  }

  /** A plain line, with the carriage part after it, goes in front of the shape. */
  lemma CarriedCons(line: string, fields: seq<string>, lines: seq<string>, eol: string)
    requires LineEnd(eol) && CarriedLines(fields, lines, eol)
    requires '\n' !in line && !EndsInCR(line)
    ensures CarriedLines([line + CarriageOf(eol)] + fields, [line] + lines, eol)
  {
    var fs := [line + CarriageOf(eol)] + fields;
    var ls := [line] + lines;
    forall k | 0 <= k < |ls| ensures '\n' !in ls[k] && !EndsInCR(ls[k]) {
      if k > 0 {
        assert ls[k] == lines[k - 1];
      }
    }
    forall k | 0 <= k < |ls| - 1 ensures fs[k] == ls[k] + CarriageOf(eol) {
      if k > 0 {
        assert fs[k] == fields[k - 1] && ls[k] == lines[k - 1];
      }
    }
  }

  /** The tail of plain lines is plain. */
  lemma PlainTail(lines: seq<string>)
    requires |lines| >= 1 && PlainLines(lines)
    ensures PlainLines(lines[1..]) && '\n' !in lines[0] && !EndsInCR(lines[0])
  {
    forall k | 0 <= k < |lines| - 1 ensures '\n' !in lines[1..][k] && !EndsInCR(lines[1..][k]) {
      assert lines[1..][k] == lines[k + 1];
    }
  }

  /** Splitting lines joined with a line end gives them back, each but the last followed by the line end's "\r" if any. */
  lemma {:induction false} FieldsOfJoinedLines(lines: seq<string>, eol: string)
    requires |lines| >= 1 && PlainLines(lines) && LineEnd(eol)
    ensures CarriedLines(Lines(Join(lines, eol)), lines, eol)
    decreases |lines|
  {
    PlainTail(lines);
    if |lines| == 1 {
      assert forall j | 0 <= j < |lines[0]| :: lines[0][j] != '\n';
      FieldsOfNoSep(lines[0], c => c == '\n');
      assert Lines(Join(lines, eol)) == lines;
    } else {
      var head := lines[0] + CarriageOf(eol);
      var rest := Join(lines[1..], eol);
      JoinedHead(lines, eol);
      HeadHasNoLineFeed(lines[0], eol);
      LinesCons(head, rest);
      FieldsOfJoinedLines(lines[1..], eol);
      CarriedCons(lines[0], Lines(rest), lines[1..], eol);
      assert [lines[0]] + lines[1..] == lines;
    }
  }

  /** Dropping the carriage return the line end left behind gives the line back. */
  lemma DropCarriage(line: string, eol: string)
    requires LineEnd(eol) && !EndsInCR(line)
    ensures DropCR(line + CarriageOf(eol)) == line
  {
    if eol == "\r\n" {
      assert (line + CarriageOf(eol))[..|line|] == line;
    }
  }

  /** Fields that are the lines with the line end's carriage part lose it again. */
  lemma {:induction false} StripCarriages(fields: seq<string>, lines: seq<string>, eol: string)
    requires LineEnd(eol) && CarriedLines(fields, lines, eol)
    ensures StripSeparatorCR(fields) == lines
    decreases |fields|
  {
    if |fields| > 1 {
      DropCarriage(lines[0], eol);
      CarriedTails(fields, lines, eol);
      StripCarriages(fields[1..], lines[1..], eol);
      assert StripSeparatorCR(fields) == [DropCR(fields[0])] + StripSeparatorCR(fields[1..]);
      assert lines == [lines[0]] + lines[1..];
    }
  }

  /** Removing the separators' carriage returns from the split of joined lines gives the lines. */
  lemma StrippedJoinedLines(lines: seq<string>, eol: string)
    requires |lines| >= 1 && PlainLines(lines) && LineEnd(eol)
    ensures StripSeparatorCR(Lines(Join(lines, eol))) == lines
  {
    FieldsOfJoinedLines(lines, eol);
    StripCarriages(Lines(Join(lines, eol)), lines, eol);
  }

  /** Lines joined with "\n" or with "\r\n" are split back into the same lines. */
  lemma SplitLinesRoundTrip(lines: seq<string>, eol: string)
    requires |lines| >= 1 && PlainLines(lines) && lines[|lines| - 1] != ""
    requires LineEnd(eol)
    ensures SplitLines(Join(lines, eol)) == lines
  {
    StrippedJoinedLines(lines, eol);
    assert SplitLines(Join(lines, eol)) == DropTrailingEmpty(lines);
  }

  /** The table text made of lines gives one definition per line, each parsed on its own, in order. */
  lemma LoadDataOfLines(lines: seq<string>, eol: string)
    requires |lines| >= 1 && PlainLines(lines) && lines[|lines| - 1] != ""
    requires LineEnd(eol)
    ensures LoadData(Join(lines, eol)) == MapSeq(lines, ParseLine)
  {
    SplitLinesRoundTrip(lines, eol);
  }

  // ---- lookups ---------------------------------------------------------------

  /** A definition a code names, by its ISO 639-3 or ISO 639-1 code. */
  predicate HasCode(d: Definition, code: Option<string>)
  {
    d.iso639_3 == code || d.iso639_1 == code
  }

  /** The first definition with the code, as `select{...}.first` finds it. */
  function Lookup(defs: seq<Definition>, code: Option<string>): (r: Option<Definition>)
    ensures r.Some? ==> r.value in defs && HasCode(r.value, code)
    ensures r.None? <==> forall k | 0 <= k < |defs| :: !HasCode(defs[k], code)
    ensures r.Some? ==> exists k | 0 <= k < |defs| :: defs[k] == r.value && forall j | 0 <= j < k :: !HasCode(defs[j], code)
  {
    if |defs| == 0 then None
    else if HasCode(defs[0], code) then Some(defs[0])
    else
      var r := Lookup(defs[1..], code);
      assert r.Some? ==> exists k | 0 <= k < |defs| :: defs[k] == r.value && forall j | 0 <= j < k :: !HasCode(defs[j], code) by {
        if r.Some? {
          var k :| 0 <= k < |defs[1..]| && defs[1..][k] == r.value && forall j | 0 <= j < k :: !HasCode(defs[1..][j], code);
          assert defs[k + 1] == r.value;
        }
      }
      r
  }

  /** The class variables: the loaded table (nil before loading) and the definition cache. */
  datatype State = State(languages: Option<seq<Definition>>, cache: map<Option<string>, Option<Definition>>)

  /** The state agrees with the table text: what is loaded is its data, what is cached is what a lookup gives. */
  ghost predicate Consistent(s: State, text: string)
  {
    (s.languages.Some? ==> s.languages.value == LoadData(text))
    && forall c | c in s.cache && s.cache[c].Some? :: s.cache[c] == Lookup(LoadData(text), c)
  }

  /** `@@languages ||= Language.load_data`. */
  function Load(s: State, text: string): (r: (seq<Definition>, State))
    ensures r.1.languages == Some(r.0) && r.1.cache == s.cache
    ensures s.languages.Some? ==> r.0 == s.languages.value
    ensures Consistent(s, text) ==> r.0 == LoadData(text) && Consistent(r.1, text)
  {
    match s.languages
    case Some(defs) => (defs, s)
    case None => var defs := LoadData(text); (defs, s.(languages := Some(defs)))
  }

  /**
   `definition(code)`: a cached definition when there is one (a cached nil does not
   count), otherwise the first match in the table, which is then cached.
   */
  function DefinitionFor(s: State, text: string, code: Option<string>): (r: (Option<Definition>, State))
    ensures Consistent(s, text) ==> r.0 == Lookup(LoadData(text), code) && Consistent(r.1, text)
  {
    if code in s.cache && s.cache[code].Some? then (s.cache[code], s)
    else
      var (defs, s1) := Load(s, text);
      var d := Lookup(defs, code);
      (d, s1.(cache := s1.cache[code := d]))
  }

  /** Asking twice gives the same answer: the cache never changes a result. */
  lemma DefinitionStable(s: State, text: string, code: Option<string>, other: Option<string>)
    requires Consistent(s, text)
    ensures var s1 := DefinitionFor(s, text, other).1;
            DefinitionFor(s1, text, code).0 == DefinitionFor(s, text, code).0
  {
  }

  /** `name_for_code`: the name of the first definition with the code; nil when there is none. */
  function NameForCode(defs: seq<Definition>, code: Option<string>): (r: Option<string>)
    ensures Lookup(defs, code).None? ==> r.None?
    ensures Lookup(defs, code).Some? ==> r == Lookup(defs, code).value.name
  {
    match Lookup(defs, code)
    case Some(d) => d.name
    case None => None
  }

  /** The first definition with the name. */
  function LookupName(defs: seq<Definition>, name: Option<string>): (r: Option<Definition>)
    ensures r.Some? ==> r.value in defs && r.value.name == name
    ensures r.None? <==> forall k | 0 <= k < |defs| :: defs[k].name != name
    ensures r.Some? ==> exists i | 0 <= i < |defs| :: defs[i] == r.value && forall j | 0 <= j < i :: defs[j].name != name
  {
    if |defs| == 0 then None
    else if defs[0].name == name then Some(defs[0])
    else
      var rest := LookupName(defs[1..], name);
      assert rest.Some? ==> exists i | 0 <= i < |defs| :: defs[i] == rest.value && forall j | 0 <= j < i :: defs[j].name != name by {
        if rest.Some? {
          var i :| 0 <= i < |defs[1..]| && defs[1..][i] == rest.value && forall j | 0 <= j < i :: defs[1..][j].name != name;
          assert defs[i + 1] == rest.value && forall j | 0 <= j < i + 1 :: defs[j].name != name;
        }
      }
      rest
  }

  /** `code_for_name`: the ISO 639-3 code of the first definition with the name. */
  function CodeForName(defs: seq<Definition>, name: Option<string>): (r: Option<string>)
    ensures LookupName(defs, name).None? ==> r.None?
    ensures LookupName(defs, name).Some? ==> r == LookupName(defs, name).value.iso639_3
  {
    match LookupName(defs, name)
    case Some(d) => Code(d)
    case None => None
  }

  /** `String#to_language_name`: the name for the code, else the string itself. */
  function ToLanguageName(defs: seq<Definition>, s: string): (r: string)
    ensures NameForCode(defs, Some(s)).Some? ==> r == NameForCode(defs, Some(s)).value
    ensures NameForCode(defs, Some(s)).None? ==> r == s
  {
    NameForCode(defs, Some(s)).GetOr(s)
  }

  /** `String#to_language_code`: the code for the name, else the string itself. */
  function ToLanguageCode(defs: seq<Definition>, s: string): (r: string)
    ensures CodeForName(defs, Some(s)).Some? ==> r == CodeForName(defs, Some(s)).value
    ensures CodeForName(defs, Some(s)).None? ==> r == s
  {
    CodeForName(defs, Some(s)).GetOr(s)
  }

  /**
   Going from a language's name to its code and back gives the name, when the first
   definition with that name is also the first with its code.
   */
  lemma NameCodeRoundTrip(defs: seq<Definition>, name: string)
    requires LookupName(defs, Some(name)).Some?
    requires var d := LookupName(defs, Some(name)).value;
             d.iso639_3.Some? && Lookup(defs, d.iso639_3) == Some(d)
    ensures ToLanguageName(defs, ToLanguageCode(defs, name)) == name
  {
  }

  // ---- sorted lists -------------------------------------------------------------

  /** Comparing nil with a string raises during the sort. */
  datatype SortError = NilComparedWithString

  /**
   Sorting by a name that may be nil: sorted when every name is present, unchanged when
   every name is nil (nil equals nil), and an error when both occur, since any sort
   then compares a nil with a string.
   */
  function SortByName<T>(xs: seq<T>, name: T -> Option<string>): (r: Result<seq<T>, SortError>)
    ensures (forall k | 0 <= k < |xs| :: name(xs[k]).Some?) ==>
              r.Ok? && SortedBy(r.value, x => name(x).GetOr("")) && multiset(r.value) == multiset(xs)
    ensures (forall k | 0 <= k < |xs| :: name(xs[k]).None?) ==> r == Ok(xs)
    ensures r.Err? <==> (exists k | 0 <= k < |xs| :: name(xs[k]).Some?) && (exists k | 0 <= k < |xs| :: name(xs[k]).None?)
  {
    if forall k | 0 <= k < |xs| :: name(xs[k]).Some? then Ok(SortBy(xs, x => name(x).GetOr("")))
    else if forall k | 0 <= k < |xs| :: name(xs[k]).None? then Ok(xs)
    else Err(NilComparedWithString)
  }

  /** The names of the definitions, in table order. */
  function NameList(defs: seq<Definition>): seq<Option<string>>
  {
    MapSeq(defs, (d: Definition) => d.name)
  }

  /** `names`: the names of all definitions, sorted. */
  function Names(defs: seq<Definition>): (r: Result<seq<Option<string>>, SortError>)
    ensures (forall k | 0 <= k < |defs| :: defs[k].name.Some?) ==>
              r.Ok? && |r.value| == |defs| && multiset(r.value) == multiset(NameList(defs))
              && forall i, j | 0 <= i < j < |r.value| :: StrLe(r.value[i].GetOr(""), r.value[j].GetOr(""))
  {
    var r := SortByName(NameList(defs), (n: Option<string>) => n);
    assert r.Ok? ==> |r.value| == |multiset(r.value)|;
    r
  }

  /** `codes`: as written it collects the names, so it is the sorted name list. */
  function Codes(defs: seq<Definition>): (r: Result<seq<Option<string>>, SortError>)
    ensures r == Names(defs)
  {
    SortByName(NameList(defs), (n: Option<string>) => n)
  }

  /** The ISO 639-3 codes of the definitions, in table order. */
  function CodeList(defs: seq<Definition>): seq<Option<string>>
  {
    MapSeq(defs, Code)
  }

  /** `codes` as its comment describes it: the codes of all definitions, sorted. */
  function SortedCodes(defs: seq<Definition>): (r: Result<seq<Option<string>>, SortError>)
    ensures (forall k | 0 <= k < |defs| :: Code(defs[k]).Some?) ==>
              r.Ok? && |r.value| == |defs| && multiset(r.value) == multiset(CodeList(defs))
              && forall i, j | 0 <= i < j < |r.value| :: StrLe(r.value[i].GetOr(""), r.value[j].GetOr(""))
  {
    var r := SortByName(CodeList(defs), (n: Option<string>) => n);
    assert r.Ok? ==> |r.value| == |multiset(r.value)|;
    r
  }

  /** A one-row table where `codes` answers with the language's name instead of its code. */
  lemma CodesListsNames()
    ensures var d := Definition(Some("nob"), None, None, Some("nb"), Some("I"), Some("L"), Some("Bokmal"));
            Codes([d]) == Ok([Some("Bokmal")]) && SortedCodes([d]) == Ok([Some("nob")])
  {
    var d := Definition(Some("nob"), None, None, Some("nb"), Some("I"), Some("L"), Some("Bokmal"));
    assert NameList([d]) == [Some("Bokmal")];
    assert CodeList([d]) == [Some("nob")];
  }

  /** An entry of `codes_and_names`. */
  datatype CodeAndName = CodeAndName(code: Option<string>, name: Option<string>)

  function Pairs(defs: seq<Definition>): (r: seq<CodeAndName>)
    ensures |r| == |defs| && forall k | 0 <= k < |r| :: r[k] == CodeAndName(Code(defs[k]), defs[k].name)
  {
    seq(|defs|, k requires 0 <= k < |defs| => CodeAndName(Code(defs[k]), defs[k].name))
  }

  /** `codes_and_names`: code and name of every definition, sorted by name. */
  function CodesAndNames(defs: seq<Definition>): (r: Result<seq<CodeAndName>, SortError>)
    ensures (forall k | 0 <= k < |defs| :: defs[k].name.Some?) ==>
              r.Ok? && multiset(r.value) == multiset(Pairs(defs))
              && SortedBy(r.value, (e: CodeAndName) => e.name.GetOr(""))
  {
    SortByName(Pairs(defs), (e: CodeAndName) => e.name)
  }

  /** Sorting keeps every entry: each definition's pair is in the sorted list, which is no longer. */
  lemma CodesAndNamesComplete(defs: seq<Definition>)
    requires forall k | 0 <= k < |defs| :: defs[k].name.Some?
    ensures CodesAndNames(defs).Ok?
    ensures |CodesAndNames(defs).value| == |defs|
    ensures forall k | 0 <= k < |defs| :: CodeAndName(Code(defs[k]), defs[k].name) in CodesAndNames(defs).value
  {
    var r := CodesAndNames(defs).value;
    var pairs := Pairs(defs);
    assert |r| == |multiset(r)| == |multiset(pairs)| == |pairs|;
    forall k | 0 <= k < |defs| ensures CodeAndName(Code(defs[k]), defs[k].name) in r {
      assert pairs[k] in multiset(pairs);
    }
  }
}

=== FILE: meta_tags.dfy ===
/**
 The meta-tag helpers of app/helpers/pages_core/meta_tags_helper.rb. Each accessor
 stores its first argument when called with a truthy argument and otherwise reads,
 falling back to the current page's fields. The view's instance variables are an
 explicit state record; `strip_tags` and the image URL builder are parameters.
 */
module MetaTags {

  import opened Wrappers
  import opened Text

  /** An image given to the helpers: a path, or an `Image` record. */
  datatype ImageRef = ImagePath(path: string) | ImageRecord(id: nat)

  /** The fields of `@page` the helpers read. */
  datatype PageFields = PageFields(
    metaDescription: Option<string>,
    excerpt: string,
    metaImage: Option<ImageRef>,
    image: Option<ImageRef>,
    tagCount: nat,
    tagList: string)

  /** The instance variables; nil until set. */
  datatype MetaState = MetaState(
    defaultMetaImage: Option<ImageRef>,
    metaDescription: Option<string>,
    metaImage: Option<ImageRef>,
    metaKeywords: Option<string>)

  const Unset := MetaState(None, None, None, None)

  /** `args.any?`: some argument is truthy (here: not nil). */
  predicate AnyArg<T>(args: seq<Option<T>>)
  {
    exists k | 0 <= k < |args| :: args[k].Some?
  }

  /** The text of an optional value after `strip_tags`, which keeps nil as nil. */
  function Strip(s: Option<string>, stripTags: string -> string): (r: Option<string>)
    ensures r.Some? <==> s.Some?
    ensures s.Some? ==> r.value == stripTags(s.value)
  {
    match s
    case None => None
    case Some(t) => Some(stripTags(t))
  }

  // ---- default_meta_image --------------------------------------------------------

  /** `default_meta_image(*args)`: store the first argument, or read the stored one. */
  function DefaultMetaImage(st: MetaState, args: seq<Option<ImageRef>>): (r: (Option<ImageRef>, MetaState))
    ensures AnyArg(args) ==> r.0 == args[0] && r.1 == st.(defaultMetaImage := args[0])
    ensures !AnyArg(args) ==> r.0 == st.defaultMetaImage && r.1 == st
  {
    if AnyArg(args) then (args[0], st.(defaultMetaImage := args[0])) else (st.defaultMetaImage, st)
  }

  /** `default_meta_image?`: a default is stored. */
  predicate HasDefaultMetaImage(st: MetaState)
  {
    DefaultMetaImage(st, []).0.Some?
  }

  // ---- meta_description --------------------------------------------------------------

  /**
   The description read back: the stored one, else the page's meta description when it
   is present, else the page's excerpt when it is not empty; tags stripped.
   */
  function DescriptionOf(st: MetaState, page: Option<PageFields>, stripTags: string -> string): (r: Option<string>)
    ensures st.metaDescription.Some? ==> r == Some(stripTags(st.metaDescription.value))
    ensures st.metaDescription.None? && page.Some? && !BlankOpt(page.value.metaDescription) ==>
              r == Some(stripTags(page.value.metaDescription.value))
    ensures st.metaDescription.None? && page.Some? && BlankOpt(page.value.metaDescription) && page.value.excerpt != "" ==>
              r == Some(stripTags(page.value.excerpt))
    ensures r.None? <==> st.metaDescription.None? &&
                         (page.None? || (BlankOpt(page.value.metaDescription) && page.value.excerpt == ""))
  {
    var d := st.metaDescription;
    var d := if d.None? && page.Some? && !BlankOpt(page.value.metaDescription) then page.value.metaDescription else d;
    var d := if d.None? && page.Some? && page.value.excerpt != "" then Some(page.value.excerpt) else d;
    Strip(d, stripTags)
  }

  /** `meta_description(*args)`: store the first argument, or read the description. */
  function MetaDescription(st: MetaState, page: Option<PageFields>, args: seq<Option<string>>, stripTags: string -> string)
    : (r: (Option<string>, MetaState))
    ensures AnyArg(args) ==> r.1 == st.(metaDescription := args[0]) && r.0 == args[0]
    ensures !AnyArg(args) ==> r.1 == st && r.0 == DescriptionOf(st, page, stripTags)
  {
    if AnyArg(args) then (args[0], st.(metaDescription := args[0]))
    else (DescriptionOf(st, page, stripTags), st)
  }

  /** A description that was set is what is read back, tags stripped, whatever the page says. */
  lemma DescriptionSetThenGet(st: MetaState, page: Option<PageFields>, d: string, stripTags: string -> string)
    ensures var st1 := MetaDescription(st, page, [Some(d)], stripTags).1;
            MetaDescription(st1, page, [], stripTags).0 == Some(stripTags(d))
  {
    assert AnyArg([Some(d)]) by { assert [Some(d)][0].Some?; }
  }

  /** `meta_description?`: the description read is not blank. */
  predicate HasMetaDescription(st: MetaState, page: Option<PageFields>, stripTags: string -> string)
  {
    !BlankOpt(DescriptionOf(st, page, stripTags))
  }

  // ---- meta_image ------------------------------------------------------------------

  /** The image chosen: the stored one, else the page's meta image, else its image, else the default. */
  function ChosenImage(st: MetaState, page: Option<PageFields>): (r: Option<ImageRef>)
    ensures st.metaImage.Some? ==> r == st.metaImage
    ensures st.metaImage.None? && page.Some? && page.value.metaImage.Some? ==> r == page.value.metaImage
    ensures st.metaImage.None? && (page.None? || page.value.metaImage.None?) && page.Some? && page.value.image.Some? ==>
              r == page.value.image
    ensures r.None? <==> st.metaImage.None? && st.defaultMetaImage.None? &&
                         (page.None? || (page.value.metaImage.None? && page.value.image.None?))
    ensures st.metaImage.None? && (page.None? || (page.value.metaImage.None? && page.value.image.None?)) ==>
              r == st.defaultMetaImage
  {
    var i := st.metaImage;
    var i := if i.None? && page.Some? then page.value.metaImage else i;
    var i := if i.None? && page.Some? then page.value.image else i;
    if i.None? then st.defaultMetaImage else i
  }

  /** The image read back: an `Image` record becomes its URL (`imageUrl`), a path is returned as it is. */
  function ImageOf(st: MetaState, page: Option<PageFields>, imageUrl: nat -> string): (r: Option<string>)
    ensures r.None? <==> ChosenImage(st, page).None?
    ensures ChosenImage(st, page).Some? && ChosenImage(st, page).value.ImagePath? ==> r == Some(ChosenImage(st, page).value.path)
    ensures ChosenImage(st, page).Some? && ChosenImage(st, page).value.ImageRecord? ==> r == Some(imageUrl(ChosenImage(st, page).value.id))
  {
    match ChosenImage(st, page)
    case None => None
    case Some(ImagePath(p)) => Some(p)
    case Some(ImageRecord(id)) => Some(imageUrl(id))
  }

  /** What `meta_image` returns: the value it stored, or the image it read. */
  datatype ImageAnswer = StoredImage(stored: Option<ImageRef>) | ReadImage(url: Option<string>)

  /** `meta_image(*args)`: store the first argument, or read the image. */
  function MetaImage(st: MetaState, page: Option<PageFields>, args: seq<Option<ImageRef>>, imageUrl: nat -> string)
    : (r: (ImageAnswer, MetaState))
    ensures AnyArg(args) ==> r.0 == StoredImage(args[0]) && r.1 == st.(metaImage := args[0])
    ensures !AnyArg(args) ==> r.0 == ReadImage(ImageOf(st, page, imageUrl)) && r.1 == st
  {
    if AnyArg(args) then (StoredImage(args[0]), st.(metaImage := args[0]))
    else (ReadImage(ImageOf(st, page, imageUrl)), st)
  }

  /** An image set explicitly wins over the page's images and the default. */
  lemma ExplicitImageWins(st: MetaState, page: Option<PageFields>, img: ImageRef, imageUrl: nat -> string)
    ensures var st1 := MetaImage(st, page, [Some(img)], imageUrl).1;
            MetaImage(st1, page, [], imageUrl).0 ==
              ReadImage(Some(if img.ImagePath? then img.path else imageUrl(img.id)))
  {
    assert AnyArg([Some(img)]) by { assert [Some(img)][0].Some?; }
  }

  /** `meta_image?`: the image read is not blank, or a default is set. */
  predicate HasMetaImage(st: MetaState, page: Option<PageFields>, imageUrl: nat -> string)
  {
    !BlankOpt(ImageOf(st, page, imageUrl)) || HasDefaultMetaImage(st)
  }

  /** With a default image set there is always a meta image, even one whose path is blank. */
  lemma DefaultImageSuffices(st: MetaState, page: Option<PageFields>, imageUrl: nat -> string, img: ImageRef)
    ensures HasMetaImage(DefaultMetaImage(st, [Some(img)]).1, page, imageUrl)
  {
    assert AnyArg([Some(img)]) by { assert [Some(img)][0].Some?; }
  }

  // ---- meta_keywords ---------------------------------------------------------------

  /** The argument of the keywords setter, as `Array(...)` sees it. */
  datatype Keywords = KeywordText(s: string) | KeywordList(words: seq<string>)

  /** `Array(arg).join(" ")`: a list is joined with single spaces, a string is kept, nil gives "". */
  function KeywordsText(k: Option<Keywords>): (r: string)
    ensures k.None? ==> r == ""
    ensures k.Some? && k.value.KeywordText? ==> r == k.value.s
    ensures k.Some? && k.value.KeywordList? ==> r == Join(k.value.words, " ")
  {
    match k
    case None => ""
    case Some(KeywordText(s)) => s
    case Some(KeywordList(ws)) => Join(ws, " ")
  }

  /** The keywords read back: the stored ones, else the page's tag list when it has tags; tags stripped. */
  function KeywordsOf(st: MetaState, page: Option<PageFields>, stripTags: string -> string): (r: Option<string>)
    ensures st.metaKeywords.Some? ==> r == Some(stripTags(st.metaKeywords.value))
    ensures st.metaKeywords.None? && page.Some? && page.value.tagCount > 0 ==> r == Some(stripTags(page.value.tagList))
    ensures st.metaKeywords.None? && (page.None? || page.value.tagCount == 0) ==> r.None?
  {
    var k := st.metaKeywords;
    var k := if k.None? && page.Some? && page.value.tagCount > 0 then Some(page.value.tagList) else k;
    Strip(k, stripTags)
  }

  /** `meta_keywords(*args)`: store the joined first argument, or read the keywords. */
  function MetaKeywords(st: MetaState, page: Option<PageFields>, args: seq<Option<Keywords>>, stripTags: string -> string)
    : (r: (Option<string>, MetaState))
    ensures AnyArg(args) ==> r.1 == st.(metaKeywords := Some(KeywordsText(args[0])))
    ensures AnyArg(args) ==> r.0 == Some(KeywordsText(args[0])) && r.0 == r.1.metaKeywords
    ensures !AnyArg(args) ==> r.1 == st && r.0 == KeywordsOf(st, page, stripTags)
  {
    if AnyArg(args) then
      var text := KeywordsText(args[0]);
      (Some(text), st.(metaKeywords := Some(text)))
    else (KeywordsOf(st, page, stripTags), st)
  }

  /** Keywords given as a list are read back joined with single spaces. */
  lemma KeywordListRoundTrip(st: MetaState, page: Option<PageFields>, words: seq<string>, stripTags: string -> string)
    ensures var st1 := MetaKeywords(st, page, [Some(KeywordList(words))], stripTags).1;
            MetaKeywords(st1, page, [], stripTags).0 == Some(stripTags(Join(words, " ")))
  {
    assert AnyArg([Some(KeywordList(words))]) by { assert [Some(KeywordList(words))][0].Some?; }
  }

  /** `meta_keywords?`: the keywords read are not blank. */
  predicate HasMetaKeywords(st: MetaState, page: Option<PageFields>, stripTags: string -> string)
  {
    !BlankOpt(KeywordsOf(st, page, stripTags))
  }

  // ---- tags --------------------------------------------------------------------------

  /** A `<meta name=... content=...>` tag. */
  datatype MetaTag = MetaTag(name: string, content: string)

  /** `meta_description_tag`: nothing unless there is a description. */
  function MetaDescriptionTag(st: MetaState, page: Option<PageFields>, stripTags: string -> string): (r: Option<MetaTag>)
    ensures r.Some? <==> HasMetaDescription(st, page, stripTags)
    ensures r.Some? ==> r.value == MetaTag("description", DescriptionOf(st, page, stripTags).value)
  {
    if HasMetaDescription(st, page, stripTags) then Some(MetaTag("description", DescriptionOf(st, page, stripTags).value))
    else None
  }

  /** `meta_keywords_tag`: nothing unless there are keywords. */
  function MetaKeywordsTag(st: MetaState, page: Option<PageFields>, stripTags: string -> string): (r: Option<MetaTag>)
    ensures r.Some? <==> HasMetaKeywords(st, page, stripTags)
    ensures r.Some? ==> r.value == MetaTag("keywords", KeywordsOf(st, page, stripTags).value)
  {
    if HasMetaKeywords(st, page, stripTags) then Some(MetaTag("keywords", KeywordsOf(st, page, stripTags).value))
    else None
  }

  /** Without a page and before anything is set, no tag is written. */
  lemma NothingSetNoTags(stripTags: string -> string)
    ensures MetaDescriptionTag(Unset, None, stripTags).None?
    ensures MetaKeywordsTag(Unset, None, stripTags).None?
  {
  }

  /** A description set with tags that do not strip to blank is written as the description tag. */
  lemma DescriptionTagAfterSet(st: MetaState, page: Option<PageFields>, d: string, stripTags: string -> string)
    requires !Blank(stripTags(d))
    ensures var st1 := MetaDescription(st, page, [Some(d)], stripTags).1;
            MetaDescriptionTag(st1, page, stripTags) == Some(MetaTag("description", stripTags(d)))
  {
    assert AnyArg([Some(d)]) by { assert [Some(d)][0].Some?; }
  }

  /** Keywords set as a list whose joined text does not strip to blank are written as the keywords tag. */
  lemma KeywordsTagAfterSet(st: MetaState, page: Option<PageFields>, words: seq<string>, stripTags: string -> string)
    requires !Blank(stripTags(Join(words, " ")))
    ensures var st1 := MetaKeywords(st, page, [Some(KeywordList(words))], stripTags).1;
            MetaKeywordsTag(st1, page, stripTags) == Some(MetaTag("keywords", stripTags(Join(words, " "))))
  {
    assert AnyArg([Some(KeywordList(words))]) by { assert [Some(KeywordList(words))][0].Some?; }
  }

  /** A description that strips to blank writes no tag, even when one was set. */
  lemma BlankDescriptionNoTag(st: MetaState, page: Option<PageFields>, d: string, stripTags: string -> string)
    requires Blank(stripTags(d))
    ensures var st1 := MetaDescription(st, page, [Some(d)], stripTags).1;
            MetaDescriptionTag(st1, page, stripTags).None?
  {
    assert AnyArg([Some(d)]) by { assert [Some(d)][0].Some?; }
  }
}

=== FILE: page_image_policy.dfy ===
/**
 The authorisation rules of app/policies/page_image_policy.rb for a page's images.
 A user is represented by the names of the roles it holds; `role?(:pages)` asks
 whether "pages" is among them. The record the policy is built with is a type
 parameter, since no answer looks at it.
 */
module PageImagePolicy {

  /** The actions the policy answers for. */
  datatype Action = Index | Show | Reorder | New | Edit

  datatype Policy<R> = Policy(userRoles: seq<string>, record: R)

  predicate HasRole(roles: seq<string>, name: string)
  {
    name in roles
  }

  /** `index?`, `show?`, `reorder?`, `new?` and `edit?`. */
  function Permits<R>(p: Policy<R>, a: Action): (b: bool)
    ensures a == Index || a == Show ==> b
    ensures a == Reorder || a == New || a == Edit ==> (b <==> "pages" in p.userRoles)
  {
    match a
    case Index => true
    case Show => true
    case Reorder => HasRole(p.userRoles, "pages")
    case New => HasRole(p.userRoles, "pages")
    case Edit => HasRole(p.userRoles, "pages")
  }

  /** No answer depends on the record: two policies for the same user agree on every action. */
  lemma RecordIrrelevant<R>(roles: seq<string>, r1: R, r2: R, a: Action)
    ensures Permits(Policy(roles, r1), a) == Permits(Policy(roles, r2), a)
  {
  }

  /** The changing actions are granted together: a user may reorder iff it may add iff it may edit. */
  lemma ChangesGrantedTogether<R>(p: Policy<R>)
    ensures Permits(p, Reorder) == Permits(p, New) == Permits(p, Edit)
    ensures !Permits(p, Edit) ==> Permits(p, Index) && Permits(p, Show)
  {
  }
}

=== FILE: page_query.dfy ===
/**
 The page finders of app/models/page.rb over rows held in memory: the conditions
 `get_pages_options` builds (parent, status and autopublish, publication dates,
 comments), the pagination arithmetic of `get_pages`, and the `autopublish!` sweep.
 A condition becomes a predicate on a row; the rows are given in the query's order.
 */
module PageQuery {

  import opened Wrappers
  import opened Text
  import opened Pages

  // ---- status and autopublish -----------------------------------------------------

  /** The inclusion flags after `:all` has been folded into the others. */
  datatype Flags = Flags(all: bool, deleted: bool, hidden: bool, drafts: bool, autopublish: bool)

  /**
   The truth of option `name`. A deprecated `show_<name>` option is copied over
   `<name>` before anything else reads it, so it wins when both are given.
   */
  predicate Flag(opts: map<string, bool>, name: string)
  {
    var legacy := "show_" + name;
    if legacy in opts then opts[legacy] else name in opts && opts[name]
  }

  /** The `||=` defaults: every inclusion flag is on when `:all` is. */
  function FlagsOf(opts: map<string, bool>): (f: Flags)
    ensures f.all == Flag(opts, "all")
    ensures f.all ==> f.deleted && f.hidden && f.drafts && f.autopublish
    ensures !f.all ==> f == Flags(false, Flag(opts, "deleted"), Flag(opts, "hidden"),
                                  Flag(opts, "drafts"), Flag(opts, "autopublish"))
  {
    var all := Flag(opts, "all");
    Flags(all, Flag(opts, "deleted") || all, Flag(opts, "hidden") || all,
          Flag(opts, "drafts") || all, Flag(opts, "autopublish") || all)
  }

  /**
   The status and autopublish conditions. With no inclusion flag only published rows
   pass; otherwise each flag that is off removes its status (deleted: 4 and above,
   hidden: 3, drafts: below 2). Autopublished rows need the autopublish flag.
   */
  predicate PassesStatus(p: Page, f: Flags)
    ensures IsPublished(p) ==> PassesStatus(p, f)
    ensures p.autopublish && !f.autopublish ==> !PassesStatus(p, f)
  {
    var s := p.status;
    (if !(f.all || f.deleted || f.hidden || f.drafts) then s == Published
     else (f.deleted || s < Deleted) && (f.hidden || s != Hidden) && (f.drafts || s >= Published))
    && (f.autopublish || !p.autopublish)
  }

  /** With no options at all the finder returns exactly the published pages. */
  lemma DefaultIsPublished(p: Page)
    ensures PassesStatus(p, FlagsOf(map[])) <==> IsPublished(p)
  {
  }

  /** `:all` lets every row through. */
  lemma AllPassesEverything(p: Page, opts: map<string, bool>)
    requires Flag(opts, "all")
    ensures PassesStatus(p, FlagsOf(opts))
  {
  }

  /** A published page passes whatever the flags. */
  lemma PublishedAlwaysPasses(p: Page, f: Flags)
    requires IsPublished(p)
    ensures PassesStatus(p, f)
  {
  }

  /** A row waiting for autopublishing passes only when autopublished rows are asked for. */
  lemma AutopublishNeedsFlag(p: Page, f: Flags)
    requires p.autopublish && PassesStatus(p, f)
    ensures f.autopublish
  {
  }

  /** Turning on more flags never removes a row. */
  predicate FlagsLe(f: Flags, g: Flags)
  {
    (f.all ==> g.all) && (f.deleted ==> g.deleted) && (f.hidden ==> g.hidden)
    && (f.drafts ==> g.drafts) && (f.autopublish ==> g.autopublish)
  }

  lemma PassesMonotone(p: Page, f: Flags, g: Flags)
    requires FlagsLe(f, g) && PassesStatus(p, f)
    ensures PassesStatus(p, g)
  {
  }

  /** A deprecated `show_hidden` overrides `hidden`. */
  lemma ShowPrefixWins(opts: map<string, bool>)
    requires "show_hidden" in opts && "hidden" in opts && !Flag(opts, "all")
    ensures FlagsOf(opts).hidden == opts["show_hidden"]
  {
    assert "show_" + "hidden" == "show_hidden";
  }

  // ---- the other conditions ----------------------------------------------------

  /** The `:parent`/`:parents` option, pages given by id. */
  datatype ParentScope = AnyParent | RootOnly | ParentIn(ids: seq<PageId>) | ParentIs(id: PageId)

  datatype Query = Query(
    flags: map<string, bool>,
    parent: ParentScope,
    publishedBefore: Option<Time>,
    publishedAfter: Option<Time>,
    publishedWithin: Option<(Time, Time)>,   // first and last of the range
    comments: bool)

  /** The SQL the finder builds is rejected: `IN ()` for an empty parent collection. */
  datatype QueryError = EmptyParentList

  predicate InParentScope(p: Page, scope: ParentScope)
  {
    match scope
    case AnyParent => true
    case RootOnly => p.parentId.None?
    case ParentIn(ids) => p.parentId.Some? && p.parentId.value in ids
    case ParentIs(id) => p.parentId == Some(id)
  }

  /** `published_within` replaces both bounds; `published_before`/`_after` are inclusive. */
  function DateBounds(q: Query): (r: (Option<Time>, Option<Time>))
    ensures q.publishedWithin.Some? ==> r == (Some(q.publishedWithin.value.1), Some(q.publishedWithin.value.0))
    ensures q.publishedWithin.None? ==> r == (q.publishedBefore, q.publishedAfter)
  {
    match q.publishedWithin
    case Some(range) => (Some(range.1), Some(range.0))
    case None => (q.publishedBefore, q.publishedAfter)
  }

  /** A bound compares with the stored column; a row without a publication time fails it. */
  predicate WithinDates(p: Page, q: Query)
  {
    var (before, after) := DateBounds(q);
    (before.None? || (p.publishedAt.Some? && p.publishedAt.value <= before.value))
    && (after.None? || (p.publishedAt.Some? && p.publishedAt.value >= after.value))
  }

  /** Every condition of the query holds for the row. */
  predicate Matches(p: Page, q: Query)
  {
    InParentScope(p, q.parent) && PassesStatus(p, FlagsOf(q.flags)) && WithinDates(p, q)
    && (!q.comments || p.commentsCount > 0)
  }

  /** The elements of `s` that `keep` accepts, in their order. */
  function Filter<T(==,!new)>(s: seq<T>, keep: T -> bool): (r: seq<T>)
    ensures |r| <= |s|
    ensures forall k | 0 <= k < |r| :: r[k] in s && keep(r[k])
    ensures forall k | 0 <= k < |s| && keep(s[k]) :: s[k] in r
    ensures forall x :: multiset(r)[x] == if keep(x) then multiset(s)[x] else 0
  {
    if |s| == 0 then []
    else
      var rest := Filter(s[1..], keep);
      var r := if keep(s[0]) then [s[0]] + rest else rest;
      CountStep(s, keep, rest);
      CountsMembership(r, s, keep);
      r
  }

  /** `r` holds the elements of `s` that `keep` accepts, each as often as `s` does, and no others. */
  ghost predicate Counts<T(!new)>(r: seq<T>, s: seq<T>, keep: T -> bool)
  {
    forall x :: multiset(r)[x] == if keep(x) then multiset(s)[x] else 0
  }

  /** Filtering the tail, then putting the head in front when accepted, keeps the counts right. */
  lemma CountStep<T(!new)>(s: seq<T>, keep: T -> bool, rest: seq<T>)
    requires |s| > 0 && Counts(rest, s[1..], keep)
    ensures Counts(if keep(s[0]) then [s[0]] + rest else rest, s, keep)
  {
    var x := s[0];
    assert s == [x] + s[1..];
    var r := if keep(x) then [x] + rest else rest;
    forall y ensures multiset(r)[y] == if keep(y) then multiset(s)[y] else 0 {
      assert multiset(s)[y] == multiset(s[1..])[y] + (if y == x then 1 else 0);
      assert multiset(r)[y] == multiset(rest)[y] + (if keep(x) && y == x then 1 else 0);
    }
  }

  /** Right counts give membership in both directions. */
  lemma CountsMembership<T(!new)>(r: seq<T>, s: seq<T>, keep: T -> bool)
    requires Counts(r, s, keep)
    ensures forall k | 0 <= k < |r| :: r[k] in s && keep(r[k])
    ensures forall k | 0 <= k < |s| && keep(s[k]) :: s[k] in r
  {
    forall k | 0 <= k < |r| ensures r[k] in s && keep(r[k]) {
      assert multiset(r)[r[k]] > 0;
    }
    forall k | 0 <= k < |s| && keep(s[k]) ensures s[k] in r {
      assert multiset(s)[s[k]] > 0;
    }
  }

  /** Filtering distributes over concatenation. */
  lemma {:induction false} FilterAppend<T(!new)>(a: seq<T>, b: seq<T>, keep: T -> bool)
    ensures Filter(a + b, keep) == Filter(a, keep) + Filter(b, keep)
  {
    if |a| > 0 {
      assert (a + b)[0] == a[0] && (a + b)[1..] == a[1..] + b;
      FilterAppend(a[1..], b, keep);
    } else {
      assert a + b == b;
    }
  }

  /** The rows that match, in their order. */
  function Select(rows: seq<Page>, q: Query): (r: seq<Page>)
    ensures |r| <= |rows|
    ensures forall k | 0 <= k < |r| :: r[k] in rows && Matches(r[k], q)
    ensures forall k | 0 <= k < |rows| && Matches(rows[k], q) :: rows[k] in r
    ensures forall p :: multiset(r)[p] == if Matches(p, q) then multiset(rows)[p] else 0
  {
    Filter(rows, p => Matches(p, q))
  }

  /** Selection distributes over concatenation, so it keeps the rows' order. */
  lemma SelectAppend(a: seq<Page>, b: seq<Page>, q: Query)
    ensures Select(a + b, q) == Select(a, q) + Select(b, q)
  {
    FilterAppend(a, b, p => Matches(p, q));
  }

  /** A single row is selected exactly when it matches. */
  lemma SelectOne(p: Page, q: Query)
    ensures Select([p], q) == if Matches(p, q) then [p] else []
  {
  }

  /** The query's rows, or the database's refusal of the SQL it builds. */
  function Find(rows: seq<Page>, q: Query): (r: Result<seq<Page>, QueryError>)
    ensures r.Err? <==> q.parent == ParentIn([])
    ensures r.Ok? ==> r.value == Select(rows, q)
  {
    if q.parent == ParentIn([]) then Err(EmptyParentList) else Ok(Select(rows, q))
  }

  /** The conditions of a root-level listing with default flags: published pages without parent. */
  lemma RootListing(p: Page)
    ensures Matches(p, Query(map[], RootOnly, None, None, None, false))
            <==> p.parentId.None? && IsPublished(p)
  {
  }

  // ---- pagination ------------------------------------------------------------------

  /** The `:paginate` option. */
  datatype PaginateOption = PaginateOption(page: Option<int>, perPage: int, offset: Option<int>)

  /** What `Paginates.paginate` decorates the result with. */
  datatype PageInfo = PageInfo(currentPage: int, pages: int, perPage: int, offset: int)

  /** The window the finder asks for, and the decoration when there is at least one page. */
  datatype Plan = Plan(offset: Option<int>, limit: Option<int>, info: Option<PageInfo>)

  /** Dividing the count by a zero page size gives an infinite or undefined float, whose `ceil` raises. */
  datatype PaginationError = ZeroPerPage | NegativeLimit

  /** ⌈a / b⌉ for a non-zero divisor. */
  function CeilDiv(a: int, b: int): (q: int)
    requires b != 0
    ensures b > 0 ==> (q - 1) * b < a <= q * b
    ensures b < 0 ==> q * b <= a < (q - 1) * b
  {
    if b > 0 then -((-a) / b) else -(a / (-b))
  }

  /** `page` defaults to 1 and is raised to 1. */
  function CurrentPage(p: PaginateOption): (r: int)
    ensures r >= 1
    ensures p.page.Some? && p.page.value >= 1 ==> r == p.page.value
  {
    var page := p.page.GetOr(1);
    if page < 1 then 1 else page
  }

  /** The first row of the current page: the pages before it, plus the initial offset, and never negative. */
  function WindowStart(p: PaginateOption): (r: int)
    ensures r >= 0
    ensures p.perPage * (CurrentPage(p) - 1) + p.offset.GetOr(0) >= 0 ==>
              r == p.perPage * (CurrentPage(p) - 1) + p.offset.GetOr(0)
  {
    var start := p.perPage * (CurrentPage(p) - 1) + p.offset.GetOr(0);
    if start < 0 then 0 else start
  }

  /**
   The pagination of `get_pages`: with `total` matching rows, the number of pages is
   ⌈(total − offset) / per_page⌉, the window starts at `WindowStart` and holds per_page
   rows, and an explicit `:limit` replaces the window's size.
   */
  function PlanFor(total: nat, paginate: Option<PaginateOption>, limit: Option<int>)
    : (r: Result<Plan, PaginationError>)
    ensures r.Err? <==> paginate.Some? && paginate.value.perPage == 0
    ensures r.Ok? && paginate.None? ==> r.value == Plan(None, limit, None)
    ensures r.Ok? && paginate.Some? ==>
              var p := paginate.value;
              var pages := CeilDiv(total - p.offset.GetOr(0), p.perPage);
              && r.value.offset == Some(WindowStart(p))
              && r.value.limit == (if limit.Some? then limit else Some(p.perPage))
              && (r.value.info.Some? <==> pages > 0)
              && (r.value.info.Some? ==>
                    r.value.info.value == PageInfo(CurrentPage(p), pages, p.perPage, p.offset.GetOr(0)))
  {
    match paginate
    case None => Ok(Plan(None, limit, None))
    case Some(p) =>
      if p.perPage == 0 then Err(ZeroPerPage)
      else
        var offset := p.offset.GetOr(0);
        var pages := CeilDiv(total - offset, p.perPage);
        var info := if pages > 0 then Some(PageInfo(CurrentPage(p), pages, p.perPage, offset)) else None;
        Ok(Plan(Some(WindowStart(p)), limit.Or(Some(p.perPage)), info))
  }

  /** Euclidean division by a positive size brackets the dividend. */
  lemma DivBrackets(x: int, n: int)
    requires n > 0 && x >= 0
    ensures n * (x / n) <= x < n * (x / n) + n
  {
  }

  /** Products with the same positive factor keep the order of the other factors. */
  lemma MulCancel(a: int, b: int, n: int)
    requires n > 0 && n * a < n * b
    ensures a < b
  {
    if a >= b {
      MulMonotone(b, a, n);
    }
  }

  lemma MulMonotone(a: int, b: int, n: int)
    requires n > 0 && a <= b
    ensures n * a <= n * b
  {
  }

  /**
   Every row from the offset on lies in the window of exactly the page the count
   predicts, and that page is one of the pages reported.
   */
  lemma PagesCoverRows(total: nat, p: PaginateOption, i: int)
    requires p.perPage > 0 && p.offset.GetOr(0) >= 0
    requires p.offset.GetOr(0) <= i < total
    ensures var page := (i - p.offset.GetOr(0)) / p.perPage + 1;
            var q := p.(page := Some(page));
            && 1 <= page <= CeilDiv(total - p.offset.GetOr(0), p.perPage)
            && WindowStart(q) <= i < WindowStart(q) + p.perPage
            && forall pg | 1 <= pg && WindowStart(p.(page := Some(pg))) <= i < WindowStart(p.(page := Some(pg))) + p.perPage ::
                 pg == page
  {
    var n := p.perPage;
    var o := p.offset.GetOr(0);
    var d := (i - o) / n;
    var page := d + 1;
    var q := p.(page := Some(page));
    DivBrackets(i - o, n);
    assert d >= 0;
    assert CurrentPage(q) == page;
    assert WindowStart(q) == n * d + o;
    var pages := CeilDiv(total - o, n);
    assert n * d < n * pages by {
      assert n * d <= i - o < total - o <= pages * n;
    }
    MulCancel(d, pages, n);
    forall pg | 1 <= pg && WindowStart(p.(page := Some(pg))) <= i < WindowStart(p.(page := Some(pg))) + n
      ensures pg == page
    {
      var w := p.(page := Some(pg));
      assert CurrentPage(w) == pg;
      assert n * (pg - 1) + o >= 0 by { MulMonotone(0, pg - 1, n); }
      SameWindow(pg - 1, d, n, i - o);
    }
  }

  /** Two windows of `n` consecutive rows, both starting at a multiple of `n`, that share a row are the same window. */
  lemma SameWindow(a: int, b: int, n: int, x: int)
    requires n > 0
    requires n * a <= x < n * a + n && n * b <= x < n * b + n
    ensures a == b
  {
    assert n * (a + 1) == n * a + n && n * (b + 1) == n * b + n;
    MulCancel(a, b + 1, n);
    MulCancel(b, a + 1, n);
  }

  /** The rows after the first `start`, none when there are fewer. */
  function DropFirst<T>(rows: seq<T>, start: nat): (r: seq<T>)
    ensures |r| == if start <= |rows| then |rows| - start else 0
    ensures InPlace(r, rows, start)
  {
    if start <= |rows| then rows[start..] else []
  }

  /** The first `limit` rows, or all of them when there are fewer. */
  function TakeFirst<T>(rows: seq<T>, limit: nat): (r: seq<T>)
    ensures |r| == if limit < |rows| then limit else |rows|
    ensures r == rows[..|r|]
  {
    if limit < |rows| then rows[..limit] else rows
  }

  /** `w` is the run of `rows` starting at `start`. */
  ghost predicate InPlace<T>(w: seq<T>, rows: seq<T>, start: nat)
  {
    forall k | 0 <= k < |w| :: start + k < |rows| && w[k] == rows[start + k]
  }

  /** One element of a run. */
  lemma InPlaceAt<T>(w: seq<T>, rows: seq<T>, start: nat, k: int)
    requires InPlace(w, rows, start) && 0 <= k < |w|
    ensures start + k < |rows| && w[k] == rows[start + k]
  {
  }

  /** A prefix of a run is a run from the same place. */
  lemma PrefixInPlace<T>(w: seq<T>, rows: seq<T>, start: nat, n: nat)
    requires InPlace(w, rows, start) && n <= |w|
    ensures InPlace(w[..n], rows, start)
  {
    forall k | 0 <= k < n ensures start + k < |rows| && w[..n][k] == rows[start + k] {
      assert w[..n][k] == w[k];
    }
  }

  /** Where the window starts: the offset when it is positive, else the first row. */
  function OffsetStart(offset: Option<int>): (start: nat)
    ensures offset.Some? && offset.value > 0 ==> start == offset.value
    ensures !(offset.Some? && offset.value > 0) ==> start == 0
  {
    if offset.Some? && offset.value > 0 then offset.value else 0
  }

  /** The rows of a window: skip `offset`, then keep at most `limit`. */
  function Window(rows: seq<Page>, offset: Option<int>, limit: Option<int>): (r: Result<seq<Page>, PaginationError>)
    ensures r.Err? <==> limit.Some? && limit.value < 0
    ensures r.Ok? ==> InPlace(r.value, rows, OffsetStart(offset))
    ensures r.Ok? ==>
              var available := if OffsetStart(offset) <= |rows| then |rows| - OffsetStart(offset) else 0;
              |r.value| == if limit.Some? && limit.value < available then limit.value else available
  {
    if limit.Some? && limit.value < 0 then Err(NegativeLimit)
    else
      var start := OffsetStart(offset);
      var rest := DropFirst(rows, start);
      if limit.Some? then
        var w := TakeFirst(rest, limit.value);
        PrefixInPlace(rest, rows, start, |w|);
        Ok(w)
      else Ok(rest)
  }

  /** Why `get_pages` fails: the database refuses the query, or the pagination raises. */
  datatype FinderError = Rejected(q: QueryError) | Unpaginated(p: PaginationError)

  /** The number of rows the finder is asked for: `:limit` when given, else the page size when paginating. */
  function RowLimit(paginate: Option<PaginateOption>, limit: Option<int>): (r: Option<int>)
    ensures limit.Some? ==> r == limit
    ensures limit.None? && paginate.Some? ==> r == Some(paginate.value.perPage)
    ensures limit.None? && paginate.None? ==> r.None?
  {
    if limit.Some? then limit else if paginate.Some? then Some(paginate.value.perPage) else None
  }

  /** The first matching row the finder returns: the window start when paginating, else the first. */
  function RowStart(paginate: Option<PaginateOption>): (start: nat)
    ensures paginate.None? ==> start == 0
    ensures paginate.Some? ==> start == WindowStart(paginate.value)
  {
    if paginate.Some? then WindowStart(paginate.value) else 0
  }

  /**
   `get_pages`: the matching rows, cut to the window of the requested page. A zero page
   size raises in the page count; a negative row limit is refused by the database.
   */
  function GetPages(rows: seq<Page>, q: Query, paginate: Option<PaginateOption>, limit: Option<int>)
    : (r: Result<(seq<Page>, Option<PageInfo>), FinderError>)
    ensures r == Err(Rejected(EmptyParentList)) <==> q.parent == ParentIn([])
    ensures r.Ok? <==> && q.parent != ParentIn([]) && !(paginate.Some? && paginate.value.perPage == 0)
                       && !(RowLimit(paginate, limit).Some? && RowLimit(paginate, limit).value < 0)
    ensures r == Err(Unpaginated(ZeroPerPage))
            <==> q.parent != ParentIn([]) && paginate.Some? && paginate.value.perPage == 0
    ensures r == Err(Unpaginated(NegativeLimit))
            <==> && q.parent != ParentIn([]) && !(paginate.Some? && paginate.value.perPage == 0)
                 && RowLimit(paginate, limit).Some? && RowLimit(paginate, limit).value < 0
    ensures r.Ok? ==> InPlace(r.value.0, Select(rows, q), RowStart(paginate))
    ensures r.Ok? ==>
              var total := |Select(rows, q)|;
              var available := if RowStart(paginate) <= total then total - RowStart(paginate) else 0;
              var n := RowLimit(paginate, limit);
              |r.value.0| == if n.Some? && n.value < available then n.value else available
    ensures r.Ok? ==> PlanFor(|Select(rows, q)|, paginate, limit).Ok?
                      && r.value.1 == PlanFor(|Select(rows, q)|, paginate, limit).value.info
    ensures r.Ok? ==> forall k | 0 <= k < |r.value.0| :: r.value.0[k] in rows && Matches(r.value.0[k], q)
    ensures q.parent != ParentIn([]) && paginate.None? && limit.None? ==> r == Ok((Select(rows, q), None))
  {
    match Find(rows, q)
    case Err(e) => Err(Rejected(e))
    case Ok(found) =>
      match PlanFor(|found|, paginate, limit)
      case Err(e) => Err(Unpaginated(e))
      case Ok(plan) =>
        assert plan.limit == RowLimit(paginate, limit);
        assert OffsetStart(plan.offset) == RowStart(paginate);
        match Window(found, plan.offset, plan.limit)
        case Err(e) => Err(Unpaginated(e))
        case Ok(w) =>
          WindowRowsMatch(w, rows, q, OffsetStart(plan.offset));
          Ok((w, plan.info))
  }

  /** A run of the selection holds only rows of the table that match. */
  lemma WindowRowsMatch(w: seq<Page>, rows: seq<Page>, q: Query, start: nat)
    requires InPlace(w, Select(rows, q), start)
    ensures forall k | 0 <= k < |w| :: w[k] in rows && Matches(w[k], q)
  {
    var sel := Select(rows, q);
    forall k | 0 <= k < |w| ensures w[k] in rows && Matches(w[k], q) {
      InPlaceAt(w, sel, start, k);
    }
  }

  // ---- autopublish! -----------------------------------------------------------------

  /** AUTOPUBLISH_FUZZINESS: two minutes, in seconds. */
  const AutopublishFuzziness: int := 120

  /** A row the sweep selects: flagged, and publication time before now plus the fuzziness. */
  predicate Due(p: Page, now: Time, fuzziness: Option<int>)
  {
    p.autopublish && p.publishedAt.Some?
    && p.publishedAt.value < now + fuzziness.GetOr(AutopublishFuzziness)
  }

  /**
   `autopublish!` as written: each due row gets `update_attribute(:autopublish, false)`,
   which saves the row and so runs `before_save`, which sets the flag again from the
   publication time.
   */
  function SweepAsWritten(pages: seq<Page>, now: Time, fuzziness: Option<int>): (r: seq<Page>)
    ensures |r| == |pages|
    ensures forall k | 0 <= k < |pages| ::
              r[k] == (if Due(pages[k], now, fuzziness) then BeforeSave(pages[k].(autopublish := false), now) else pages[k])
  {
    seq(|pages|, k requires 0 <= k < |pages| =>
      if Due(pages[k], now, fuzziness) then BeforeSave(pages[k].(autopublish := false), now) else pages[k])
  }

  /** A row due within the fuzziness window but not yet at its time keeps the flag. */
  lemma SweepAsWrittenKeepsFlag(p: Page, now: Time)
    requires p == Page(1, None, Published, true, Some(now + 60), None, false, None, NoRedirect, 0, "", "", "")
    ensures Due(p, now, None)
    ensures SweepAsWritten([p], now, None)[0].autopublish
  {
    assert BeforeSave(p.(autopublish := false), now).autopublish;
  }

  /** `autopublish!` as intended: the flag is cleared on exactly the due rows. */
  function Sweep(pages: seq<Page>, now: Time, fuzziness: Option<int>): (r: seq<Page>)
    ensures |r| == |pages|
    ensures forall k | 0 <= k < |pages| ::
              (Due(pages[k], now, fuzziness) ==> r[k] == pages[k].(autopublish := false))
              && (!Due(pages[k], now, fuzziness) ==> r[k] == pages[k])
  {
    seq(|pages|, k requires 0 <= k < |pages| =>
      if Due(pages[k], now, fuzziness) then pages[k].(autopublish := false) else pages[k])
  }

  /** After the sweep no row is due, no status changed, and sweeping again changes nothing. */
  lemma SweepProperties(pages: seq<Page>, now: Time, fuzziness: Option<int>)
    ensures var r := Sweep(pages, now, fuzziness);
            && (forall k | 0 <= k < |r| :: !Due(r[k], now, fuzziness) && r[k].status == pages[k].status)
            && Sweep(r, now, fuzziness) == r
  {
  }

  /**
   The written sweep agrees with the intended one on every row whose publication time
   has arrived, and differs exactly on due rows still in the future.
   */
  lemma SweepAsWrittenAgreement(pages: seq<Page>, now: Time, fuzziness: Option<int>, k: nat)
    requires k < |pages|
    ensures SweepAsWritten(pages, now, fuzziness)[k] == Sweep(pages, now, fuzziness)[k]
            <==> !(Due(pages[k], now, fuzziness) && pages[k].publishedAt.value > now)
  {
    var p := pages[k];
    if Due(p, now, fuzziness) && p.publishedAt.value > now {
      assert SweepAsWritten(pages, now, fuzziness)[k].autopublish;
    }
  }
}

=== FILE: page_text.dfy ===
/**
 Two text rules of app/models/page.rb: `string_to_slug`, which turns a name into a URL
 slug, and `word_count`, which counts the words of a page body once tags and
 punctuation are removed.
 */
module PageText {

  import opened Text

  // ---- string_to_slug --------------------------------------------------------

  /** A character of `[\w\s]`. */
  predicate WordOrSpace(c: char) { IsWord(c) || IsSpace(c) }

  /** The characters the slug keeps after removing everything but `[\w\s]`. */
  function KeepWordAndSpace(s: string): (r: string)
    ensures |r| <= |s|
    ensures forall k | 0 <= k < |r| :: WordOrSpace(r[k]) && r[k] in s
    ensures (forall k | 0 <= k < |s| :: WordOrSpace(s[k])) ==> r == s
  {
    KeepChars(s, WordOrSpace)
  }

  /** A character added at the end survives, at the end, exactly when it is a word or space character. */
  lemma KeepWordAndSpaceSnoc(s: string, c: char)
    ensures KeepWordAndSpace(s + [c]) == KeepWordAndSpace(s) + (if IsWord(c) || IsSpace(c) then [c] else [])
  {
    KeepCharsSnoc(s, c, WordOrSpace);
  }

  /** The separators of the slug's split: anything but `[\w\d\-]`. */
  predicate SlugSeparator(c: char) { !(IsWord(c) || c == '-') }

  /** A character a slug may contain. */
  predicate SlugChar(c: char) { IsLower(c) || IsDigit(c) || c == '_' }

  /** The characters of a joined list are those of its parts and of the separator. */
  lemma {:induction false} JoinChars(parts: seq<string>, sep: string, keep: char -> bool)
    requires forall i | 0 <= i < |parts| :: forall j | 0 <= j < |parts[i]| :: keep(parts[i][j])
    requires forall j | 0 <= j < |sep| :: keep(sep[j])
    ensures forall k | 0 <= k < |Join(parts, sep)| :: keep(Join(parts, sep)[k])
    decreases |parts|
  {
    if |parts| > 1 {
      JoinChars(parts[1..], sep, keep);
    }
  }

  /**
   `string_to_slug`: transliterate to ASCII (`convert_to_ascii`, given as `toAscii`),
   lower-case, drop everything but word characters and white space, then join the runs
   between white space with "_". A leading blank gives a leading "_".
   */
  function StringToSlug(s: string, toAscii: string -> string): (r: string)
    ensures forall k | 0 <= k < |r| :: SlugChar(r[k])
  {
    var cleaned := KeepWordAndSpace(Lower(toAscii(s)));
    assert forall k | 0 <= k < |cleaned| :: SlugChar(cleaned[k]) || SlugSeparator(cleaned[k]) by {
      forall k | 0 <= k < |cleaned| ensures SlugChar(cleaned[k]) || SlugSeparator(cleaned[k]) {
        assert !IsUpper(cleaned[k]);
      }
    }
    var r := Join(SplitOnRuns(cleaned, SlugSeparator), "_");
    SlugPartsChars(cleaned, r);
    r
  }

  /** Joining the runs of a text of slug characters and separators with "_" leaves only slug characters. */
  lemma SlugPartsChars(cleaned: string, r: string)
    requires forall k | 0 <= k < |cleaned| :: SlugChar(cleaned[k]) || SlugSeparator(cleaned[k])
    requires r == Join(SplitOnRuns(cleaned, SlugSeparator), "_")
    ensures forall k | 0 <= k < |r| :: SlugChar(r[k])
  {
    var parts := SplitOnRuns(cleaned, SlugSeparator);
    FieldsKeep(cleaned, SlugSeparator, c => SlugChar(c) || SlugSeparator(c));
    SplitOnRunsFields(cleaned, SlugSeparator);
    var fields := FieldsBy(cleaned, SlugSeparator);
    forall i, j | 0 <= i < |parts| && 0 <= j < |parts[i]| ensures SlugChar(parts[i][j]) {
      var m :| 0 <= m < |fields| && fields[m] == parts[i];
      assert NoSep(fields[m], SlugSeparator);
    }
    JoinChars(parts, "_", SlugChar);
  }

  /** Every part of a run split is a field of the plain split. */
  lemma SplitOnRunsFields(s: string, isSep: char -> bool)
    ensures forall i | 0 <= i < |SplitOnRuns(s, isSep)| :: SplitOnRuns(s, isSep)[i] in FieldsBy(s, isSep)
  {
    var fields := FieldsBy(s, isSep);
    var kept := [fields[0]] + NonEmpty(fields[1..]);
    NonEmptyIn(fields[1..]);
    assert forall i | 0 <= i < |kept| :: kept[i] in fields;
  }

  lemma {:induction false} NonEmptyIn(fields: seq<string>)
    ensures forall i | 0 <= i < |NonEmpty(fields)| :: NonEmpty(fields)[i] in fields
  {
    if |fields| > 0 {
      NonEmptyIn(fields[1..]);
    }
  }

  /** A slug is its own slug, when transliteration leaves plain ASCII alone. */
  lemma SlugIdempotent(s: string, toAscii: string -> string)
    requires toAscii(StringToSlug(s, toAscii)) == StringToSlug(s, toAscii)
    ensures StringToSlug(StringToSlug(s, toAscii), toAscii) == StringToSlug(s, toAscii)
  {
    var r := StringToSlug(s, toAscii);
    assert Lower(r) == r;
    assert KeepWordAndSpace(r) == r;
    FieldsOfNoSep(r, SlugSeparator);
    if r == "" {
      assert SplitOnRuns(r, SlugSeparator) == [];
    } else {
      assert SplitOnRuns(r, SlugSeparator) == [r];
    }
  }

  /** The characters of words of slug characters joined with " " are slug characters or the blank. */
  lemma SpacedWordsChars(words: seq<string>)
    requires forall i | 0 <= i < |words| :: forall j | 0 <= j < |words[i]| :: SlugChar(words[i][j])
    ensures forall k | 0 <= k < |Join(words, " ")| :: SlugChar(Join(words, " ")[k]) || Join(words, " ")[k] == ' '
    ensures Lower(Join(words, " ")) == Join(words, " ")
    ensures KeepWordAndSpace(Join(words, " ")) == Join(words, " ")
  {
    JoinChars(words, " ", c => SlugChar(c) || c == ' ');
  }

  /** A text that transliteration, lower-casing and the character filter leave alone is split and joined directly. */
  lemma SlugOfClean(s: string, toAscii: string -> string)
    requires toAscii(s) == s && Lower(s) == s && KeepWordAndSpace(s) == s
    ensures StringToSlug(s, toAscii) == Join(SplitOnRuns(s, SlugSeparator), "_")
  {
  }

  /** Split on runs, fields that are already non-empty stay as they are. */
  lemma RunsOfNonEmptyFields(s: string, isSep: char -> bool, first: string, rest: seq<string>)
    requires FieldsBy(s, isSep) == [first] + rest && |rest| > 0
    requires forall i | 0 <= i < |rest| :: rest[i] != ""
    ensures SplitOnRuns(s, isSep) == [first] + rest
  {
    assert ([first] + rest)[1..] == rest;
  }

  /**
   Words of lower-case letters, digits and "_", separated by single blanks, come out of
   `string_to_slug` joined with "_", when transliteration leaves the text alone.
   */
  lemma SlugOfWords(words: seq<string>, toAscii: string -> string)
    requires forall i | 0 <= i < |words| :: words[i] != "" && forall j | 0 <= j < |words[i]| :: SlugChar(words[i][j])
    requires toAscii(Join(words, " ")) == Join(words, " ")
    ensures StringToSlug(Join(words, " "), toAscii) == Join(words, "_")
  {
    var t := Join(words, " ");
    SpacedWordsChars(words);
    SlugOfClean(t, toAscii);
    WordsRuns(words);
  }

  /** Non-empty words without separators, joined with blanks, split back into the words. */
  lemma WordsRuns(words: seq<string>)
    requires forall i | 0 <= i < |words| :: words[i] != "" && forall j | 0 <= j < |words[i]| :: SlugChar(words[i][j])
    ensures SplitOnRuns(Join(words, " "), SlugSeparator) == words
  {
    var t := Join(words, " ");
    if |words| == 1 {
      FieldsOfNoSep(words[0], SlugSeparator);
    } else if |words| > 1 {
      assert forall i | 0 <= i < |words| :: NoSep(words[i], SlugSeparator);
      FieldsOfJoin(words, ' ', SlugSeparator);
      assert words == [words[0]] + words[1..];
      RunsOfNonEmptyFields(t, SlugSeparator, words[0], words[1..]);
    }
  }

  /** Words after a leading blank are clean text whose run split is an empty field, then the words. */
  lemma IndentedWordsRuns(words: seq<string>)
    requires |words| > 0
    requires forall i | 0 <= i < |words| :: words[i] != "" && forall j | 0 <= j < |words[i]| :: SlugChar(words[i][j])
    ensures var u := " " + Join(words, " ");
            Lower(u) == u && KeepWordAndSpace(u) == u && SplitOnRuns(u, SlugSeparator) == [""] + words
  {
    var t := Join(words, " ");
    var u := " " + t;
    var parts := [""] + words;
    assert Join(parts, " ") == u by {
      assert parts[1..] == words;
    }
    SpacedWordsChars(parts);
    FieldsOfJoin(words, ' ', SlugSeparator);
    FieldsCons("", ' ', t, SlugSeparator);
    assert "" + [' '] + t == u;
    RunsOfNonEmptyFields(u, SlugSeparator, "", words);
  }

  /** The same words after a leading blank give a slug with a leading "_". */
  lemma SlugOfIndentedWords(words: seq<string>, toAscii: string -> string)
    requires |words| > 0
    requires forall i | 0 <= i < |words| :: words[i] != "" && forall j | 0 <= j < |words[i]| :: SlugChar(words[i][j])
    requires toAscii(" " + Join(words, " ")) == " " + Join(words, " ")
    ensures StringToSlug(" " + Join(words, " "), toAscii) == "_" + Join(words, "_")
  {
    var u := " " + Join(words, " ");
    IndentedWordsRuns(words);
    SlugOfClean(u, toAscii);
    var parts := [""] + words;
    assert parts[1..] == words;
    assert Join(parts, "_") == "" + "_" + Join(words, "_");
  }

  // ---- word_count --------------------------------------------------------------

  /**
   The tag-stripping `gsub`: a "<" is removed together with everything up to the first
   ">" after it; a "<" with no ">" after it stays.
   */
  function StripTags(s: string): (r: string)
    ensures |r| <= |s|
    ensures forall k | 0 <= k < |r| :: r[k] in s
    ensures '<' !in s ==> r == s
    ensures forall k | 0 <= k < |r| && r[k] == '<' :: '>' !in r[k + 1..]
  {
    if |s| == 0 then ""
    else if s[0] == '<' && '>' in s[1..] then
      StripTags(s[1..][IndexOfChar(s[1..], '>') + 1..])
    else
      var rest := StripTags(s[1..]);
      assert forall k | 0 <= k < |rest| :: rest[k] in s by {
        forall k | 0 <= k < |rest| ensures rest[k] in s {
          assert rest[k] in s[1..];
        }
      }
      assert s[0] == '<' ==> '>' !in rest;
      assert forall k | 1 <= k < |rest| + 1 :: ([s[0]] + rest)[k + 1..] == rest[k..];
      [s[0]] + rest
  }

  /** Text before the first "<" is kept as it is. */
  lemma {:induction false} StripTagsKeepsPlainPrefix(a: string, t: string)
    requires '<' !in a
    ensures StripTags(a + t) == a + StripTags(t)
  {
    if |a| > 0 {
      assert a + t == [a[0]] + (a[1..] + t);
      StripTagsCons(a[0], a[1..] + t);
      StripTagsKeepsPlainPrefix(a[1..], t);
      assert a == [a[0]] + a[1..];
    } else {
      assert a + t == t;
    }
  }

  /** A first character other than "<" is kept. */
  lemma StripTagsCons(c: char, t: string)
    requires c != '<'
    ensures StripTags([c] + t) == [c] + StripTags(t)
  {
    assert ([c] + t)[1..] == t;
  }

  /** A tag, "<" up to the first ">", is removed with nothing else. */
  lemma StripTagsRemovesTag(m: string, t: string)
    requires '>' !in m
    ensures StripTags(['<'] + m + ['>'] + t) == StripTags(t)
  {
    var s := ['<'] + m + ['>'] + t;
    assert s[1..] == m + ['>'] + t;
    assert s[1..][..|m|] == m;
    IndexOfCharAt(s[1..], '>', |m|);
    assert s[1..][|m| + 1..] == t;
  }

  /** The position of the first `c` in `s`. */
  function IndexOfChar(s: string, c: char): (i: nat)
    requires c in s
    ensures i < |s| && s[i] == c && c !in s[..i]
  {
    if s[0] == c then 0 else 1 + IndexOfChar(s[1..], c)
  }

  /** A position holding `c` with no `c` before it is the first one. */
  lemma {:induction false} IndexOfCharAt(s: string, c: char, j: nat)
    requires j < |s| && s[j] == c && c !in s[..j]
    ensures IndexOfChar(s, c) == j
  {
    if j > 0 {
      assert s[0] == s[..j][0];
      assert s[1..][..j - 1] == s[..j][1..];
      IndexOfCharAt(s[1..], c, j - 1);
    }
  }

  /** A character of `[\w^\s]`. */
  predicate WordCaretOrSpace(c: char) { IsWord(c) || c == '^' || IsSpace(c) }

  /** The punctuation `gsub`: keep word characters, "^" and white space. */
  function KeepWordCaretSpace(s: string): (r: string)
    ensures |r| <= |s|
    ensures forall k | 0 <= k < |r| :: WordCaretOrSpace(r[k]) && r[k] in s
    ensures (forall k | 0 <= k < |s| :: WordCaretOrSpace(s[k])) ==> r == s
  {
    KeepChars(s, WordCaretOrSpace)
  }

  /** A character added at the end survives, at the end, exactly when it is a word character, "^" or white space. */
  lemma KeepWordCaretSpaceSnoc(s: string, c: char)
    ensures KeepWordCaretSpace(s + [c]) == KeepWordCaretSpace(s) + (if IsWord(c) || c == '^' || IsSpace(c) then [c] else [])
  {
    KeepCharsSnoc(s, c, WordCaretOrSpace);
  }

  /** `word_count`: the number of fields when the cleaned body is split on white space. */
  function WordCount(body: string): (r: nat)
    ensures var t := KeepWordCaretSpace(StripTags(body));
            r == WordStarts(t, true) + (if |t| > 0 && IsSpace(t[0]) && WordStarts(t, true) > 0 then 1 else 0)
  {
    WordsOfSplit(KeepWordCaretSpace(StripTags(body)));
    |SplitOnRuns(KeepWordCaretSpace(StripTags(body)), IsSpace)|
  }

  /**
   The number of words of `t` counted directly: positions holding a non-blank
   character whose predecessor is blank (the start counts as blank when `atBlank`).
   */
  function WordStarts(t: string, atBlank: bool): nat
  {
    if |t| == 0 then 0
    else (if atBlank && !IsSpace(t[0]) then 1 else 0) + WordStarts(t[1..], IsSpace(t[0]))
  }

  /** The non-empty fields of a blank split are the words, counted from either start state. */
  lemma {:induction false} NonEmptyFieldsAreWords(t: string)
    ensures |NonEmpty(FieldsBy(t, IsSpace)[1..])| == WordStarts(t, false)
    ensures |NonEmpty(FieldsBy(t, IsSpace))| == WordStarts(t, true)
  {
    if |t| > 0 {
      NonEmptyFieldsAreWords(t[1..]);
      var rest := FieldsBy(t[1..], IsSpace);
      if IsSpace(t[0]) {
        var f := [""] + rest;
        assert FieldsBy(t, IsSpace) == f;
        assert f[1..] == rest;
      } else {
        var f := [[t[0]] + rest[0]] + rest[1..];
        assert FieldsBy(t, IsSpace) == f;
        assert f[1..] == rest[1..];
      }
    }
  }

  /** The first field of a blank split is empty exactly when the text is empty or starts blank. */
  lemma FirstFieldEmpty(t: string)
    ensures FieldsBy(t, IsSpace)[0] == "" <==> |t| == 0 || IsSpace(t[0])
  {
  }

  /**
   Splitting on runs of white space gives one field per word, plus an empty first field
   when the text starts blank and holds a word: `" a b".split(/\s+/)` has three fields.
   */
  lemma WordsOfSplit(t: string)
    ensures |SplitOnRuns(t, IsSpace)| ==
            WordStarts(t, true) + (if |t| > 0 && IsSpace(t[0]) && WordStarts(t, true) > 0 then 1 else 0)
  {
    NonEmptyFieldsAreWords(t);
    FirstFieldEmpty(t);
    var fields := FieldsBy(t, IsSpace);
    var ne := NonEmpty(fields[1..]);
    var kept := [fields[0]] + ne;
    if |ne| == 0 {
      if fields[0] == "" {
        assert DropTrailingEmpty(kept) == DropTrailingEmpty([]);
      }
    } else {
      assert kept[|kept| - 1] == ne[|ne| - 1];
    }
  }

  /** `word_count` counts the words of the body once tags and punctuation are gone. */
  lemma WordCountIsWords(body: string)
    ensures var t := KeepWordCaretSpace(StripTags(body));
            WordCount(body) == WordStarts(t, true) + (if |t| > 0 && IsSpace(t[0]) && WordStarts(t, true) > 0 then 1 else 0)
  {
    WordsOfSplit(KeepWordCaretSpace(StripTags(body)));
  }
}

=== FILE: page_tree.dfy ===
/**
 Walks up the page tree (app/models/page.rb): a page's parent, its ancestors, its root
 page, `is_child_of`, `is_ancestor?`, the sibling at an offset, whether a page can be
 reordered by hand, and `for_request`, which finds the first page redirecting to a
 request. The pages table is a map from id to row. The source walks parents without a
 cycle check, so the walks require an acyclic table.
 */
module PageTree {

  import opened Wrappers
  import opened Text
  import opened Pages

  type Db = map<PageId, Page>

  /** `parent`: the parent row, when the page has a parent id and that row exists. */
  function ParentOf(db: Db, id: PageId): (r: Option<PageId>)
    requires id in db
    ensures r.Some? ==> r.value in db && db[id].parentId == r
    ensures db[id].parentId.Some? && db[id].parentId.value in db ==> r == db[id].parentId
  {
    match db[id].parentId
    case Some(q) => if q in db then Some(q) else None
    case None => None
  }

  /** The first `fuel` steps of the upward walk from `id`, nearest ancestor first. */
  function AncestorsWithin(db: Db, id: PageId, fuel: nat): (r: seq<PageId>)
    requires id in db
    ensures |r| <= fuel
    ensures forall k | 0 <= k < |r| :: r[k] in db
    decreases fuel
  {
    if fuel == 0 then []
    else
      match ParentOf(db, id)
      case None => []
      case Some(q) => [q] + AncestorsWithin(db, q, fuel - 1)
  }

  /** The upward walk from `id` reaches a page without parent in at most `fuel` steps. */
  predicate RootedWithin(db: Db, id: PageId, fuel: nat)
    requires id in db
    decreases fuel
  {
    match ParentOf(db, id)
    case None => true
    case Some(q) => fuel > 0 && RootedWithin(db, q, fuel - 1)
  }

  /** No page is its own ancestor: every upward walk ends within as many steps as there are pages. */
  ghost predicate Acyclic(db: Db)
  {
    forall id | id in db :: RootedWithin(db, id, |db|)
  }

  /** A walk that reaches a root within `fuel` steps is the parent chain up to that root. */
  lemma {:induction false} ChainShape(db: Db, id: PageId, fuel: nat)
    requires id in db && RootedWithin(db, id, fuel)
    ensures var r := AncestorsWithin(db, id, fuel);
            && (|r| == 0 <==> ParentOf(db, id).None?)
            && (|r| > 0 ==> ParentOf(db, id) == Some(r[0]) && ParentOf(db, r[|r| - 1]).None?)
            && (forall k | 0 <= k < |r| - 1 :: ParentOf(db, r[k]) == Some(r[k + 1]))
    decreases fuel
  {
    match ParentOf(db, id)
    case None =>
    case Some(q) =>
      ChainShape(db, q, fuel - 1);
      var rest := AncestorsWithin(db, q, fuel - 1);
      var r := AncestorsWithin(db, id, fuel);
      assert r == [q] + rest;
      forall k | 0 <= k < |r| - 1 ensures ParentOf(db, r[k]) == Some(r[k + 1]) {
        if k > 0 {
          assert r[k] == rest[k - 1] && r[k + 1] == rest[k];
        }
      }
  }

  /** More fuel does not change a walk that already reaches a root. */
  lemma {:induction false} FuelIrrelevant(db: Db, id: PageId, n: nat, m: nat)
    requires id in db && RootedWithin(db, id, n) && n <= m
    ensures RootedWithin(db, id, m)
    ensures AncestorsWithin(db, id, n) == AncestorsWithin(db, id, m)
    decreases n
  {
    match ParentOf(db, id)
    case None =>
    case Some(q) =>
      FuelIrrelevant(db, q, n - 1, m - 1);
  }

  /** The walk from the k-th ancestor is the rest of the walk, with k + 1 fewer steps left. */
  lemma {:induction false} ChainSuffix(db: Db, id: PageId, n: nat, k: nat)
    requires id in db && RootedWithin(db, id, n)
    requires k < |AncestorsWithin(db, id, n)|
    ensures var r := AncestorsWithin(db, id, n);
            && n >= k + 1
            && RootedWithin(db, r[k], n - k - 1)
            && AncestorsWithin(db, r[k], n - k - 1) == r[k + 1..]
    decreases n
  {
    var q := ParentOf(db, id).value;
    var r := AncestorsWithin(db, id, n);
    assert r == [q] + AncestorsWithin(db, q, n - 1);
    if k > 0 {
      ChainSuffix(db, q, n - 1, k - 1);
    }
  }

  /** `ancestors` (from acts_as_tree): the parent, its parent, and so on up to the root. */
  function Ancestors(db: Db, id: PageId): (r: seq<PageId>)
    requires Acyclic(db) && id in db
    ensures forall k | 0 <= k < |r| :: r[k] in db
    ensures |r| == 0 <==> ParentOf(db, id).None?
    ensures |r| > 0 ==> ParentOf(db, id) == Some(r[0]) && ParentOf(db, r[|r| - 1]).None?
    ensures forall k | 0 <= k < |r| - 1 :: ParentOf(db, r[k]) == Some(r[k + 1])
  {
    ChainShape(db, id, |db|);
    AncestorsWithin(db, id, |db|)
  }

  /** `self_and_ancestors`: the page, then its ancestors. */
  function SelfAndAncestors(db: Db, id: PageId): (r: seq<PageId>)
    requires Acyclic(db) && id in db
    ensures |r| >= 1 && r[0] == id && r[1..] == Ancestors(db, id)
  {
    [id] + Ancestors(db, id)
  }

  /** The ancestors of an ancestor are the rest of the chain. */
  lemma AncestorsOfAncestor(db: Db, id: PageId, k: nat)
    requires Acyclic(db) && id in db && k < |Ancestors(db, id)|
    ensures Ancestors(db, Ancestors(db, id)[k]) == Ancestors(db, id)[k + 1..]
  {
    var n := |db|;
    ChainSuffix(db, id, n, k);
    var a := Ancestors(db, id)[k];
    FuelIrrelevant(db, a, n - k - 1, n);
  }

  /** In an acyclic table no page is its own ancestor. */
  lemma NotOwnAncestor(db: Db, id: PageId)
    requires Acyclic(db) && id in db
    ensures id !in Ancestors(db, id)
  {
    var r := Ancestors(db, id);
    if id in r {
      var k :| 0 <= k < |r| && r[k] == id;
      AncestorsOfAncestor(db, id, k);
    }
  }

  /** Being an ancestor is transitive. */
  lemma AncestorTransitive(db: Db, a: PageId, b: PageId, c: PageId)
    requires Acyclic(db) && b in db && c in db
    requires a in Ancestors(db, b) && b in Ancestors(db, c)
    ensures a in Ancestors(db, c)
  {
    var r := Ancestors(db, c);
    var k :| 0 <= k < |r| && r[k] == b;
    AncestorsOfAncestor(db, c, k);
    var i :| 0 <= i < |Ancestors(db, b)| && Ancestors(db, b)[i] == a;
    assert r[k + 1 + i] == a;
  }

  /**
   `root_page`: follow `parent` while there is one. The result has no parent and is the
   page itself or one of its ancestors.
   */
  method RootPage(db: Db, id: PageId) returns (root: PageId)
    requires Acyclic(db) && id in db
    ensures root in db && ParentOf(db, root).None?
    ensures root == id || root in Ancestors(db, id)
    ensures root == SelfAndAncestors(db, id)[|SelfAndAncestors(db, id)| - 1]
  {
    var chain := SelfAndAncestors(db, id);
    assert forall j | 0 <= j < |chain| - 1 :: ParentOf(db, chain[j]) == Some(chain[j + 1]) by {
      forall j | 0 <= j < |chain| - 1 ensures ParentOf(db, chain[j]) == Some(chain[j + 1]) {
        if j > 0 { assert chain[j] == Ancestors(db, id)[j - 1]; }
      }
    }
    assert ParentOf(db, chain[|chain| - 1]).None? by {
      if |chain| > 1 { assert chain[|chain| - 1] == Ancestors(db, id)[|Ancestors(db, id)| - 1]; }
    }
    root := id;
    ghost var fuel: nat := |db|;
    ghost var k := 0;
    while ParentOf(db, root).Some?
      invariant root in db && RootedWithin(db, root, fuel)
      invariant 0 <= k < |chain| && chain[k] == root
      invariant k < |chain| - 1 <==> ParentOf(db, root).Some?
      decreases fuel
    {
      assert ParentOf(db, chain[k]) == Some(chain[k + 1]);
      root := ParentOf(db, root).value;
      fuel := fuel - 1;
      k := k + 1;
      if k < |chain| - 1 {
        assert ParentOf(db, chain[k]) == Some(chain[k + 1]);
      }
    }
  }

  /**
   The loop of `is_child_of`: walk up from `cur`, answering true as soon as an ancestor
   is `page`, false at the root.
   */
  function ChildWalk(db: Db, cur: PageId, page: PageId, fuel: nat): (b: bool)
    requires cur in db && RootedWithin(db, cur, fuel)
    ensures b <==> page in AncestorsWithin(db, cur, fuel)
    decreases fuel
  {
    match ParentOf(db, cur)
    case None => false
    case Some(q) => if q == page then true else ChildWalk(db, q, page, fuel - 1)
  }

  /** `is_child_of(page)`: `page` is a proper ancestor, never the page itself. */
  function IsChildOf(db: Db, id: PageId, page: PageId): (b: bool)
    requires Acyclic(db) && id in db
    ensures b <==> page in Ancestors(db, id)
    ensures b ==> page != id
  {
    NotOwnAncestor(db, id);
    ChildWalk(db, id, page, |db|)
  }

  /** `is_ancestor?(page)`: this page is among `page`'s ancestors. */
  function IsAncestor(db: Db, id: PageId, page: PageId): (b: bool)
    requires Acyclic(db) && page in db
    ensures b <==> IsChildOf(db, page, id)
  {
    id in Ancestors(db, page)
  }

  /** The test fixture: a page under a parent under a root is a child of the root. */
  lemma GrandchildIsChildOfRoot(db: Db, root: PageId, parent: PageId, page: PageId)
    requires Acyclic(db) && root in db && parent in db && page in db
    requires db[root].parentId.None?
    requires db[parent].parentId == Some(root) && db[page].parentId == Some(parent)
    ensures IsChildOf(db, page, root) && IsChildOf(db, page, parent)
    ensures !IsChildOf(db, page, page) && !IsChildOf(db, root, page)
  {
    var r := Ancestors(db, page);
    assert r[0] == parent;
    assert r[1] == root;
    NotOwnAncestor(db, page);
  }

  // ---- siblings ---------------------------------------------------------------

  /** The index of the first occurrence of `x` in `s`. */
  function IndexOf<T(==)>(s: seq<T>, x: T): (i: nat)
    requires x in s
    ensures i < |s| && s[i] == x && x !in s[..i]
  {
    if s[0] == x then 0 else 1 + IndexOf(s[1..], x)
  }

  datatype SiblingError = SelfNotFound

  /**
   `sibling_by_offset`: nil for a page without parent; an error when the page is missing
   from `siblings` (what its parent's `pages` returned); otherwise the sibling `offset`
   places after it, or nil past either end.
   */
  function SiblingByOffset(db: Db, id: PageId, siblings: seq<PageId>, offset: int)
    : (r: Result<Option<PageId>, SiblingError>)
    requires id in db
    ensures ParentOf(db, id).None? ==> r == Ok(None)
    ensures ParentOf(db, id).Some? && id !in siblings ==> r == Err(SelfNotFound)
    ensures ParentOf(db, id).Some? && id in siblings ==>
              var i := IndexOf(siblings, id) + offset;
              r == Ok(if 0 <= i < |siblings| then Some(siblings[i]) else None)
    ensures r.Ok? && r.value.Some? ==> r.value.value in siblings
  {
    if ParentOf(db, id).None? then Ok(None)
    else if id !in siblings then Err(SelfNotFound)
    else
      var i := IndexOf(siblings, id) + offset;
      if 0 <= i < |siblings| then Ok(Some(siblings[i])) else Ok(None)
  }

  predicate NoDuplicates<T(==)>(s: seq<T>)
  {
    forall i, j | 0 <= i < j < |s| :: s[i] != s[j]
  }

  /**
   `previous_sibling` undoes `next_sibling`: when `b` follows `a` among siblings without
   repeats and both share a parent, `a` precedes `b`.
   */
  lemma NextThenPrevious(db: Db, a: PageId, b: PageId, siblings: seq<PageId>)
    requires a in db && b in db && db[a].parentId == db[b].parentId
    requires NoDuplicates(siblings)
    requires SiblingByOffset(db, a, siblings, 1) == Ok(Some(b))
    ensures SiblingByOffset(db, b, siblings, -1) == Ok(Some(a))
  {
    var i := IndexOf(siblings, a);
    assert siblings[i + 1] == b;
    assert IndexOf(siblings, b) == i + 1;
  }

  /** The offset 0 sibling of a page with a parent is the page itself. */
  lemma OffsetZeroIsSelf(db: Db, id: PageId, siblings: seq<PageId>)
    requires id in db && ParentOf(db, id).Some? && id in siblings
    ensures SiblingByOffset(db, id, siblings, 0) == Ok(Some(id))
  {
  }

  // ---- reordering -------------------------------------------------------------

  /**
   `reorderable?`: a page without parent can always be moved by hand; otherwise it can
   when its parent's children are reorderable.
   */
  function Reorderable(db: Db, id: PageId): (r: bool)
    requires id in db
    ensures ParentOf(db, id).None? ==> r
    ensures ParentOf(db, id).Some? ==> (r <==> ReorderableChildren(db[ParentOf(db, id).value]))
  {
    match ParentOf(db, id)
    case None => true
    case Some(q) => ReorderableChildren(db[q])
  }

  // ---- for_request ------------------------------------------------------------

  /** The redirect is an options hash that agrees with every request parameter. */
  predicate RedirectMatches(p: Page, params: map<string, string>)
  {
    p.redirectTo.RedirectOptions?
    && forall k | k in params :: k in p.redirectTo.options && p.redirectTo.options[k] == params[k]
  }

  /** The first page whose redirect matches, in table order. */
  function FirstMatching(pages: seq<Page>, params: map<string, string>): (r: Option<nat>)
    ensures r.Some? ==> r.value < |pages| && RedirectMatches(pages[r.value], params)
                        && forall j | 0 <= j < r.value :: !RedirectMatches(pages[j], params)
    ensures r.None? ==> forall j | 0 <= j < |pages| :: !RedirectMatches(pages[j], params)
  {
    if |pages| == 0 then None
    else if RedirectMatches(pages[0], params) then Some(0)
    else
      match FirstMatching(pages[1..], params)
      case None => None
      case Some(i) => Some(i + 1)
  }

  /** The `limit` argument of `for_request`. */
  datatype RequestLimit = NoLimit | LimitKeys(keys: seq<string>) | LimitNotArray

  datatype RequestError = LimitMustBeArray

  /** The parameters `for_request` compares: all of them, or only the `limit` keys. */
  function UsedParams(params: map<string, string>, limit: RequestLimit): (used: map<string, string>)
    ensures limit.LimitKeys? ==> forall k :: k in used <==> k in params && k in limit.keys
    ensures !limit.LimitKeys? ==> used == params
    ensures forall k | k in used :: k in params && used[k] == params[k]
  {
    if limit.LimitKeys? then map k | k in params && k in limit.keys :: params[k] else params
  }

  /** Page `i` matches and no page before it does. */
  predicate FirstMatchAt(pages: seq<Page>, params: map<string, string>, i: int)
  {
    0 <= i < |pages| && RedirectMatches(pages[i], params)
    && forall j | 0 <= j < i :: !RedirectMatches(pages[j], params)
  }

  /**
   `for_request`: the first page whose redirect hash agrees with the request parameters,
   restricted to the `limit` keys when given. None stands for the blank `Page.new`
   returned when no page matches; a limit that is not an array raises.
   */
  function ForRequest(pages: seq<Page>, params: map<string, string>, limit: RequestLimit)
    : (r: Result<Option<Page>, RequestError>)
    ensures limit.LimitNotArray? <==> r.Err?
    ensures r.Ok? && r.value.Some? ==>
              exists i :: FirstMatchAt(pages, UsedParams(params, limit), i) && pages[i] == r.value.value
    ensures r.Ok? ==>
              (r.value.None? <==> forall j | 0 <= j < |pages| :: !RedirectMatches(pages[j], UsedParams(params, limit)))
  {
    if limit.LimitNotArray? then Err(LimitMustBeArray)
    else
      match FirstMatching(pages, UsedParams(params, limit))
      case None => Ok(None)
      case Some(i) => assert FirstMatchAt(pages, UsedParams(params, limit), i); Ok(Some(pages[i]))
  }

  /** Whichever page is first to match is the one `for_request` returns. */
  lemma ForRequestFindsFirst(pages: seq<Page>, params: map<string, string>, limit: RequestLimit, i: int)
    requires !limit.LimitNotArray? && FirstMatchAt(pages, UsedParams(params, limit), i)
    ensures ForRequest(pages, params, limit) == Ok(Some(pages[i]))
  {
    var used := UsedParams(params, limit);
    var f := FirstMatching(pages, used);
    assert f.Some?;
  }

  /** Fewer parameters match at least the same pages: limiting can only find a page earlier. */
  lemma FewerParamsStillMatch(p: Page, params: map<string, string>, keys: set<string>)
    requires RedirectMatches(p, params)
    ensures RedirectMatches(p, map k | k in params && k in keys :: params[k])
  {
  }
}

=== FILE: pages.dfy ===
/**
 The page record and the rules `Page` applies to one record: the five status labels and
 their parser, the per-label predicates, the published test, the save-time defaults for
 the publication time and the autopublish flag, the content order and the redirect
 helpers (app/models/page.rb).
 */
module Pages {

  import opened Wrappers
  import opened Text

  type PageId = nat

  /** A point in time, in seconds. */
  type Time = int

  /** What the serialized `redirect_to` column holds. */
  datatype Redirect =
    | NoRedirect                                   // nil
    | RedirectPath(path: string)                   // a String
    | RedirectOptions(options: map<string, string>) // a Hash of URL options, keys as symbols
    | RedirectOther                                // any other serialized value

  /**
   One row of the pages table, with the page's name in the working language and in the
   application's default locale.
   */
  datatype Page = Page(
    id: PageId,
    parentId: Option<PageId>,
    status: int,
    autopublish: bool,
    publishedAt: Option<Time>,
    createdAt: Option<Time>,
    newsPage: bool,
    contentOrder: Option<string>,
    redirectTo: Redirect,
    commentsCount: int,
    name: string,
    defaultName: string,
    body: string)

  // ---- status ---------------------------------------------------------------

  const StatusLabels: seq<string> := ["Draft", "Reviewed", "Published", "Hidden", "Deleted"]

  const Draft := 0
  const Reviewed := 1
  const Published := 2
  const Hidden := 3
  const Deleted := 4

  /** The index of the first label equal to `name` ignoring letter case. */
  function LabelIndex(name: string): (r: Option<nat>)
    ensures r.Some? ==> r.value < |StatusLabels| && Lower(StatusLabels[r.value]) == Lower(name)
    ensures r.None? <==> forall i | 0 <= i < |StatusLabels| :: Lower(StatusLabels[i]) != Lower(name)
  {
    FirstLabelFrom(Lower(name), 0)
  }

  function FirstLabelFrom(lowered: string, from: nat): (r: Option<nat>)
    requires from <= |StatusLabels|
    ensures r.Some? ==> from <= r.value < |StatusLabels| && Lower(StatusLabels[r.value]) == lowered
    ensures r.None? <==> forall i | from <= i < |StatusLabels| :: Lower(StatusLabels[i]) != lowered
    decreases |StatusLabels| - from
  {
    if from == |StatusLabels| then None
    else if Lower(StatusLabels[from]) == lowered then Some(from)
    else FirstLabelFrom(lowered, from + 1)
  }

  /** The lower-cased labels are pairwise different, so a label names one index. */
  lemma LowerLabelsDistinct()
    ensures forall i, j | 0 <= i < j < |StatusLabels| :: Lower(StatusLabels[i]) != Lower(StatusLabels[j])
  {
    assert Lower(StatusLabels[0])[0] == 'd';
    assert Lower(StatusLabels[1])[0] == 'r';
    assert Lower(StatusLabels[2])[0] == 'p';
    assert Lower(StatusLabels[3])[0] == 'h';
    assert Lower(StatusLabels[4])[0] == 'd';
    assert Lower(StatusLabels[0])[1] == 'r';
    assert Lower(StatusLabels[4])[1] == 'e';
  }

  /** What `set_status` may be given. */
  datatype StatusValue =
    | Str(s: string)      // a String
    | Sym(s: string)      // a Symbol, by its name
    | Int(n: int)         // an Integer
    | Frac(x: real)       // a non-integer Numeric (Float, Rational)
    | OtherValue          // anything else

  /** Ruby's `Numeric#to_i`: truncation toward zero. */
  function Truncate(x: real): (r: int)
    ensures x >= 0.0 ==> r as real <= x < r as real + 1.0
    ensures x < 0.0 ==> r as real - 1.0 < x <= r as real
  {
    if x >= 0.0 then x.Floor else -((-x).Floor)
  }

  /** Some line of `s` is a non-empty run of digits: `s.match(/^[\d]+$/)`. */
  predicate HasDigitLine(s: string)
  {
    exists i | 0 <= i < |Lines(s)| :: DigitLine(Lines(s)[i])
  }

  predicate DigitLine(line: string)
  {
    |line| > 0 && AllDigits(line)
  }

  /** `set_status` on a page whose status is `status`: the status written afterwards. */
  function SetStatus(status: int, v: StatusValue): (r: int)
    ensures v.Int? ==> r == v.n
    ensures v.Frac? ==> r == Truncate(v.x)
    ensures v.OtherValue? ==> r == status
    ensures v.Str? && DigitLine(v.s) ==> r == DigitsValue(v.s)
    ensures v.Str? && HasDigitLine(v.s) ==> r == ToI(v.s)
    ensures v.Sym? || (v.Str? && !HasDigitLine(v.s)) ==>
              (forall i | 0 <= i < |StatusLabels| :: Lower(v.s) == Lower(StatusLabels[i]) ==> r == i)
              && ((forall i | 0 <= i < |StatusLabels| :: Lower(v.s) != Lower(StatusLabels[i])) ==> r == status)
  {
    LowerLabelsDistinct();
    match v
    case Str(s) =>
      if DigitLine(s) then
        ToIOfDigits(s);
        assert Lines(s) == [s] by { FieldsOfNoSep(s, c => c == '\n'); }
        assert DigitLine(Lines(s)[0]);
        ToI(s)
      else if HasDigitLine(s) then ToI(s)
      else StatusFromLabel(status, s)
    case Sym(s) => StatusFromLabel(status, s)
    case Int(n) => n
    case Frac(x) => Truncate(x)
    case OtherValue => status
  }

  /**
   A digit line anywhere sends the whole string through `to_i`, which reads only the
   front: "abc\n12" sets the status to 0.
   */
  lemma DigitSecondLineReadsZero(status: int)
    ensures SetStatus(status, Str("abc\n12")) == 0
  {
    var s := "abc\n12";
    assert s == "abc" + "\n" + "12";
    LinesSecond("abc", "12");
    assert DigitLine(Lines(s)[1]);
    assert HasDigitLine(s);
    ToIOfNonNumber(s);
  }

  /** The second line of `a + "\n" + b` is `b` when neither has a line feed. */
  lemma LinesSecond(a: string, b: string)
    requires '\n' !in a && '\n' !in b && |b| > 0
    ensures |Lines(a + "\n" + b)| >= 2 && Lines(a + "\n" + b)[1] == b
  {
    var nl := c => c == '\n';
    assert forall k | 0 <= k < |a| :: !nl(a[k]);
    assert forall k | 0 <= k < |b| :: !nl(b[k]);
    FieldsCons(a, '\n', b, nl);
    FieldsOfNoSep(b, nl);
    assert a + "\n" + b == a + ['\n'] + b;
  }

  /** The index of the label `s` names, or the old status when it names none. */
  function StatusFromLabel(status: int, s: string): int
  {
    match LabelIndex(s)
    case Some(i) => i
    case None => status
  }

  /** `status_label`: Ruby's `Array#[]`, so -5..-1 count from the end and others give nil. */
  function StatusLabel(status: int): (r: Option<string>)
    ensures r.Some? <==> -|StatusLabels| <= status < |StatusLabels|
    ensures 0 <= status < |StatusLabels| ==> r == Some(StatusLabels[status])
    ensures -|StatusLabels| <= status < 0 ==> r == Some(StatusLabels[|StatusLabels| + status])
  {
    if 0 <= status < |StatusLabels| then Some(StatusLabels[status])
    else if -|StatusLabels| <= status < 0 then Some(StatusLabels[|StatusLabels| + status])
    else None
  }

  /** A status and the same status less five name the same label; -1 is "Deleted". */
  lemma NegativeStatusCountsFromEnd(status: int)
    requires 0 <= status < |StatusLabels|
    ensures StatusLabel(status - |StatusLabels|) == StatusLabel(status)
    ensures StatusLabel(-1) == Some("Deleted")
  {
  }

  /**
   A label in any letter case is not a digit line, so `set_status` reads it as a label;
   `status_label` then gives the canonical spelling back.
   */
  lemma SetStatusLabelRoundTrip(status: int, s: string, i: nat)
    requires i < |StatusLabels| && Lower(s) == Lower(StatusLabels[i])
    ensures SetStatus(status, Str(s)) == i
    ensures SetStatus(status, Sym(s)) == i
    ensures StatusLabel(SetStatus(status, Str(s))) == Some(StatusLabels[i])
  {
    assert forall k | 0 <= k < |s| :: !IsDigit(s[k]) by {
      forall k | 0 <= k < |s| ensures !IsDigit(s[k]) {
        assert Lower(s)[k] == LowerChar(s[k]);
        assert !IsDigit(Lower(StatusLabels[i])[k]);
      }
    }
    FieldsKeep(s, c => c == '\n', c => !IsDigit(c));
    assert !HasDigitLine(s) by {
      forall j | 0 <= j < |Lines(s)| ensures !DigitLine(Lines(s)[j]) {
        if |Lines(s)[j]| > 0 {
          assert !IsDigit(Lines(s)[j][0]);
        }
      }
    }
  }

  /**
   The `<label>?` predicates of `method_missing`, given the text before the `?`: the
   status equals that label's index; a stem that is no label has no predicate (None).
   */
  function StatusQuery(status: int, stem: string): (r: Option<bool>)
    ensures r.None? <==> forall i | 0 <= i < |StatusLabels| :: Lower(stem) != Lower(StatusLabels[i])
    ensures forall i | 0 <= i < |StatusLabels| ::
              Lower(stem) == Lower(StatusLabels[i]) ==> r == Some(status == i)
  {
    LowerLabelsDistinct();
    match LabelIndex(stem)
    case Some(i) => Some(status == i)
    case None => None
  }

  /** `published?`: status Published and not waiting for its publication time. */
  predicate IsPublished(p: Page)
    ensures IsPublished(p) ==> StatusLabel(p.status) == Some("Published") && !p.autopublish
  {
    p.status == Published && !p.autopublish
  }

  /** `published?` is the `published?` label predicate with the autopublish flag off. */
  lemma PublishedIsLabelQuery(p: Page)
    ensures IsPublished(p) <==> StatusQuery(p.status, "PUBLISHED") == Some(true) && !p.autopublish
  {
    assert Lower("PUBLISHED") == Lower(StatusLabels[2]);
  }

  // ---- publication time and autopublish ---------------------------------------

  /** The `published_at` reader: the stored time, else the creation time. */
  function PublishedAt(p: Page): Option<Time>
  {
    p.publishedAt.Or(p.createdAt)
  }

  /**
   The `before_save` hook: a missing publication time defaults to the creation time, else
   to now, and the autopublish flag records whether that time is still in the future.
   */
  function BeforeSave(p: Page, now: Time): (r: Page)
    ensures r.publishedAt.Some?
    ensures p.publishedAt.Some? ==> r.publishedAt == p.publishedAt
    ensures p.publishedAt.None? && p.createdAt.Some? ==> r.publishedAt == p.createdAt
    ensures p.publishedAt.None? && p.createdAt.None? ==> r.publishedAt == Some(now)
    ensures r.autopublish <==> r.publishedAt.value > now
    ensures r.(publishedAt := p.publishedAt, autopublish := p.autopublish) == p
    ensures IsPublished(r) <==> p.status == Published && r.publishedAt.value <= now
  {
    var at := PublishedAt(p).GetOr(now);
    p.(publishedAt := Some(at), autopublish := at > now)
  }

  /** Saving twice at the same instant is saving once. */
  lemma BeforeSaveIdempotent(p: Page, now: Time)
    ensures BeforeSave(BeforeSave(p, now), now) == BeforeSave(p, now)
  {
  }

  // ---- ordering ----------------------------------------------------------------

  /** `content_order`: the stored order, else "position". */
  function ContentOrder(p: Page): string
  {
    p.contentOrder.GetOr("position")
  }

  /**
   `reorderable_children?`: the children can be sorted by hand unless the page has a
   non-blank content order that does not mention "position".
   */
  function ReorderableChildren(p: Page): (r: bool)
    ensures p.contentOrder.None? ==> r
    ensures Contains(ContentOrder(p), "position") ==> r
    ensures !r <==> !BlankOpt(p.contentOrder) && !Contains(ContentOrder(p), "position")
  {
    BlankOpt(p.contentOrder) || Contains(ContentOrder(p), "position")
  }

  /** A page without an explicit order is ordered by position, and its children can be reordered. */
  lemma DefaultOrderIsPosition(p: Page)
    requires p.contentOrder.None?
    ensures ContentOrder(p) == "position" && ReorderableChildren(p)
  {
  }

  // ---- redirects ------------------------------------------------------------------

  /**
   `redirects?`: "0" never redirects; a path redirects when it is not only white space;
   an options hash redirects when it is not empty; nothing else redirects.
   */
  function Redirects(p: Page): (r: bool)
    ensures p.redirectTo.NoRedirect? || p.redirectTo.RedirectOther? ==> !r
    ensures p.redirectTo == RedirectPath("0") ==> !r
    ensures p.redirectTo.RedirectPath? && p.redirectTo.path != "0" ==>
              (r <==> !StripsToEmpty(p.redirectTo.path))
    ensures p.redirectTo.RedirectOptions? ==> (r <==> |p.redirectTo.options| > 0)
  {
    match p.redirectTo
    case RedirectPath(s) => s != "0" && !StripsToEmpty(s)
    case RedirectOptions(h) => |h| > 0
    case _ => false
  }

  /**
   `redirect_to_options`: the redirect hash merged over `options`. The `language` option
   is kept only when the redirect names a language too, and then the caller's language
   wins; every other key of the redirect wins over `options`. A path or other value is
   returned unchanged.
   */
  function RedirectToOptions(p: Page, options: map<string, string>): (r: Redirect)
    ensures !p.redirectTo.RedirectOptions? ==> r == p.redirectTo
    ensures p.redirectTo.RedirectOptions? ==> r.RedirectOptions?
    ensures p.redirectTo.RedirectOptions? ==>
              var h := p.redirectTo.options;
              && ("language" in r.options <==> "language" in h)
              && ("language" in h ==>
                    r.options["language"] == (if "language" in options then options["language"] else h["language"]))
              && (forall k | k in h && k != "language" :: k in r.options && r.options[k] == h[k])
              && (forall k | k in options && k !in h && k != "language" :: k in r.options && r.options[k] == options[k])
              && (forall k | k in r.options :: k in h || k in options)
  {
    match p.redirectTo
    case RedirectOptions(h) =>
      var opts := if "language" in h then options else options - {"language"};
      var red := if "language" in opts then h - {"language"} else h;
      RedirectOptions(opts + red)
    case _ => p.redirectTo
  }

  /**
   What `redirect_to_options` does to its receivers besides returning the merge: with a
   redirect hash, the caller's `options` lose `language` unless the redirect has one, and
   the page's redirect hash loses `language` when the options still have one. The page
   and the options are returned in that updated state.
   */
  function RedirectToOptionsEffects(p: Page, options: map<string, string>): (r: (Page, map<string, string>))
    ensures !p.redirectTo.RedirectOptions? ==> r == (p, options)
    ensures p.redirectTo.RedirectOptions? ==>
              var h := p.redirectTo.options;
              && r.0.redirectTo.RedirectOptions? && r.0 == p.(redirectTo := r.0.redirectTo)
              && ("language" in r.1 <==> "language" in h && "language" in options)
              && (forall k | k in options && k != "language" :: k in r.1)
              && (forall k | k in r.1 :: k in options && r.1[k] == options[k])
              && ("language" in r.0.redirectTo.options <==> "language" in h && "language" !in options)
              && (forall k | k in h && k != "language" :: k in r.0.redirectTo.options)
              && (forall k | k in r.0.redirectTo.options :: k in h && r.0.redirectTo.options[k] == h[k])
  {
    match p.redirectTo
    case RedirectOptions(h) =>
      var opts := if "language" in h then options else options - {"language"};
      var red := if "language" in opts then h - {"language"} else h;
      (p.(redirectTo := RedirectOptions(red)), opts)
    case _ => (p, options)
  }

  /** The value returned is the updated options with the updated redirect merged over them. */
  lemma RedirectToOptionsIsMergeOfEffects(p: Page, options: map<string, string>)
    requires p.redirectTo.RedirectOptions?
    ensures var (q, opts) := RedirectToOptionsEffects(p, options);
            RedirectToOptions(p, options) == RedirectOptions(opts + q.redirectTo.options)
  {
  }

  /** Merging a redirect hash over no options gives the hash back, and changes nothing. */
  lemma {:induction false} MergeWithNothing(p: Page)
    requires p.redirectTo.RedirectOptions?
    ensures RedirectToOptions(p, map[]) == p.redirectTo
    ensures RedirectToOptionsEffects(p, map[]) == (p, map[])
  {
    var h := p.redirectTo.options;
    var r := RedirectToOptions(p, map[]).options;
    assert forall k :: k in r <==> k in h;
    assert r == h;
  }

  /** A redirecting hash still redirects after merging, whatever the options. */
  lemma MergedStillRedirects(p: Page, options: map<string, string>)
    requires p.redirectTo.RedirectOptions? && Redirects(p)
    ensures Redirects(p.(redirectTo := RedirectToOptions(p, options)))
  {
    var h := p.redirectTo.options;
    var k :| k in h;
    assert k in RedirectToOptions(p, options).options;
  }

  /**
   A redirect that names only a language stops redirecting once merged with options
   that name another one: the call removes the redirect's language in place.
   */
  lemma LanguageOptionEmptiesRedirect(p: Page)
    requires p.redirectTo == RedirectOptions(map["language" := "nor"])
    ensures Redirects(p)
    ensures var (q, opts) := RedirectToOptionsEffects(p, map["language" := "eng"]);
            !Redirects(q) && opts == map["language" := "eng"]
  {
    var q := RedirectToOptionsEffects(p, map["language" := "eng"]).0;
    assert "language" !in q.redirectTo.options;
    assert q.redirectTo.options == map[];
  }
}

=== FILE: pages_core.dfy ===
/**
 The module functions of lib/pages_core.rb: the application name taken from the deploy
 path, and the site configuration with its lazily loaded defaults. The configuration
 object's class is not part of this model: it is a map from setting names to values.
 */
module PagesCore {

  import opened Wrappers
  import opened Text

  // ---- application_name ----------------------------------------------------------

  predicate IsSlash(c: char) { c == '/' }

  predicate IsLineFeed(c: char) { c == '\n' }

  /** Each line rewritten on its own. */
  function MapLines(lines: seq<string>, rewrite: string -> string): (r: seq<string>)
    ensures |r| == |lines| && forall k | 0 <= k < |r| :: r[k] == rewrite(lines[k])
  {
    if |lines| == 0 then [] else [rewrite(lines[0])] + MapLines(lines[1..], rewrite)
  }

  /** The `gsub` of a pattern anchored with `$` and holding no line feed: each line is rewritten on its own. */
  function AtLineEnds(s: string, rewrite: string -> string): string
  {
    Join(MapLines(FieldsBy(s, IsLineFeed), rewrite), "\n")
  }

  /** `/\/current\/?$/` removed from the end of one line. */
  function StripCurrent(line: string): (r: string)
    ensures EndsWith(line, "/current/") ==> line == r + "/current/"
    ensures !EndsWith(line, "/current/") && EndsWith(line, "/current") ==> line == r + "/current"
    ensures !EndsWith(line, "/current/") && !EndsWith(line, "/current") ==> r == line
  {
    if EndsWith(line, "/current/") then line[..|line| - 9]
    else if EndsWith(line, "/current") then line[..|line| - 8]
    else line
  }

  /** The number of digits at the end of `s`. */
  function TrailingDigits(s: string): (n: nat)
    ensures n <= |s| && forall k | |s| - n <= k < |s| :: IsDigit(s[k])
    ensures n < |s| ==> !IsDigit(s[|s| - n - 1])
  {
    if |s| == 0 || !IsDigit(s[|s| - 1]) then 0
    else 1 + TrailingDigits(s[..|s| - 1])
  }

  /** `/\/releases\/[\d]+\/?$/` removed from the end of one line. */
  function StripReleases(line: string): (r: string)
    ensures |r| <= |line| && line[..|r|] == r
  {
    var core := if |line| > 0 && line[|line| - 1] == '/' then line[..|line| - 1] else line;
    var n := TrailingDigits(core);
    var p := core[..|core| - n];
    if n > 0 && EndsWith(p, "/releases/") then p[..|p| - 10] else line
  }

  /** A release directory at the end of a line is removed, with or without a final slash. */
  lemma StripReleasesRemoves(p: string, digits: string, tail: string)
    requires |digits| > 0 && AllDigits(digits) && (tail == "" || tail == "/")
    ensures StripReleases(p + "/releases/" + digits + tail) == p
  {
    var line := p + "/releases/" + digits + tail;
    var prefix := p + "/releases/";
    var core := prefix + digits;
    assert line == core + tail;
    assert (if |line| > 0 && line[|line| - 1] == '/' then line[..|line| - 1] else line) == core by {
      if tail == "" {
        assert line[|line| - 1] == digits[|digits| - 1];
      }
    }
    TrailingDigitsOfSuffix(prefix, digits);
    assert core[..|core| - |digits|] == prefix;
    assert EndsWith(prefix, "/releases/");
    assert prefix[..|prefix| - 10] == p;
  }

  /** The digits after a "/" are exactly the trailing digits. */
  lemma {:induction false} TrailingDigitsOfSuffix(prefix: string, digits: string)
    requires |prefix| > 0 && prefix[|prefix| - 1] == '/' && AllDigits(digits)
    ensures TrailingDigits(prefix + digits) == |digits|
    decreases |digits|
  {
    var core := prefix + digits;
    if |digits| == 0 {
      assert core == prefix;
    } else {
      var front := digits[..|digits| - 1];
      assert core[|core| - 1] == digits[|digits| - 1];
      assert core[..|core| - 1] == prefix + front;
      TrailingDigitsOfSuffix(prefix, front);
    }
  }

  /** The last element of a list, nil for an empty one (`Array#last`). */
  function Last(xs: seq<string>): (r: Option<string>)
    ensures r.Some? <==> |xs| > 0
    ensures r.Some? ==> r.value == xs[|xs| - 1]
  {
    if |xs| == 0 then None else Some(xs[|xs| - 1])
  }

  /**
   `application_name`: strip a trailing "/current" and then a trailing
   "/releases/<digits>" (each with an optional final slash), then take the last
   segment of the "/"-split, which drops trailing empty segments; nil when none is left.
   */
  function ApplicationName(dir: string): (r: Option<string>)
    ensures r.Some? ==> r.value != "" && forall j | 0 <= j < |r.value| :: r.value[j] != '/'
  {
    Last(SplitOn(AtLineEnds(AtLineEnds(dir, StripCurrent), StripReleases), IsSlash))
  }

  /** On a path with no line feed, the anchored patterns see one line. */
  lemma AtLineEndsOneLine(s: string, rewrite: string -> string)
    requires NoSep(s, IsLineFeed)
    ensures AtLineEnds(s, rewrite) == rewrite(s)
  {
    FieldsOfNoSep(s, IsLineFeed);
  }

  /** Joined texts hold a line feed exactly when one of them does. */
  lemma NoLineFeedConcat(a: string, b: string)
    ensures NoSep(a + b, IsLineFeed) <==> NoSep(a, IsLineFeed) && NoSep(b, IsLineFeed)
  {
    var ab := a + b;
    if NoSep(a, IsLineFeed) && NoSep(b, IsLineFeed) {
      forall j | 0 <= j < |ab| ensures !IsLineFeed(ab[j]) {
        if j < |a| {
          assert ab[j] == a[j];
        } else {
          assert ab[j] == b[j - |a|];
        }
      }
    }
    if NoSep(ab, IsLineFeed) {
      forall j | 0 <= j < |a| ensures !IsLineFeed(a[j]) {
        assert ab[j] == a[j];
      }
      forall j | 0 <= j < |b| ensures !IsLineFeed(b[j]) {
        assert ab[|a| + j] == b[j];
      }
    }
  }

  /** An application directory holds no line feed. */
  lemma AppDirOneLine(base: string, name: string)
    requires PlainAppDir(base, name)
    ensures NoSep(base + "/" + name, IsLineFeed)
  {
    NoLineFeedConcat(base, "/");
    NoLineFeedConcat(base + "/", name);
  }

  /** The last segment of a path is its final name, when that name is not empty. */
  lemma LastSegment(base: string, name: string)
    requires name != "" && forall j | 0 <= j < |name| :: name[j] != '/'
    ensures Last(SplitOn(base + "/" + name, IsSlash)) == Some(name)
  {
    var s := base + "/" + name;
    FieldsLast(s, |base|, IsSlash);
    assert s[|base| + 1..] == name;
  }

  /** "<base>/<name>" names an application directory `name`: no line feeds, and no suffix the patterns strip. */
  predicate PlainAppDir(base: string, name: string)
  {
    && name != ""
    && (forall j | 0 <= j < |name| :: name[j] != '/' && name[j] != '\n')
    && NoSep(base, IsLineFeed)
    && name != "current"
    && !(AllDigits(name) && EndsWith(base, "/releases"))
  }

  /** No "/current" at the end of an application directory. */
  lemma PlainNotCurrent(base: string, name: string)
    requires PlainAppDir(base, name)
    ensures StripCurrent(base + "/" + name) == base + "/" + name
  {
    var dir := base + "/" + name;
    assert dir[|dir| - 1] == name[|name| - 1];
    NotEndsWithAt(dir, "/current/", 8);
    if |name| >= 8 {
      assert dir[|dir| - 8] == name[|name| - 8];
      NotEndsWithAt(dir, "/current", 0);
    } else if |name| == 7 {
      var i :| 0 <= i < 7 && name[i] != "current"[i];
      assert dir[|dir| - 8 + 1 + i] == name[i];
      NotEndsWithAt(dir, "/current", i + 1);
    } else {
      assert dir[|base|] == '/';
      NotEndsWithAt(dir, "/current", 7 - |name|);
    }
  }

  /** The digits at the end of "<base>/<name>" all belong to `name`. */
  lemma TrailingDigitsOfAppDir(base: string, name: string)
    ensures TrailingDigits(base + "/" + name) <= |name|
  {
    var dir := base + "/" + name;
    assert dir[|base|] == '/' && !IsDigit(dir[|base|]);
  }

  /** No release directory at the end of an application directory. */
  lemma PlainNotRelease(base: string, name: string)
    requires PlainAppDir(base, name)
    ensures StripReleases(base + "/" + name) == base + "/" + name
  {
    var dir := base + "/" + name;
    assert dir[|dir| - 1] == name[|name| - 1];
    var n := TrailingDigits(dir);
    TrailingDigitsOfAppDir(base, name);
    var p := dir[..|dir| - n];
    if 0 < n < |name| {
      assert p[|p| - 1] == name[|name| - n - 1];
      NotEndsWithAt(p, "/releases/", 9);
    } else if n == |name| {
      assert p == base + "/";
      assert AllDigits(name) by {
        forall j | 0 <= j < |name| ensures IsDigit(name[j]) {
          assert name[j] == dir[|base| + 1 + j];
        }
      }
      EndsWithSnoc(base, "/releases", '/');
    }
  }

  /** "<base>/<name>" is named `name`. */
  lemma NameOfAppDir(base: string, name: string)
    requires PlainAppDir(base, name)
    ensures ApplicationName(base + "/" + name) == Some(name)
  {
    var dir := base + "/" + name;
    AppDirOneLine(base, name);
    AtLineEndsOneLine(dir, StripCurrent);
    PlainNotCurrent(base, name);
    AtLineEndsOneLine(dir, StripReleases);
    PlainNotRelease(base, name);
    LastSegment(base, name);
  }

  /** The release part of "<app>/releases/<digits><tail>" is not a "current" suffix. */
  lemma ReleaseNotCurrent(app: string, digits: string, tail: string)
    requires |digits| > 0 && AllDigits(digits) && (tail == "" || tail == "/")
    ensures var dir := app + "/releases/" + digits + tail; StripCurrent(dir) == dir
  {
    var dir := app + "/releases/" + digits + tail;
    if tail == "/" {
      assert dir[|dir| - 2] == digits[|digits| - 1];
      NotEndsWithAt(dir, "/current/", 7);
      NotEndsWithAt(dir, "/current", 7);
    } else {
      assert dir[|dir| - 1] == digits[|digits| - 1];
      NotEndsWithAt(dir, "/current/", 8);
      NotEndsWithAt(dir, "/current", 7);
    }
  }

  /** A release checkout "<base>/<name>/releases/<digits>" is named `name`. */
  lemma NameOfRelease(base: string, name: string, digits: string, tail: string)
    requires PlainAppDir(base, name) && |digits| > 0 && AllDigits(digits) && (tail == "" || tail == "/")
    ensures ApplicationName(base + "/" + name + "/releases/" + digits + tail) == Some(name)
  {
    var app := base + "/" + name;
    var dir := app + "/releases/" + digits + tail;
    AppDirOneLine(base, name);
    assert NoSep(digits, IsLineFeed);
    NoLineFeedConcat(app, "/releases/");
    NoLineFeedConcat(app + "/releases/", digits);
    NoLineFeedConcat(app + "/releases/" + digits, tail);
    AtLineEndsOneLine(dir, StripCurrent);
    ReleaseNotCurrent(app, digits, tail);
    AtLineEndsOneLine(dir, StripReleases);
    StripReleasesRemoves(app, digits, tail);
    assert AtLineEnds(AtLineEnds(dir, StripCurrent), StripReleases) == app;
    NameOfAppDir(base, name);
    AtLineEndsOneLine(app, StripCurrent);
    AtLineEndsOneLine(app, StripReleases);
    PlainNotCurrent(base, name);
    PlainNotRelease(base, name);
  }

  /** "<app>/current" with an optional final slash loses the "/current". */
  lemma CurrentStripped(app: string, tail: string)
    requires tail == "" || tail == "/"
    ensures StripCurrent(app + "/current" + tail) == app
  {
    var dir := app + "/current" + tail;
    if tail == "/" {
      assert EndsWith(dir, "/current/");
      assert dir[..|dir| - 9] == app;
    } else {
      assert dir[|dir| - 1] == 't';
      NotEndsWithAt(dir, "/current/", 8);
      assert EndsWith(dir, "/current");
      assert dir[..|dir| - 8] == app;
    }
  }

  /** A checkout linked as "<base>/<name>/current" is named `name`. */
  lemma NameOfCurrent(base: string, name: string, tail: string)
    requires PlainAppDir(base, name) && (tail == "" || tail == "/")
    ensures ApplicationName(base + "/" + name + "/current" + tail) == Some(name)
  {
    var app := base + "/" + name;
    var dir := app + "/current" + tail;
    AppDirOneLine(base, name);
    NoLineFeedConcat(app, "/current");
    NoLineFeedConcat(app + "/current", tail);
    AtLineEndsOneLine(dir, StripCurrent);
    CurrentStripped(app, tail);
    AtLineEndsOneLine(app, StripReleases);
    PlainNotRelease(base, name);
    assert AtLineEnds(AtLineEnds(dir, StripCurrent), StripReleases) == app;
    LastSegment(base, name);
  }

  // ---- configuration -----------------------------------------------------------------

  /** A setting value: a symbol, a string, a flag or a number. */
  datatype Value = Sym(name: string) | Str(s: string) | Flag(b: bool) | Num(n: int)

  type Config = map<string, Value>

  /** The class variable `@@configuration`; None while it is not defined. */
  type State = Option<Config>

  /** `load_default_configuration`: a fresh configuration with three settings. */
  const Defaults: Config := map[
    "localizations" := Sym("disabled"),
    "page_cache" := Sym("enabled"),
    "text_filter" := Sym("textile")]

  /** The configuration in effect: the defaults when none has been loaded. */
  function Loaded(s: State): (c: Config)
    ensures s.Some? ==> c == s.value
    ensures s.None? ==> c == Defaults
  {
    s.GetOr(Defaults)
  }

  /** What `configuration` returns: the whole configuration, or one setting's value (nil when unset). */
  datatype Answer = Whole(config: Config) | Setting(value: Option<Value>)

  /** `get(key)` on a configuration. */
  function Get(c: Config, key: string): (r: Option<Value>)
    ensures r.Some? <==> key in c
    ensures r.Some? ==> r.value == c[key]
  {
    if key in c then Some(c[key]) else None
  }

  /**
   `configuration(key, value)`: load the defaults when nothing is defined; with a key,
   store a non-nil value under it and answer the key's value; without one, answer the
   whole configuration.
   */
  function Configuration(s: State, key: Option<string>, value: Option<Value>): (r: (Answer, State))
    ensures r.1.Some?
    ensures key.None? ==> r.0 == Whole(Loaded(s)) && r.1 == Some(Loaded(s))
    ensures key.Some? && value.Some? ==>
              r.0 == Setting(value) && r.1 == Some(Loaded(s)[key.value := value.value])
    ensures key.Some? && value.None? ==>
              r.0 == Setting(Get(Loaded(s), key.value)) && r.1 == Some(Loaded(s))
  {
    var c := Loaded(s);
    match key
    case None => (Whole(c), Some(c))
    case Some(k) =>
      var c' := if value.Some? then c[k := value.value] else c;
      (Setting(Get(c', k)), Some(c'))
  }

  /** Reading a setting before anything was configured gives its default. */
  lemma DefaultsOnFirstRead()
    ensures Configuration(None, Some("page_cache"), None).0 == Setting(Some(Sym("enabled")))
    ensures Configuration(None, Some("localizations"), None).0 == Setting(Some(Sym("disabled")))
    ensures Configuration(None, Some("text_filter"), None).0 == Setting(Some(Sym("textile")))
    ensures Configuration(None, Some("site_name"), None).0 == Setting(None)
  {
  }

  /** A nil value never writes: the configuration stays what it was. */
  lemma NilValueReads(s: State, key: string)
    ensures Loaded(Configuration(s, Some(key), None).1) == Loaded(s)
  {
  }

  /** The `reset:` option of `configure`. */
  datatype Reset = NoReset | ResetDefaults | ResetTrue | ResetOther

  /** A (key, value) pair of the legacy `configure(options)` form. */
  type Pair = (string, Option<Value>)

  /** The legacy form applies each pair through `config(key, value)`, in order. */
  function ApplyPairs(s: State, pairs: seq<Pair>): (r: State)
    ensures |pairs| > 0 ==> r.Some?
    decreases |pairs|
  {
    if |pairs| == 0 then s
    else ApplyPairs(Configuration(s, Some(pairs[0].0), pairs[0].1).1, pairs[1..])
  }

  /** The value the last non-nil pair for `key` carries, when there is one. */
  function LastWrite(pairs: seq<Pair>, key: string): Option<Value>
  {
    if |pairs| == 0 then None
    else if pairs[|pairs| - 1].0 == key && pairs[|pairs| - 1].1.Some? then pairs[|pairs| - 1].1
    else LastWrite(pairs[..|pairs| - 1], key)
  }

  /** After the legacy form, a setting holds the last non-nil value given for it, or what it held before. */
  lemma {:induction false} ApplyPairsLastWrite(s: State, pairs: seq<Pair>, key: string)
    requires |pairs| > 0
    ensures LastWrite(pairs, key).Some? ==> Get(ApplyPairs(s, pairs).value, key) == LastWrite(pairs, key)
    ensures LastWrite(pairs, key).None? ==> Get(ApplyPairs(s, pairs).value, key) == Get(Loaded(s), key)
    decreases |pairs|
  {
    var front := pairs[..|pairs| - 1];
    var p := pairs[|pairs| - 1];
    assert pairs == front + [p];
    ApplyPairsSnoc(s, front, p);
    if |front| > 0 {
      ApplyPairsLastWrite(s, front, key);
    }
  }

  /** Applying one more pair is one more `config` call on the result. */
  lemma {:induction false} ApplyPairsSnoc(s: State, front: seq<Pair>, p: Pair)
    ensures ApplyPairs(s, front + [p]) == Configuration(ApplyPairs(s, front), Some(p.0), p.1).1
    decreases |front|
  {
    if |front| > 0 {
      assert (front + [p])[1..] == front[1..] + [p];
      ApplyPairsSnoc(Configuration(s, Some(front[0].0), front[0].1).1, front[1..], p);
    } else {
      assert ([p])[1..] == [];
    }
  }

  /**
   `configure(options, &block)`. With a block (`block` present): reset :defaults reloads
   the defaults, reset `true` starts from an empty configuration, anything else keeps
   the current one; the block then changes the configuration in effect. Without a
   block, every option pair goes through `config(key, value)`.
   */
  function Configure(s: State, reset: Reset, block: Option<Config -> Config>, pairs: seq<Pair>): (r: State)
    ensures block.Some? && reset == ResetDefaults ==> r == Some(block.value(Defaults))
    ensures block.Some? && reset == ResetTrue ==> r == Some(block.value(map[]))
    ensures block.Some? && (reset == NoReset || reset == ResetOther) ==> r == Some(block.value(Loaded(s)))
    ensures block.None? ==> r == ApplyPairs(s, pairs)
  {
    match block
    case Some(f) =>
      var s1 := match reset
        case ResetDefaults => Some(Defaults)
        case ResetTrue => Some(map[])
        case _ => s;
      Some(f(Loaded(s1)))
    case None => ApplyPairs(s, pairs)
  }
}

=== FILE: pages_helper.dfy ===
/**
 The admin page helpers of app/helpers/admin/pages_helper.rb: the template choices, the
 file embed code, how a page is named in the admin (with its parents when the name is
 ambiguous), the publication time wording and the list of possible authors. Template
 names, `humanize`, HTML escaping and `strftime` are parameters.
 */
module AdminPagesHelper {

  import opened Wrappers
  import opened Text
  import opened Pages
  import opened PageTree

  // ---- available_templates_for_select ---------------------------------------------

  /** One option of a select: the caption shown and the value sent. */
  type SelectOption = (string, string)

  /** `available_templates_for_select`: "index" is shown as "[Default]", other names humanised. */
  function TemplatesForSelect(names: seq<string>, humanize: string -> string): (r: seq<SelectOption>)
    ensures |r| == |names|
    ensures forall k | 0 <= k < |r| :: r[k].1 == names[k]
    ensures forall k | 0 <= k < |r| :: r[k].0 == (if names[k] == "index" then "[Default]" else humanize(names[k]))
  {
    seq(|names|, k requires 0 <= k < |names| =>
      if names[k] == "index" then ("[Default]", "index") else (humanize(names[k]), names[k]))
  }

  /** The values of the options. */
  function Values(options: seq<SelectOption>): (r: seq<string>)
    ensures |r| == |options| && forall k | 0 <= k < |r| :: r[k] == options[k].1
  {
    seq(|options|, k requires 0 <= k < |options| => options[k].1)
  }

  /** Choosing an option sends back a template name: the values are the names, in order. */
  lemma TemplateValuesAreNames(names: seq<string>, humanize: string -> string)
    ensures Values(TemplatesForSelect(names, humanize)) == names
  {
  }

  // ---- file_embed_code ---------------------------------------------------------------

  /** `file_embed_code`: "[file:<id>]". */
  function FileEmbedCode(id: nat): (r: string)
    ensures StartsWith(r, "[file:") && r[|r| - 1] == ']' && |r| >= 8
    ensures AllDigits(r[6..|r| - 1])
  {
    var r := "[file:" + NatToString(id) + "]";
    assert r[6..|r| - 1] == NatToString(id);
    r
  }

  /** The embed code names the file: the digits between "[file:" and "]" read back as the id. */
  lemma FileEmbedCodeRoundTrip(id: nat)
    ensures ToI(FileEmbedCode(id)[6..|FileEmbedCode(id)| - 1]) == id
  {
    var r := FileEmbedCode(id);
    assert r[6..|r| - 1] == NatToString(id);
    ToIOfIntToString(id);
  }

  // ---- page names --------------------------------------------------------------------

  /** `page_name_with_fallback`: the name, else the default-locale name in brackets, else "(Untitled)". */
  function NameWithFallback(p: Page): (r: string)
    ensures !Blank(p.name) ==> r == p.name
    ensures Blank(p.name) && !Blank(p.defaultName) ==> r == "(" + p.defaultName + ")"
    ensures Blank(p.name) && Blank(p.defaultName) ==> r == "(Untitled)"
    ensures r != ""
  {
    if !Blank(p.name) then p.name
    else if !Blank(p.defaultName) then "(" + p.defaultName + ")"
    else "(Untitled)"
  }

  /** The separator between names; it is already HTML and is not escaped. */
  const Raquo := " &raquo; "

  function Reverse<T>(s: seq<T>): (r: seq<T>)
    ensures |r| == |s| && forall k | 0 <= k < |s| :: r[k] == s[|s| - 1 - k]
  {
    if |s| == 0 then [] else Reverse(s[1..]) + [s[0]]
  }

  /** The pages `page_name` names: the page alone, or its root first down to the page. */
  function NamedPages(db: Db, id: PageId, includeParents: bool): (r: seq<PageId>)
    requires Acyclic(db) && id in db
    ensures |r| >= 1 && r[|r| - 1] == id
    ensures !includeParents ==> r == [id]
    ensures includeParents ==> r == Reverse(SelfAndAncestors(db, id))
    ensures forall k | 0 <= k < |r| :: r[k] in db
  {
    if includeParents then Reverse(SelfAndAncestors(db, id)) else [id]
  }

  /** With parents, the first named page is a root and each next one is a child of the one before. */
  lemma NamedPagesChain(db: Db, id: PageId)
    requires Acyclic(db) && id in db
    ensures var r := NamedPages(db, id, true);
            && ParentOf(db, r[0]).None?
            && forall k | 0 <= k < |r| - 1 :: ParentOf(db, r[k + 1]) == Some(r[k])
  {
    var chain := SelfAndAncestors(db, id);
    var anc := Ancestors(db, id);
    var r := NamedPages(db, id, true);
    forall k | 0 <= k < |r| - 1 ensures ParentOf(db, r[k + 1]) == Some(r[k]) {
      var j := |chain| - 2 - k;
      assert r[k + 1] == chain[j] && r[k] == chain[j + 1];
      if j == 0 {
        assert chain[1] == anc[0];
      } else {
        assert chain[j] == anc[j - 1] && chain[j + 1] == anc[j];
      }
    }
    if |anc| > 0 {
      assert r[0] == anc[|anc| - 1];
    }
  }

  /**
   `page_name`: the fallback names of the named pages, each HTML-escaped (`escape`, as
   `safe_join` does), joined with " &raquo; ".
   */
  function PageName(db: Db, id: PageId, includeParents: bool, escape: string -> string): (r: string)
    requires Acyclic(db) && id in db
    ensures !includeParents ==> r == escape(NameWithFallback(db[id]))
    ensures includeParents ==> r == Join(EscapedNames(db, Reverse(SelfAndAncestors(db, id)), escape), Raquo)
  {
    Join(EscapedNames(db, NamedPages(db, id, includeParents), escape), Raquo)
  }

  /** The escaped fallback names of the pages, in the same order. */
  function EscapedNames(db: Db, ids: seq<PageId>, escape: string -> string): (r: seq<string>)
    requires forall k | 0 <= k < |ids| :: ids[k] in db
    ensures |r| == |ids| && forall k | 0 <= k < |ids| :: r[k] == escape(NameWithFallback(db[ids[k]]))
  {
    seq(|ids|, k requires 0 <= k < |ids| => escape(NameWithFallback(db[ids[k]])))
  }

  /** With parents, a page with a parent is named as its parent, then " &raquo; ", then its own escaped name. */
  lemma ParentNamePrefix(db: Db, id: PageId, parent: PageId, escape: string -> string)
    requires Acyclic(db) && id in db && ParentOf(db, id) == Some(parent)
    ensures PageName(db, id, true, escape) ==
            PageName(db, parent, true, escape) + Raquo + escape(NameWithFallback(db[id]))
  {
    var anc := Ancestors(db, id);
    AncestorsOfAncestor(db, id, 0);
    assert SelfAndAncestors(db, id) == [id] + SelfAndAncestors(db, parent);
    var up := Reverse(SelfAndAncestors(db, parent));
    assert Reverse(SelfAndAncestors(db, id)) == up + [id];
    var names := EscapedNames(db, up, escape);
    assert EscapedNames(db, up + [id], escape) == names + [escape(NameWithFallback(db[id]))];
    JoinSnoc(names, escape(NameWithFallback(db[id])), Raquo);
  }

  /** A root page named with its parents is named as without them. */
  lemma RootNameHasNoParents(db: Db, id: PageId, escape: string -> string)
    requires Acyclic(db) && id in db && ParentOf(db, id).None?
    ensures PageName(db, id, true, escape) == PageName(db, id, false, escape)
  {
    assert NamedPages(db, id, true) == [id];
  }

  /** A child page named with its parents reads "<parent> &raquo; <child>" when the parent is a root. */
  lemma ChildName(db: Db, parent: PageId, child: PageId, escape: string -> string)
    requires Acyclic(db) && parent in db && child in db
    requires ParentOf(db, child) == Some(parent) && ParentOf(db, parent).None?
    ensures PageName(db, child, true, escape) ==
            escape(NameWithFallback(db[parent])) + Raquo + escape(NameWithFallback(db[child]))
  {
    var anc := Ancestors(db, child);
    assert anc[0] == parent;
    AncestorsOfAncestor(db, child, 0);
    assert |anc| == 1;
    assert SelfAndAncestors(db, child) == [child, parent];
    assert NamedPages(db, child, true) == [parent, child];
    var names := EscapedNames(db, [parent, child], escape);
    assert names == [escape(NameWithFallback(db[parent])), escape(NameWithFallback(db[child]))];
    assert Join(names[1..], Raquo) == names[1];
  }

  /** No page of `ps` is called `name`. */
  predicate NoneNamed(ps: seq<Page>, name: string)
  {
    forall k | 0 <= k < |ps| :: ps[k].name != name
  }

  /** At least two pages of `ps` are called `name`. */
  predicate TwoNamed(ps: seq<Page>, name: string)
  {
    exists i, j | 0 <= i < j < |ps| :: ps[i].name == name && ps[j].name == name
  }

  /** Adding one page in front adds one to the count exactly when it carries the name. */
  lemma NamedCons(ps: seq<Page>, name: string, rest: nat)
    requires |ps| > 0
    requires rest == 0 <==> NoneNamed(ps[1..], name)
    requires rest >= 2 <==> TwoNamed(ps[1..], name)
    ensures var n := (if ps[0].name == name then 1 else 0) + rest;
            && (n == 0 <==> NoneNamed(ps, name))
            && (n >= 2 <==> TwoNamed(ps, name))
  {
    var tail := ps[1..];
    assert forall k | 1 <= k < |ps| :: ps[k] == tail[k - 1];
    if rest >= 2 {
      var i, j :| 0 <= i < j < |tail| && tail[i].name == name && tail[j].name == name;
      assert ps[i + 1].name == name && ps[j + 1].name == name;
    }
    if ps[0].name == name && rest >= 1 {
      var j :| 0 <= j < |tail| && tail[j].name == name;
      assert ps[j + 1].name == name;
    }
    if TwoNamed(ps, name) {
      var i, j :| 0 <= i < j < |ps| && ps[i].name == name && ps[j].name == name;
      if i > 0 {
        assert tail[i - 1].name == name && tail[j - 1].name == name;
      } else {
        assert tail[j - 1].name == name;
      }
    }
  }

  /** How many of the news pages carry the page's name. */
  function SameNameCount(p: Page, newsPages: seq<Page>): (n: nat)
    ensures n <= |newsPages|
    ensures n == 0 <==> NoneNamed(newsPages, p.name)
    ensures n >= 2 <==> TwoNamed(newsPages, p.name)
  {
    if |newsPages| == 0 then 0
    else
      var rest := SameNameCount(p, newsPages[1..]);
      NamedCons(newsPages, p.name, rest);
      (if newsPages[0].name == p.name then 1 else 0) + rest
  }

  /**
   `news_section_name`: a news page is named with its parents when another news page
   has the same name, so that the two can be told apart.
   */
  function NewsSectionName(db: Db, id: PageId, newsPages: seq<Page>, escape: string -> string): (r: string)
    requires Acyclic(db) && id in db
    ensures SameNameCount(db[id], newsPages) > 1 ==> r == PageName(db, id, true, escape)
    ensures SameNameCount(db[id], newsPages) <= 1 ==> r == PageName(db, id, false, escape)
  {
    PageName(db, id, SameNameCount(db[id], newsPages) > 1, escape)
  }

  // ---- publish_time ----------------------------------------------------------------

  /** A moment, with the parts `publish_time` compares. */
  datatype Moment = Moment(year: int, month: int, day: int, hour: int, minute: int)

  /** The three wordings of `publish_time`. */
  const FullFormat := "on %b %d %Y at %H:%M"
  const DayFormat := "on %b %d at %H:%M"
  const ClockFormat := "at %H:%M"

  /** The wording for a moment: with the year in another year, with the day on another day, else the clock. */
  function PublishFormat(t: Moment, now: Moment): (f: string)
    ensures t.year != now.year <==> f == FullFormat
    ensures t.year == now.year && (t.month, t.day) != (now.month, now.day) <==> f == DayFormat
    ensures (t.year, t.month, t.day) == (now.year, now.month, now.day) <==> f == ClockFormat
  {
    if t.year != now.year then FullFormat
    else if (t.month, t.day) != (now.month, now.day) then DayFormat
    else ClockFormat
  }

  /** `publish_time`: the moment written with the chosen wording (`strftime` given). */
  function PublishTime(t: Moment, now: Moment, strftime: (Moment, string) -> string): (r: string)
    ensures r == strftime(t, PublishFormat(t, now))
  {
    strftime(t, PublishFormat(t, now))
  }

  /** The wording depends only on the day of `now`, not on its clock time. */
  lemma PublishTimeSameDay(t: Moment, now1: Moment, now2: Moment, strftime: (Moment, string) -> string)
    requires (now1.year, now1.month, now1.day) == (now2.year, now2.month, now2.day)
    ensures PublishTime(t, now1, strftime) == PublishTime(t, now2, strftime)
  {
  }

  /** A moment of today is written as a clock time, one of another year with its year. */
  lemma PublishTimeWordings(t: Moment, now: Moment, strftime: (Moment, string) -> string)
    ensures (t.year, t.month, t.day) == (now.year, now.month, now.day) ==> PublishTime(t, now, strftime) == strftime(t, ClockFormat)
    ensures t.year != now.year ==> PublishTime(t, now, strftime) == strftime(t, FullFormat)
  {
  }

  // ---- page_authors ------------------------------------------------------------------

  /** Every element of `a` occurs in `b`. */
  predicate Within<T(==)>(a: seq<T>, b: seq<T>)
  {
    forall k | 0 <= k < |a| :: a[k] in b
  }

  predicate Distinct<T(==)>(s: seq<T>)
  {
    forall i, j | 0 <= i < j < |s| :: s[i] != s[j]
  }

  /** `s` without the element `x`. */
  function Remove<T(==)>(s: seq<T>, x: T): (r: seq<T>)
    ensures Within(r, s) && x !in r
    ensures forall k | 0 <= k < |s| && s[k] != x :: s[k] in r
    ensures Distinct(s) ==> Distinct(r)
  {
    if |s| == 0 then []
    else
      var rest := Remove(s[1..], x);
      assert forall k | 1 <= k < |s| :: s[k] == s[1..][k - 1];
      if s[0] == x then rest
      else
        assert Distinct(s) ==> s[0] !in s[1..];
        [s[0]] + rest
  }

  /** `uniq`: the first occurrence of each element, in order. */
  function Uniq<T(==)>(s: seq<T>): (r: seq<T>)
    ensures Within(r, s) && Within(s, r)
    ensures Distinct(r)
    ensures |s| > 0 ==> |r| > 0 && r[0] == s[0]
  {
    if |s| == 0 then []
    else
      var rest := Uniq(s[1..]);
      assert forall k | 1 <= k < |s| :: s[k] == s[1..][k - 1];
      [s[0]] + Remove(rest, s[0])
  }

  /** Removing from a sequence with one more element at the end removes from the front part and keeps that element unless it is the one removed. */
  lemma {:induction false} RemoveSnoc<T>(s: seq<T>, x: T, y: T)
    ensures Remove(s + [x], y) == if x == y then Remove(s, y) else Remove(s, y) + [x]
  {
    if |s| > 0 {
      var p := if s[0] == y then [] else [s[0]];
      var q := if x == y then [] else [x];
      assert (s + [x])[0] == s[0] && (s + [x])[1..] == s[1..] + [x];
      RemoveCons(s + [x], y);
      RemoveCons(s, y);
      RemoveSnoc(s[1..], x, y);
      assert p + (Remove(s[1..], y) + q) == (p + Remove(s[1..], y)) + q;
    }
  }

  /** Removing from a non-empty sequence: its first element unless it is the one removed, then the rest removed. */
  lemma RemoveCons<T>(s: seq<T>, y: T)
    requires |s| > 0
    ensures Remove(s, y) == (if s[0] == y then [] else [s[0]]) + Remove(s[1..], y)
  {
  }

  /**
   An element appended to the input shows up at the end of the result exactly when it is
   new; a repeat changes nothing. With `Uniq([]) == []` this fixes the result: the first
   occurrences, in the order they occur.
   */
  lemma {:induction false} UniqSnoc<T>(s: seq<T>, x: T)
    ensures Uniq(s + [x]) == if x in s then Uniq(s) else Uniq(s) + [x]
  {
    if |s| == 0 {
      assert s + [x] == [x];
      UniqCons([x]);
      assert [x][1..] == [];
    } else {
      var h := s[0];
      var t := s[1..];
      assert (s + [x])[0] == h && (s + [x])[1..] == t + [x];
      assert s == [h] + t;
      UniqCons(s + [x]);
      UniqCons(s);
      UniqSnoc(t, x);
      SnocStep(h, t, x, Uniq(t), Uniq(t + [x]));
    }
  }

  /** The step of `UniqSnoc`: putting a first element in front of both sides of the law keeps it. */
  lemma SnocStep<T>(h: T, t: seq<T>, x: T, u: seq<T>, ux: seq<T>)
    requires ux == if x in t then u else u + [x]
    ensures [h] + Remove(ux, h) == if x in [h] + t then [h] + Remove(u, h) else [h] + Remove(u, h) + [x]
  {
    if x !in t {
      RemoveSnoc(u, x, h);
    }
    assert x in [h] + t <==> x == h || x in t;
  }

  /** `uniq` keeps the first element and drops its later copies from the rest. */
  lemma UniqCons<T>(s: seq<T>)
    requires |s| > 0
    ensures Uniq(s) == [s[0]] + Remove(Uniq(s[1..]), s[0])
  {
  }

  /** `page_authors`: the page's author followed by the activated users, each once. */
  function PageAuthors<U(==)>(author: U, activated: seq<U>): (r: seq<U>)
    ensures |r| > 0 && r[0] == author
    ensures Within(r, [author] + activated) && Within(activated, r)
    ensures Distinct(r)
  {
    var r := Uniq([author] + activated);
    assert forall k | 0 <= k < |activated| :: activated[k] == ([author] + activated)[k + 1];
    r
  }

  /** One more activated user joins the end of the list unless it is already in it. */
  lemma PageAuthorsSnoc<U>(author: U, activated: seq<U>, u: U)
    ensures PageAuthors(author, activated + [u]) ==
            if u == author || u in activated then PageAuthors(author, activated)
            else PageAuthors(author, activated) + [u]
  {
    var s := [author] + activated;
    assert s + [u] == [author] + (activated + [u]);
    UniqSnoc(s, u);
    assert u in s <==> u == author || u in activated;
  }
}

=== FILE: role.dfy ===
/**
 The role registry of app/models/role.rb: the roles a user can be given, created
 lazily with two defaults and extended with `define`, and the validations of a role
 row. The class-level `@roles` variable is an explicit state record.
 */
module Roles {

  import opened Wrappers
  import opened Text

  /** A role definition (the OpenStruct in the registry). */
  datatype RoleDef = RoleDef(name: string, description: string, isDefault: bool)

  /** The registry; `roles` is None until the first read fills in the defaults. */
  datatype Registry = Registry(roles: Option<seq<RoleDef>>)

  /** `default_roles`. */
  const DefaultRoles: seq<RoleDef> := [
    RoleDef("users", "Can manage users", false),
    RoleDef("pages", "Can manage pages", true)
  ]

  /** The empty registry of a freshly loaded class. */
  const Fresh := Registry(None)

  /** `roles`: the registry's list, the defaults when nothing has been read yet. */
  function Current(reg: Registry): (r: seq<RoleDef>)
    ensures reg.roles.None? ==> r == DefaultRoles
    ensures reg.roles.Some? ==> r == reg.roles.value
  {
    reg.roles.GetOr(DefaultRoles)
  }

  /** The names of the roles, in order. */
  function Names(roles: seq<RoleDef>): seq<string>
  {
    MapSeq(roles, (d: RoleDef) => d.name)
  }

  predicate UniqueNames(roles: seq<RoleDef>)
  {
    forall i, j | 0 <= i < j < |roles| :: roles[i].name != roles[j].name
  }

  /** The first read gives "users" (not default) then "pages" (default). */
  lemma DefaultRegistry()
    ensures Names(Current(Fresh)) == ["users", "pages"]
    ensures !Current(Fresh)[0].isDefault && Current(Fresh)[1].isDefault
    ensures UniqueNames(Current(Fresh))
  {
  }

  /**
   A duplicate name raises. The message interpolates an undefined `role`, so what is
   raised is a NameError rather than the intended ArgumentError.
   */
  datatype DefineError = UndefinedRoleInMessage

  /** A name as passed to `define` or `name=`; both store `to_s`. */
  datatype NameValue = StrName(s: string) | SymName(sym: string) | NilName

  /** `to_s` of a name: a symbol gives its name, nil the empty string. */
  function NameToS(v: NameValue): (r: string)
    ensures v.StrName? ==> r == v.s
    ensures v.SymName? ==> r == v.sym
    ensures v.NilName? ==> r == ""
  {
    match v
    case StrName(s) => s
    case SymName(s) => s
    case NilName => ""
  }

  /**
   `define(name, description, default)`: reading `roles` fills in the defaults; a name
   already registered raises and adds nothing, a fresh one is appended.
   */
  function Define(reg: Registry, name: NameValue, description: string, isDefault: bool)
    : (r: (Result<(), DefineError>, Registry))
    ensures r.1.roles.Some?
    ensures NameToS(name) in Names(Current(reg)) ==> r.0.Err? && Current(r.1) == Current(reg)
    ensures NameToS(name) !in Names(Current(reg)) ==>
              r.0.Ok? && Current(r.1) == Current(reg) + [RoleDef(NameToS(name), description, isDefault)]
  {
    var roles := Current(reg);
    if NameToS(name) in Names(roles) then (Err(UndefinedRoleInMessage), Registry(Some(roles)))
    else (Ok(()), Registry(Some(roles + [RoleDef(NameToS(name), description, isDefault)])))
  }

  /** `define` keeps the names unique, whatever it is given. */
  lemma DefineKeepsNamesUnique(reg: Registry, name: NameValue, description: string, isDefault: bool)
    requires UniqueNames(Current(reg))
    ensures UniqueNames(Current(Define(reg, name, description, isDefault).1))
  {
    var roles := Current(reg);
    if NameToS(name) !in Names(roles) {
      var after := Current(Define(reg, name, description, isDefault).1);
      forall i, j | 0 <= i < j < |after| ensures after[i].name != after[j].name {
        if j == |roles| {
          assert Names(roles)[i] == after[i].name;
        }
      }
    }
  }

  /** Defining the same name twice fails the second time and leaves one entry. */
  lemma DefineTwice(reg: Registry, name: NameValue, d1: string, d2: string, b1: bool, b2: bool)
    requires NameToS(name) !in Names(Current(reg))
    ensures var once := Define(reg, name, d1, b1).1;
            Define(once, name, d2, b2).0.Err? && Current(Define(once, name, d2, b2).1) == Current(once)
  {
    var once := Define(reg, name, d1, b1).1;
    assert Names(Current(once))[|Current(reg)|] == NameToS(name);
  }

  /** A row of the roles table. */
  datatype Role = Role(userId: nat, name: string)

  datatype RoleError = NameBlank | NameTaken | NameUnknown

  /**
   The validations of a role: a non-blank name, not already held by the same user
   (`others` are the other rows), and one of the registered names.
   */
  function ValidateRole(role: Role, others: seq<Role>, reg: Registry): (errors: set<RoleError>)
    ensures NameBlank in errors <==> Blank(role.name)
    ensures NameTaken in errors <==> exists k | 0 <= k < |others| :: others[k].userId == role.userId && others[k].name == role.name
    ensures NameUnknown in errors <==> role.name !in Names(Current(reg))
  {
    (if Blank(role.name) then {NameBlank} else {})
    + (if exists k | 0 <= k < |others| :: others[k].userId == role.userId && others[k].name == role.name
       then {NameTaken} else {})
    + (if role.name !in Names(Current(reg)) then {NameUnknown} else {})
  }

  /** `name=`: the string form is stored. */
  function SetName(role: Role, v: NameValue): (r: Role)
    ensures r.userId == role.userId && r.name == NameToS(v)
  {
    role.(name := NameToS(v))
  }

  /** Giving a user the pages role by symbol makes a valid row when the user lacks it. */
  lemma PagesRoleValid(userId: nat)
    ensures ValidateRole(SetName(Role(userId, ""), SymName("pages")), [], Fresh) == {}
  {
    var role := SetName(Role(userId, ""), SymName("pages"));
    assert role.name == "pages";
    assert Names(Current(Fresh))[1] == "pages";
    assert !IsBlankChar(role.name[0]);
    var errors := ValidateRole(role, [], Fresh);
    assert NameBlank !in errors && NameTaken !in errors && NameUnknown !in errors;
  }

  /** The user `role` belongs to holds no other role of that name. */
  predicate NotHeld(role: Role, others: seq<Role>)
  {
    forall k | 0 <= k < |others| :: others[k].userId == role.userId ==> others[k].name != role.name
  }

  /** A role named by a fresh `define` is valid for a user that does not hold it yet. */
  lemma DefinedRoleValidates(reg: Registry, name: NameValue, description: string, isDefault: bool, role: Role, others: seq<Role>)
    requires NameToS(name) !in Names(Current(reg)) && !Blank(NameToS(name))
    requires role.name == NameToS(name) && NotHeld(role, others)
    ensures ValidateRole(role, others, Define(reg, name, description, isDefault).1) == {}
  {
    var after := Define(reg, name, description, isDefault).1;
    assert Names(Current(after))[|Current(reg)|] == role.name;
  }

  /** A role for a name nobody defined is refused, whatever else holds. */
  lemma UndefinedRoleRefused(role: Role, others: seq<Role>, reg: Registry)
    requires role.name !in Names(Current(reg))
    ensures ValidateRole(role, others, reg) != {}
  {
    assert NameUnknown in ValidateRole(role, others, reg);
  }
}

=== FILE: search_document.dfy ===
/**
 The full-text search document of app/models/search_document.rb: the choice of
 PostgreSQL text-search dictionary for a locale, the callbacks run before validation,
 the locale validation and the localised view of the indexed record. The query itself
 runs in the database and is not part of this model.
 */
module SearchDocuments {

  import opened Wrappers
  import opened Text

  /** A locale as passed in: a string (the column) or a symbol (`I18n.locale`). */
  datatype Locale = LocaleString(s: string) | LocaleSymbol(sym: string)

  /** `to_sym`: the symbol's name. */
  function ToSym(l: Locale): (r: string)
    ensures l.LocaleString? ==> r == l.s
    ensures l.LocaleSymbol? ==> r == l.sym
  {
    match l
    case LocaleString(s) => s
    case LocaleSymbol(s) => s
  }

  /** The languages PostgreSQL ships text-search dictionaries for, by locale, in the table's order. */
  const Languages: seq<(string, string)> := [
    ("ar", "arabic"), ("da", "danish"), ("nl", "dutch"), ("en", "english"),
    ("fi", "finnish"), ("fr", "french"), ("de", "german"), ("el", "greek"),
    ("hu", "hungarian"), ("id", "indonesian"), ("ga", "irish"), ("it", "italian"),
    ("lt", "lithuanian"), ("ne", "nepali"), ("nb", "norwegian"), ("pt", "portuguese"),
    ("rm", "romanian"), ("ru", "russian"), ("es", "spanish"), ("sv", "swedish"),
    ("ta", "tamil"), ("tr", "turkish")]

  /** The unaccenting variant of a language's dictionary. */
  function Unaccent(language: string): (r: string)
    ensures |r| == |language| + 9 && EndsWith(r, "_unaccent") && r[..|language|] == language
  {
    var r := language + "_unaccent";
    assert r[|r| - 9..] == "_unaccent";
    r
  }

  /** `search_configurations`: each locale with the unaccenting dictionary of its language. */
  function SearchConfigurations(): (r: seq<(string, string)>)
    ensures |r| == |Languages|
    ensures forall k | 0 <= k < |r| :: r[k] == (Languages[k].0, Unaccent(Languages[k].1))
  {
    seq(|Languages|, k requires 0 <= k < |Languages| => (Languages[k].0, Unaccent(Languages[k].1)))
  }

  /** The dictionary used when the locale has none of its own. */
  const DefaultDictionary := "simple_unaccent"

  /** The hash lookup: the dictionary stored under `key`, if any. */
  function DictionaryOf(entries: seq<(string, string)>, key: string): (r: Option<string>)
    ensures r.None? <==> forall k | 0 <= k < |entries| :: entries[k].0 != key
    ensures r.Some? ==> exists k | 0 <= k < |entries| :: entries[k] == (key, r.value)
  {
    if |entries| == 0 then None
    else if entries[0].0 == key then Some(entries[0].1)
    else
      var r := DictionaryOf(entries[1..], key);
      assert r.Some? ==> entries[1..] <= entries[1..];
      r
  }

  /** The table is a proper hash: 22 locales, each once, each mapped to an unaccenting dictionary. */
  lemma DictionaryTable()
    ensures |SearchConfigurations()| == 22
    ensures forall i, j | 0 <= i < j < |SearchConfigurations()| :: SearchConfigurations()[i].0 != SearchConfigurations()[j].0
    ensures forall k | 0 <= k < |SearchConfigurations()| :: EndsWith(SearchConfigurations()[k].1, "_unaccent")
  {
    LanguageKeysUnique();
  }

  lemma LanguageKeysUnique()
    ensures forall i, j | 0 <= i < j < |Languages| :: Languages[i].0 != Languages[j].0
  {
  }

  /**
   `search_configuration(locale)`: the dictionary of the locale's symbol, and
   "simple_unaccent" for an unknown or nil locale.
   */
  function SearchConfiguration(locale: Option<Locale>): (r: string)
    ensures locale.None? ==> r == DefaultDictionary
    ensures locale.Some? && DictionaryOf(SearchConfigurations(), ToSym(locale.value)).Some? ==>
              r == DictionaryOf(SearchConfigurations(), ToSym(locale.value)).value
    ensures locale.Some? && DictionaryOf(SearchConfigurations(), ToSym(locale.value)).None? ==> r == DefaultDictionary
  {
    match locale
    case None => DefaultDictionary
    case Some(l) => DictionaryOf(SearchConfigurations(), ToSym(l)).GetOr(DefaultDictionary)
  }

  /** A string locale and the symbol of the same name choose the same dictionary. */
  lemma StringAndSymbolAgree(name: string)
    ensures SearchConfiguration(Some(LocaleString(name))) == SearchConfiguration(Some(LocaleSymbol(name)))
  {
  }

  /** Every locale gets a dictionary that unaccents. */
  lemma AlwaysUnaccented(locale: Option<Locale>)
    ensures EndsWith(SearchConfiguration(locale), "_unaccent")
  {
    DictionaryTable();
    if locale.Some? && DictionaryOf(SearchConfigurations(), ToSym(locale.value)).Some? {
      var k :| 0 <= k < |SearchConfigurations()| && SearchConfigurations()[k] == (ToSym(locale.value), SearchConfiguration(locale));
    }
  }

  /** `search`: the locale defaults to the current one (`locale ||= I18n.locale`), then picks the dictionary. */
  function SearchDictionary(locale: Option<Locale>, current: Locale): (r: string)
    ensures locale.Some? ==> r == SearchConfiguration(locale)
    ensures locale.None? ==> r == SearchConfiguration(Some(current))
  {
    SearchConfiguration(Some(locale.GetOr(current)))
  }

  /** The indexed record, as far as the document uses it. */
  datatype Searchable<S> = Searchable(updatedAt: int, respondsToLocalize: bool, content: S)

  /** A search document row. */
  datatype SearchDocument<S> = SearchDocument(
    locale: Option<string>,
    searchable: Option<Searchable<S>>,
    tsvConfig: Option<string>,
    recordUpdatedAt: Option<int>)

  /** `inherit_updated_at` on a document without its record calls a method on nil. */
  datatype CallbackError = NoSearchable

  /**
   The `before_validation` callbacks: `configure_dictionary` sets the dictionary of the
   document's locale, then `inherit_updated_at` copies the record's update time.
   */
  function BeforeValidation<S>(d: SearchDocument<S>): (r: Result<SearchDocument<S>, CallbackError>)
    ensures d.searchable.None? <==> r.Err?
    ensures r.Ok? ==> r.value.tsvConfig == Some(SearchConfiguration(if d.locale.Some? then Some(LocaleString(d.locale.value)) else None))
    ensures r.Ok? ==> r.value.recordUpdatedAt == Some(d.searchable.value.updatedAt)
    ensures r.Ok? ==> r.value.locale == d.locale && r.value.searchable == d.searchable
  {
    var locale := match d.locale case Some(s) => Some(LocaleString(s)) case None => None;
    var configured := d.(tsvConfig := Some(SearchConfiguration(locale)));
    match d.searchable
    case None => Err(NoSearchable)
    case Some(s) => Ok(configured.(recordUpdatedAt := Some(s.updatedAt)))
  }

  /** The callbacks are idempotent: running them again changes nothing. */
  lemma BeforeValidationIdempotent<S>(d: SearchDocument<S>)
    requires BeforeValidation(d).Ok?
    ensures BeforeValidation(BeforeValidation(d).value) == BeforeValidation(d)
  {
  }

  /** `validates :locale, presence: true`. */
  predicate Valid<S>(d: SearchDocument<S>)
  {
    !BlankOpt(d.locale)
  }

  /** A document with no locale, or a blank one, fails validation, whatever else it holds. */
  lemma LocaleRequired<S>(d: SearchDocument<S>)
    requires d.locale.None? || d.locale == Some("")
    ensures !Valid(d)
  {
  }

  /**
   `localized_searchable`: the record localised to the document's locale when it
   responds to `localize`, the record itself otherwise (including nil).
   */
  function LocalizedSearchable<S>(d: SearchDocument<S>, localize: (S, Option<string>) -> S): (r: Option<S>)
    ensures d.searchable.None? ==> r.None?
    ensures d.searchable.Some? && !d.searchable.value.respondsToLocalize ==> r == Some(d.searchable.value.content)
    ensures d.searchable.Some? && d.searchable.value.respondsToLocalize ==>
              r == Some(localize(d.searchable.value.content, d.locale))
  {
    match d.searchable
    case None => None
    case Some(s) => if s.respondsToLocalize then Some(localize(s.content, d.locale)) else Some(s.content)
  }

  /** `results`: every document's localised record, in order. */
  function Results<S>(docs: seq<SearchDocument<S>>, localize: (S, Option<string>) -> S): (r: seq<Option<S>>)
    ensures |r| == |docs|
    ensures forall k | 0 <= k < |r| :: r[k] == LocalizedSearchable(docs[k], localize)
  {
    seq(|docs|, k requires 0 <= k < |docs| => LocalizedSearchable(docs[k], localize))
  }

  /** The results of two runs of documents are the results of each, in order. */
  lemma ResultsAppend<S>(a: seq<SearchDocument<S>>, b: seq<SearchDocument<S>>, localize: (S, Option<string>) -> S)
    ensures Results(a + b, localize) == Results(a, localize) + Results(b, localize)
  {
  }

  /** `localize` is consulted only for records that respond to it. */
  lemma ResultsWithoutLocalize<S>(docs: seq<SearchDocument<S>>, l1: (S, Option<string>) -> S, l2: (S, Option<string>) -> S)
    requires forall k | 0 <= k < |docs| :: docs[k].searchable.None? || !docs[k].searchable.value.respondsToLocalize
    ensures Results(docs, l1) == Results(docs, l2)
  {
  }

  /** A document has a result exactly when it has a searchable record. */
  lemma ResultsPresent<S>(docs: seq<SearchDocument<S>>, localize: (S, Option<string>) -> S, k: int)
    requires 0 <= k < |docs|
    ensures Results(docs, localize)[k].Some? <==> docs[k].searchable.Some?
  {
  }
}

=== FILE: sorting.dfy ===
/**
 Sorting by a string key with Ruby's string order, as `Array#sort` and `sort_by` do when
 every comparison succeeds. The model sorts stably; Ruby's sort is not stable, so only
 the contract (ordered, same elements) is relied on.
 */
module Sorting {

  import opened Text

  /** Every element's key is at most the keys of the elements after it. */
  predicate SortedBy<T>(s: seq<T>, key: T -> string)
  {
    forall i, j | 0 <= i < j < |s| :: StrLe(key(s[i]), key(s[j]))
  }

  /** An element no larger than every element of a sorted list can go in front of it. */
  lemma SortedCons<T>(h: T, s: seq<T>, key: T -> string)
    requires SortedBy(s, key) && forall j | 0 <= j < |s| :: StrLe(key(h), key(s[j]))
    ensures SortedBy([h] + s, key)
  {
    var r := [h] + s;
    forall i, j | 0 <= i < j < |r| ensures StrLe(key(r[i]), key(r[j])) {
      assert r[j] == s[j - 1];
      if i > 0 {
        assert r[i] == s[i - 1];
      }
    }
  }

  /** The head of a sorted list is no larger than any element of it. */
  lemma HeadIsLeast<T>(s: seq<T>, key: T -> string)
    requires SortedBy(s, key) && |s| > 0
    ensures forall j | 0 <= j < |s| :: StrLe(key(s[0]), key(s[j]))
  {
    forall j | 0 <= j < |s| ensures StrLe(key(s[0]), key(s[j])) {
      if j == 0 {
        StrLeTotal(key(s[0]), key(s[0]));
      }
    }
  }

  /** A bound on every element of `t` and on `x` bounds every element of a list holding just those. */
  lemma BoundOfUnion<T>(h: T, t: seq<T>, x: T, rest: seq<T>, key: T -> string)
    requires multiset(rest) == multiset(t) + multiset{x}
    requires StrLe(key(h), key(x)) && forall j | 0 <= j < |t| :: StrLe(key(h), key(t[j]))
    ensures forall j | 0 <= j < |rest| :: StrLe(key(h), key(rest[j]))
  {
    forall j | 0 <= j < |rest| ensures StrLe(key(h), key(rest[j])) {
      assert rest[j] in multiset(rest);
      if rest[j] != x {
        assert rest[j] in multiset(t);
        var k :| 0 <= k < |t| && t[k] == rest[j];
      }
    }
  }

  /** The tail of a sorted list is sorted. */
  lemma SortedTail<T>(s: seq<T>, key: T -> string)
    requires SortedBy(s, key) && |s| > 0
    ensures SortedBy(s[1..], key)
  {
    forall i, j | 0 <= i < j < |s| - 1 ensures StrLe(key(s[1..][i]), key(s[1..][j])) {
      assert s[1..][i] == s[i + 1] && s[1..][j] == s[j + 1];
    }
  }

  /** Putting `x` in front of a sorted list whose head is not smaller keeps it sorted. */
  lemma InsertFront<T>(x: T, s: seq<T>, key: T -> string)
    requires SortedBy(s, key) && |s| > 0 && StrLe(key(x), key(s[0]))
    ensures SortedBy([x] + s, key)
  {
    HeadIsLeast(s, key);
    forall j | 0 <= j < |s| ensures StrLe(key(x), key(s[j])) {
      StrLeTrans(key(x), key(s[0]), key(s[j]));
    }
    SortedCons(x, s, key);
  }

  /** Keeping the head of a sorted list in front of `x` inserted into its tail keeps it sorted. */
  lemma InsertBehind<T>(x: T, s: seq<T>, rest: seq<T>, key: T -> string)
    requires SortedBy(s, key) && |s| > 0 && !StrLe(key(x), key(s[0]))
    requires SortedBy(rest, key) && multiset(rest) == multiset(s[1..]) + multiset{x}
    ensures SortedBy([s[0]] + rest, key)
    ensures multiset([s[0]] + rest) == multiset(s) + multiset{x}
  {
    StrLeTotal(key(x), key(s[0]));
    HeadIsLeast(s, key);
    forall j | 0 <= j < |s[1..]| ensures StrLe(key(s[0]), key(s[1..][j])) {
      assert s[1..][j] == s[j + 1];
    }
    BoundOfUnion(s[0], s[1..], x, rest, key);
    SortedCons(s[0], rest, key);
    assert s == [s[0]] + s[1..];
  }

  /** `x` put into the sorted `s` before the first element whose key is larger. */
  function Insert<T>(x: T, s: seq<T>, key: T -> string): (r: seq<T>)
    requires SortedBy(s, key)
    ensures SortedBy(r, key)
    ensures multiset(r) == multiset(s) + multiset{x}
    ensures |r| == |s| + 1
  {
    if |s| == 0 then [x]
    else if StrLe(key(x), key(s[0])) then
      InsertFront(x, s, key);
      [x] + s
    else
      SortedTail(s, key);
      var rest := Insert(x, s[1..], key);
      InsertBehind(x, s, rest, key);
      [s[0]] + rest
  }

  /** Insertion sort by `key`: the same elements, ordered by key. */
  function SortBy<T>(s: seq<T>, key: T -> string): (r: seq<T>)
    ensures SortedBy(r, key)
    ensures multiset(r) == multiset(s)
    ensures |r| == |s|
  {
    if |s| == 0 then []
    else
      assert s == [s[0]] + s[1..];
      Insert(s[0], SortBy(s[1..], key), key)
  }
}

=== FILE: static_cache.dfy ===
/**
 The static page cache guards of app/controllers/concerns/pages_core/static_cache_controller.rb:
 which after-action hook `static_cache` installs, and when the installed hook hands the
 response to the cache handler. The handler itself is not modelled; a hook's effect is
 the handler call it makes, if any.
 */
module StaticCache {

  import opened Wrappers

  datatype Verb = Get | Head | Post | Put | Patch | Delete | Options

  /** The parts of a request/response cycle the guard looks at. */
  datatype Cycle = Cycle(verb: Verb, status: int)

  /** The controller instance state: whether `disable_static_cache!` has been called. */
  datatype Controller = Controller(performCaching: bool, staticCacheDisabled: bool)

  /** The after-action a class registers. */
  datatype HookKind = CacheNormally | CachePermanently
  datatype Hook = Hook(kind: HookKind, only: seq<string>)

  /** `static_cache(*actions, permanent:)`: no hook without `perform_caching`, else the chosen kind for the actions. */
  function RegisterStaticCache(actions: seq<string>, permanent: bool, performCaching: bool): (r: Option<Hook>)
    ensures r.None? <==> !performCaching
    ensures r.Some? ==> r.value.only == actions
    ensures r.Some? ==> (r.value.kind == CachePermanently <==> permanent)
  {
    if !performCaching then None
    else if permanent then Some(Hook(CachePermanently, actions))
    else Some(Hook(CacheNormally, actions))
  }

  /** `disable_static_cache!`. */
  function DisableStaticCache(c: Controller): (r: Controller)
    ensures r.staticCacheDisabled && r.performCaching == c.performCaching
  {
    c.(staticCacheDisabled := true)
  }

  /** `static_cache_allowed?`. */
  function Allowed(c: Controller, cycle: Cycle): (b: bool)
    ensures b <==> (cycle.verb == Get || cycle.verb == Head) && cycle.status == 200
                   && c.performCaching && !c.staticCacheDisabled
  {
    (cycle.verb.Get? || cycle.verb.Head?) && cycle.status == 200 && c.performCaching && !c.staticCacheDisabled
  }

  /** The handler call a hook makes. */
  datatype HandlerCall = CachePage | CachePagePermanently

  /** `cache_static_page` and `cache_static_page_permanently`: the handler call, or nothing when not allowed. */
  function RunHook(kind: HookKind, c: Controller, cycle: Cycle): (r: Option<HandlerCall>)
    ensures r.Some? <==> Allowed(c, cycle)
    ensures r.Some? ==> (r.value == CachePagePermanently <==> kind == CachePermanently)
  {
    if !Allowed(c, cycle) then None
    else match kind
      case CacheNormally => Some(CachePage)
      case CachePermanently => Some(CachePagePermanently)
  }

  /** After `disable_static_cache!` neither hook caches anything. */
  lemma DisabledNeverCaches(kind: HookKind, c: Controller, cycle: Cycle)
    ensures !Allowed(DisableStaticCache(c), cycle)
    ensures RunHook(kind, DisableStaticCache(c), cycle).None?
  {
  }

  /**
   Registering and running agree: a response is cached, and permanently exactly when
   `permanent:` was given, iff a hook was registered for the action and caching is
   allowed for this cycle.
   */
  lemma RegisteredHookCaches(actions: seq<string>, action: string, permanent: bool, c: Controller, cycle: Cycle)
    requires c.performCaching && action in actions
    ensures var hook := RegisterStaticCache(actions, permanent, c.performCaching);
            && hook.Some? && action in hook.value.only
            && (RunHook(hook.value.kind, c, cycle) == Some(CachePagePermanently) <==> permanent && Allowed(c, cycle))
            && (RunHook(hook.value.kind, c, cycle) == Some(CachePage) <==> !permanent && Allowed(c, cycle))
  {
  }

  /** Only successful GET and HEAD responses are ever cached. */
  lemma OnlySuccessfulReads(kind: HookKind, c: Controller, cycle: Cycle)
    requires RunHook(kind, c, cycle).Some?
    ensures cycle.status == 200 && (cycle.verb == Get || cycle.verb == Head)
  {
  }
}

=== FILE: text.dfy ===
/**
 Character classes and string operations with Ruby's semantics, as the rest of the model
 needs them: `\w`, `\s`, `downcase` on ASCII, `String#blank?`, line-anchored matching,
 `split` (which drops trailing empty fields), `Integer#to_s` and `String#to_i`, and
 byte-wise string comparison.
 */
module Text {

  import opened Wrappers

  // ---- character classes -------------------------------------------------

  predicate IsDigit(c: char) { '0' <= c <= '9' }
  predicate IsUpper(c: char) { 'A' <= c <= 'Z' }
  predicate IsLower(c: char) { 'a' <= c <= 'z' }
  predicate IsAlnum(c: char) { IsDigit(c) || IsUpper(c) || IsLower(c) }

  /** Ruby's `\w` on ASCII text: letters, digits and underscore. */
  predicate IsWord(c: char) { IsAlnum(c) || c == '_' }

  /** Ruby's `\s`: space, tab, line feed, vertical tab, form feed, carriage return. */
  predicate IsSpace(c: char)
  {
    c == ' ' || c == '\t' || c == '\n' || c == '\r' || c as int == 11 || c as int == 12
  }

  /** A character that `[[:space:]]` matches, which is what Rails' `String#blank?` tests. */
  predicate IsBlankChar(c: char)
  {
    IsSpace(c) || c as int == 0x85 || c as int == 0xA0 || c as int == 0x1680
    || (0x2000 <= c as int <= 0x200A) || c as int == 0x2028 || c as int == 0x2029
    || c as int == 0x202F || c as int == 0x205F || c as int == 0x3000
  }

  /** Rails' `blank?` on a string: empty or only white space. */
  predicate Blank(s: string)
  {
    forall i | 0 <= i < |s| :: IsBlankChar(s[i])
  }

  /** Rails' `blank?` on a value that may be nil. */
  predicate BlankOpt(s: Option<string>)
  {
    match s
    case None => true
    case Some(t) => Blank(t)
  }

  /** Ruby's `strip.empty?`: only white space and NUL characters. */
  predicate StripsToEmpty(s: string)
  {
    forall i | 0 <= i < |s| :: IsSpace(s[i]) || s[i] == '\0'
  }

  // ---- case ----------------------------------------------------------------

  /** `downcase` of one character; only ASCII letters change. */
  function LowerChar(c: char): (r: char)
    ensures IsUpper(c) ==> IsLower(r) && r as int == c as int + 32
    ensures !IsUpper(c) ==> r == c
  {
    if IsUpper(c) then (c as int + 32) as char else c
  }

  function Lower(s: string): (r: string)
    ensures |r| == |s|
    ensures forall i | 0 <= i < |s| :: r[i] == LowerChar(s[i])
  {
    seq(|s|, i requires 0 <= i < |s| => LowerChar(s[i]))
  }

  /** Downcasing is idempotent: text with no upper-case letter is its own lower case. */
  lemma LowerNoUpper(s: string)
    requires forall i | 0 <= i < |s| :: !IsUpper(s[i])
    ensures Lower(s) == s
  {
  }

  // ---- substrings ----------------------------------------------------------

  predicate StartsWith(s: string, prefix: string)
  {
    |prefix| <= |s| && s[..|prefix|] == prefix
  }

  predicate EndsWith(s: string, suffix: string)
  {
    |suffix| <= |s| && s[|s| - |suffix|..] == suffix
  }

  /** One mismatching position rules a suffix out. */
  lemma NotEndsWithAt(s: string, suffix: string, i: nat)
    requires |suffix| <= |s| ==> i < |suffix| && s[|s| - |suffix| + i] != suffix[i]
    ensures !EndsWith(s, suffix)
  {
    if |suffix| <= |s| {
      assert s[|s| - |suffix|..][i] != suffix[i];
    }
  }

  /** A common last character can be dropped from both sides of `EndsWith`. */
  lemma EndsWithSnoc(s: string, suffix: string, c: char)
    ensures EndsWith(s + [c], suffix + [c]) <==> EndsWith(s, suffix)
  {
    if |suffix| <= |s| {
      assert (s + [c])[|s| - |suffix|..] == s[|s| - |suffix|..] + [c];
      if (s + [c])[|s| - |suffix|..] == suffix + [c] {
        assert s[|s| - |suffix|..] == (suffix + [c])[..|suffix|];
      }
    }
  }

  /** `s =~ /sub/` for a literal `sub`: does `sub` occur in `s`? */
  predicate Contains(s: string, sub: string)
  {
    exists i | 0 <= i <= |s| - |sub| :: OccursAt(s, sub, i)
  }

  /** `sub` occurs in `s` starting at index `i`. */
  predicate OccursAt(s: string, sub: string, i: int)
  {
    0 <= i && i + |sub| <= |s| && s[i..i + |sub|] == sub
  }

  // ---- splitting and joining -----------------------------------------------

  /** No character of `s` satisfies `isSep`. */
  predicate NoSep(s: string, isSep: char -> bool)
  {
    forall j | 0 <= j < |s| :: !isSep(s[j])
  }

  /**
   The fields of `s` between characters satisfying `isSep`, empty fields kept:
   Ruby's `split(sep, -1)`. There is always at least one field.
   */
  function FieldsBy(s: string, isSep: char -> bool): (r: seq<string>)
    ensures |r| >= 1
    ensures forall i | 0 <= i < |r| :: NoSep(r[i], isSep)
  {
    if |s| == 0 then [""]
    else
      var rest := FieldsBy(s[1..], isSep);
      if isSep(s[0]) then [""] + rest
      else [[s[0]] + rest[0]] + rest[1..]
  }

  /** `f` applied to every element, in order (Ruby's `Array#map`). */
  function MapSeq<T, U>(s: seq<T>, f: T -> U): (r: seq<U>)
    ensures |r| == |s| && forall k | 0 <= k < |s| :: r[k] == f(s[k])
  {
    seq(|s|, k requires 0 <= k < |s| => f(s[k]))
  }

  /** `parts` joined with `sep` between neighbours (Ruby's `Array#join`). */
  function Join(parts: seq<string>, sep: string): string
  {
    if |parts| == 0 then ""
    else if |parts| == 1 then parts[0]
    else parts[0] + sep + Join(parts[1..], sep)
  }

  /** One more part at the end adds the separator and that part. */
  lemma {:induction false} JoinSnoc(parts: seq<string>, x: string, sep: string)
    requires |parts| >= 1
    ensures Join(parts + [x], sep) == Join(parts, sep) + sep + x
  {
    if |parts| > 1 {
      assert (parts + [x])[1..] == parts[1..] + [x];
      JoinSnoc(parts[1..], x, sep);
    }
  }

  /** Parts without separators, joined with one separator character, split back into the parts. */
  lemma {:induction false} FieldsOfJoin(parts: seq<string>, sep: char, isSep: char -> bool)
    requires |parts| >= 1 && isSep(sep)
    requires forall i | 0 <= i < |parts| :: NoSep(parts[i], isSep)
    ensures FieldsBy(Join(parts, [sep]), isSep) == parts
    decreases |parts|
  {
    if |parts| == 1 {
      FieldsOfNoSep(parts[0], isSep);
    } else {
      FieldsOfJoin(parts[1..], sep, isSep);
      FieldsCons(parts[0], sep, Join(parts[1..], [sep]), isSep);
      assert [parts[0]] + parts[1..] == parts;
    }
  }

  /** Splitting on one separator character and joining with it again gives back the text. */
  lemma {:induction false} FieldsJoin(s: string, sep: char)
    ensures Join(FieldsBy(s, c => c == sep), [sep]) == s
  {
    if |s| > 0 {
      FieldsJoin(s[1..], sep);
      var rest := FieldsBy(s[1..], c => c == sep);
      if s[0] == sep {
        assert FieldsBy(s, c => c == sep) == [""] + rest;
        assert s == [s[0]] + s[1..];
      } else {
        assert FieldsBy(s, c => c == sep) == [[s[0]] + rest[0]] + rest[1..];
        if |rest| > 1 {
          assert rest == [rest[0]] + rest[1..];
        }
        assert s == [s[0]] + s[1..];
      }
    }
  }

  /** A text with no separator character is a single field. */
  lemma {:induction false} FieldsOfNoSep(s: string, isSep: char -> bool)
    requires forall i | 0 <= i < |s| :: !isSep(s[i])
    ensures FieldsBy(s, isSep) == [s]
  {
    if |s| > 0 {
      FieldsOfNoSep(s[1..], isSep);
      assert s == [s[0]] + s[1..];
    }
  }

  /** A property of every character of `s` holds of every character of its fields. */
  lemma {:induction false} FieldsKeep(s: string, isSep: char -> bool, keep: char -> bool)
    requires forall k | 0 <= k < |s| :: keep(s[k])
    ensures forall i | 0 <= i < |FieldsBy(s, isSep)| ::
              forall j | 0 <= j < |FieldsBy(s, isSep)[i]| :: keep(FieldsBy(s, isSep)[i][j])
  {
    if |s| > 0 {
      FieldsKeep(s[1..], isSep, keep);
    }
  }

  /** A field without separators followed by a separator comes off the front of the split. */
  lemma {:induction false} FieldsCons(a: string, sep: char, b: string, isSep: char -> bool)
    requires isSep(sep) && forall k | 0 <= k < |a| :: !isSep(a[k])
    ensures FieldsBy(a + [sep] + b, isSep) == [a] + FieldsBy(b, isSep)
  {
    if |a| == 0 {
      assert a + [sep] + b == [sep] + b;
      assert ([sep] + b)[1..] == b;
    } else {
      FieldsCons(a[1..], sep, b, isSep);
      assert (a + [sep] + b)[1..] == a[1..] + [sep] + b;
      assert [a[0]] + a[1..] == a;
    }
  }

  /** The last field is what follows the last separator. */
  lemma {:induction false} FieldsLast(s: string, k: nat, isSep: char -> bool)
    requires k < |s| && isSep(s[k]) && forall j | k < j < |s| :: !isSep(s[j])
    ensures |FieldsBy(s, isSep)| >= 2 && FieldsBy(s, isSep)[|FieldsBy(s, isSep)| - 1] == s[k + 1..]
    decreases k
  {
    if k == 0 {
      FieldsOfNoSep(s[1..], isSep);
    } else {
      FieldsLast(s[1..], k - 1, isSep);
    }
  }

  /** The lines of `s`: the fields between line feeds. `^` and `$` match at their ends. */
  function Lines(s: string): (r: seq<string>)
    ensures |r| >= 1
    ensures forall i | 0 <= i < |r| :: '\n' !in r[i]
  {
    var r := FieldsBy(s, c => c == '\n');
    assert forall i | 0 <= i < |r| :: forall j | 0 <= j < |r[i]| :: r[i][j] != '\n';
    r
  }

  /** The characters of `s` that satisfy `keep`, in order: `gsub` of a negated character class with "". */
  function KeepChars(s: string, keep: char -> bool): (r: string)
    ensures |r| <= |s|
    ensures forall k | 0 <= k < |r| :: keep(r[k]) && r[k] in s
    ensures (forall k | 0 <= k < |s| :: keep(s[k])) ==> r == s
  {
    if |s| == 0 then ""
    else
      var rest := KeepChars(s[1..], keep);
      assert forall k | 0 <= k < |rest| :: rest[k] in s by {
        forall k | 0 <= k < |rest| ensures rest[k] in s {
          assert rest[k] in s[1..];
        }
      }
      if keep(s[0]) then [s[0]] + rest else rest
  }

  /** One more character at the end is kept at the end exactly when it satisfies `keep`. */
  lemma {:induction false} KeepCharsSnoc(s: string, c: char, keep: char -> bool)
    ensures KeepChars(s + [c], keep) == KeepChars(s, keep) + (if keep(c) then [c] else [])
  {
    if |s| == 0 {
      assert s + [c] == [c];
    } else {
      assert (s + [c])[1..] == s[1..] + [c];
      KeepCharsSnoc(s[1..], c, keep);
    }
  }

  /** Ruby's `split(pattern)` drops the empty fields at the end of the result. */
  function DropTrailingEmpty(fields: seq<string>): (r: seq<string>)
    ensures |r| <= |fields| && r == fields[..|r|]
    ensures |r| > 0 ==> r[|r| - 1] != ""
    ensures forall i | |r| <= i < |fields| :: fields[i] == ""
  {
    if |fields| == 0 then []
    else if fields[|fields| - 1] == "" then DropTrailingEmpty(fields[..|fields| - 1])
    else fields
  }

  /** Ruby's `split` on a single separator character: `"a//b/".split("/") == ["a", "", "b"]`. */
  function SplitOn(s: string, isSep: char -> bool): (r: seq<string>)
    ensures forall i | 0 <= i < |r| :: forall j | 0 <= j < |r[i]| :: !isSep(r[i][j])
    ensures |r| > 0 ==> r[|r| - 1] != ""
  {
    var fields := FieldsBy(s, isSep);
    var r := DropTrailingEmpty(fields);
    assert forall i | 0 <= i < |r| :: r[i] == fields[i];
    r
  }

  /** The non-empty strings of `fields`, in order. */
  function NonEmpty(fields: seq<string>): (r: seq<string>)
    ensures |r| <= |fields|
    ensures forall i | 0 <= i < |r| :: r[i] != ""
    ensures (forall i | 0 <= i < |fields| :: fields[i] != "") ==> r == fields
  {
    if |fields| == 0 then []
    else if fields[0] == "" then NonEmpty(fields[1..])
    else [fields[0]] + NonEmpty(fields[1..])
  }

  /**
   Ruby's `split` on runs of separator characters (a pattern `[...]+`): the field before
   the first run is kept even when empty, the fields between runs are never empty, and
   trailing empty fields are dropped. `" a  b ".split(/\s+/) == ["", "a", "b"]`.
   */
  function SplitOnRuns(s: string, isSep: char -> bool): seq<string>
  {
    var fields := FieldsBy(s, isSep);
    DropTrailingEmpty([fields[0]] + NonEmpty(fields[1..]))
  }

  // ---- numbers --------------------------------------------------------------

  function DigitChar(d: nat): (c: char)
    requires d < 10
    ensures IsDigit(c)
  {
    ('0' as int + d) as char
  }

  function DigitValue(c: char): nat
    requires IsDigit(c)
  {
    c as int - '0' as int
  }

  predicate AllDigits(s: string)
  {
    forall i | 0 <= i < |s| :: IsDigit(s[i])
  }

  /** The number a string of decimal digits denotes; the empty string denotes 0. */
  function DigitsValue(s: string): nat
    requires AllDigits(s)
  {
    if |s| == 0 then 0 else DigitsValue(s[..|s| - 1]) * 10 + DigitValue(s[|s| - 1])
  }

  /** Ruby's `Integer#to_s` on a natural number: decimal digits, no leading zero. */
  function NatToString(n: nat): (r: string)
    ensures |r| >= 1 && AllDigits(r)
    ensures |r| > 1 ==> r[0] != '0'
  {
    if n < 10 then [DigitChar(n)] else NatToString(n / 10) + [DigitChar(n % 10)]
  }

  /** Ruby's `Integer#to_s`: a minus sign before the digits of a negative number. */
  function IntToString(n: int): string
  {
    if n < 0 then "-" + NatToString(-n) else NatToString(n)
  }

  /** Reading back the decimal text of a number gives the number. */
  lemma {:induction false} NatToStringValue(n: nat)
    ensures DigitsValue(NatToString(n)) == n
  {
    if n >= 10 {
      NatToStringValue(n / 10);
      var r := NatToString(n);
      assert r[..|r| - 1] == NatToString(n / 10);
    }
  }

  /**
   The digits of the number at the front of `s` as `String#to_i` reads it: a run of digits
   in which a single underscore between two digits is skipped (`"1_000"` reads as 1000).
   */
  function LeadingDigits(s: string): (r: string)
    ensures AllDigits(r) && |r| <= |s|
  {
    if |s| == 0 || !IsDigit(s[0]) then ""
    else if |s| >= 3 && s[1] == '_' && IsDigit(s[2]) then [s[0]] + LeadingDigits(s[2..])
    else [s[0]] + LeadingDigits(s[1..])
  }

  /** `s` without its leading white space. */
  function DropLeadingSpace(s: string): (r: string)
    ensures |r| <= |s| && r == s[|s| - |r|..]
    ensures |r| > 0 ==> !IsSpace(r[0])
  {
    if |s| > 0 && IsSpace(s[0]) then DropLeadingSpace(s[1..]) else s
  }

  /**
   Ruby's `String#to_i`: leading white space is skipped, an optional sign is read, then the
   leading digits; anything else yields 0 for the missing digits (`"abc".to_i == 0`).
   */
  function ToI(s: string): int
  {
    var t := DropLeadingSpace(s);
    if |t| > 0 && t[0] == '-' then -(LeadingValue(t[1..]) as int)
    else if |t| > 0 && t[0] == '+' then LeadingValue(t[1..])
    else LeadingValue(t)
  }

  /** The value of the digits at the front of `s`. */
  function LeadingValue(s: string): nat
  {
    DigitsValue(LeadingDigits(s))
  }

  /** A string that starts with no white space has none to skip. */
  lemma NoLeadingSpace(s: string)
    requires |s| == 0 || !IsSpace(s[0])
    ensures DropLeadingSpace(s) == s
  {
  }

  /** A string of digits only is read whole by `to_i`. */
  lemma {:induction false} LeadingDigitsOfDigits(s: string)
    requires AllDigits(s)
    ensures LeadingDigits(s) == s
  {
    if |s| > 0 {
      LeadingDigitsOfDigits(s[1..]);
      assert s == [s[0]] + s[1..];
    }
  }

  /** `to_i` of a text that starts with neither a blank, a sign nor a digit is 0. */
  lemma ToIOfNonNumber(s: string)
    requires |s| > 0 && !IsSpace(s[0]) && !IsDigit(s[0]) && s[0] != '-' && s[0] != '+'
    ensures ToI(s) == 0
  {
    NoLeadingSpace(s);
  }

  /** `to_i` of a digit string is the number it denotes. */
  lemma ToIOfDigits(s: string)
    requires AllDigits(s)
    ensures ToI(s) == DigitsValue(s)
  {
    LeadingDigitsOfDigits(s);
    if |s| > 0 {
      assert IsDigit(s[0]) && !IsSpace(s[0]) && s[0] != '-' && s[0] != '+';
    }
    NoLeadingSpace(s);
  }

  /** `to_s` then `to_i` is the identity on integers. */
  lemma ToIOfIntToString(n: int)
    ensures ToI(IntToString(n)) == n
  {
    if n < 0 {
      var d := NatToString(-n);
      NatToStringValue(-n);
      LeadingDigitsOfDigits(d);
      NoLeadingSpace("-" + d);
      assert ("-" + d)[1..] == d;
      assert ToI("-" + d) == -(LeadingValue(d) as int);
    } else {
      NatToStringValue(n);
      ToIOfDigits(NatToString(n));
    }
  }

  // ---- ordering -------------------------------------------------------------

  /**
   Ruby's `String#<=>` as "less or equal": lexicographic on characters, a proper prefix
   first. Comparing UTF-8 bytes orders code points the same way.
   */
  predicate StrLe(a: string, b: string)
  {
    |a| == 0 || (|b| > 0 && (a[0] < b[0] || (a[0] == b[0] && StrLe(a[1..], b[1..]))))
  }

  lemma {:induction false} StrLeTotal(a: string, b: string)
    ensures StrLe(a, b) || StrLe(b, a)
  {
    if |a| > 0 && |b| > 0 && a[0] == b[0] {
      StrLeTotal(a[1..], b[1..]);
    }
  }

  lemma {:induction false} StrLeTrans(a: string, b: string, c: string)
    requires StrLe(a, b) && StrLe(b, c)
    ensures StrLe(a, c)
  {
    if |a| > 0 && |b| > 0 && |c| > 0 && a[0] == b[0] && b[0] == c[0] {
      StrLeTrans(a[1..], b[1..], c[1..]);
    }
  }

  lemma {:induction false} StrLeAntisym(a: string, b: string)
    requires StrLe(a, b) && StrLe(b, a)
    ensures a == b
  {
    if |a| > 0 && |b| > 0 {
      StrLeAntisym(a[1..], b[1..]);
      assert a == [a[0]] + a[1..] && b == [b[0]] + b[1..];
    }
  }
}

=== FILE: user.dfy ===
/**
 The account rules of app/models/user.rb: activation by token, the guard in front of
 authentication, who may edit or delete an account, the validation hook (password
 hashing, `web_link` scheme, super admins), the field validations and generated
 passwords. SHA1 (`hash_string`), the login table lookup and `rand` are parameters.
 */
module Users {

  import opened Wrappers
  import opened Text

  datatype User = User(
    id: nat,
    username: string,          // nil is modelled as ""
    email: string,
    realname: string,
    password: Option<string>,  // the clear-text password being set, if any
    confirmPassword: Option<string>,
    hashedPassword: Option<string>,
    passwordChanged: bool,
    token: Option<string>,
    isActivated: bool,
    isDeleted: bool,
    isAdmin: bool,
    isSuperAdmin: bool,
    webLink: Option<string>)

  // ---- activation and authentication ------------------------------------------

  /**
   `activate(token)`: a deleted account is never activated; otherwise the account is
   activated exactly when it has a non-blank token equal to the one given.
   */
  function Activate(u: User, token: Option<string>): (r: (bool, User))
    ensures u.isDeleted ==> r == (false, u)
    ensures !u.isDeleted ==> (r.0 <==> !BlankOpt(u.token) && token == u.token)
    ensures r.0 ==> r.1 == u.(isActivated := true)
    ensures !r.0 ==> r.1 == u
  {
    if u.isDeleted then (false, u)
    else if !BlankOpt(u.token) && token == u.token then (true, u.(isActivated := true))
    else (false, u)
  }

  /** Activating twice with the same token gives the same account. */
  lemma ActivateIdempotent(u: User, token: Option<string>)
    ensures Activate(Activate(u, token).1, token) == Activate(u, token)
  {
  }

  /** The options of `authenticate`. */
  datatype Credentials = Credentials(password: Option<string>, token: Option<string>, remoteIp: Option<string>)

  /** A row of the user_logins table. */
  datatype Login = Login(token: string, remoteIp: string, hashedPassword: Option<string>)

  /** `false`, the stored login a token found, or the fresh login a password opens. */
  datatype AuthResult = Denied | TokenLogin(login: Login) | PasswordLogin

  /**
   `authenticate`: refused for deleted or unactivated accounts. A token and address
   open the stored login they name when that login carries the account's current
   password hash; otherwise a password opens a new login when its hash is the stored one.
   `lookup` is the login table query, `hash` the digest.
   */
  function Authenticate(u: User, c: Credentials, lookup: (string, string) -> Option<Login>,
                        hash: string -> string): (r: AuthResult)
    ensures u.isDeleted || !u.isActivated ==> r == Denied
    ensures r.TokenLogin? ==>
              c.token.Some? && c.remoteIp.Some? && lookup(c.token.value, c.remoteIp.value) == Some(r.login)
              && r.login.hashedPassword == u.hashedPassword
    ensures r.PasswordLogin? ==> c.password.Some? && u.hashedPassword == Some(hash(c.password.value))
    ensures r == Denied && !u.isDeleted && u.isActivated ==>
              c.password.None? || u.hashedPassword != Some(hash(c.password.value))
    ensures !u.isDeleted && u.isActivated && c.token.Some? && c.remoteIp.Some?
            && lookup(c.token.value, c.remoteIp.value).Some?
            && lookup(c.token.value, c.remoteIp.value).value.hashedPassword == u.hashedPassword ==>
              r == TokenLogin(lookup(c.token.value, c.remoteIp.value).value)
  {
    if u.isDeleted || !u.isActivated then Denied
    else
      var byToken :=
        if c.token.Some? && c.remoteIp.Some? then
          match lookup(c.token.value, c.remoteIp.value)
          case Some(l) => if l.hashedPassword == u.hashedPassword then Some(l) else None
          case None => None
        else None;
      if byToken.Some? then TokenLogin(byToken.value)
      else if c.password.Some? && Some(hash(c.password.value)) == u.hashedPassword then PasswordLogin
      else Denied
  }

  /** A deleted or unactivated account is refused, whatever the credentials and tables. */
  lemma InactiveNeverAuthenticates(u: User, c: Credentials, lookup: (string, string) -> Option<Login>,
                                   hash: string -> string)
    requires u.isDeleted || !u.isActivated
    ensures Authenticate(u, c, lookup, hash) == Denied
  {
  }

  /** A valid token login is returned even when a correct password is given too. */
  lemma TokenWinsOverPassword(u: User, pw: string, l: Login, hash: string -> string)
    requires !u.isDeleted && u.isActivated
    requires u.hashedPassword == Some(hash(pw)) && l.hashedPassword == u.hashedPassword
    ensures Authenticate(u, Credentials(Some(pw), Some(l.token), Some(l.remoteIp)),
                         (t, a) => if t == l.token && a == l.remoteIp then Some(l) else None, hash) == TokenLogin(l)
  {
  }

  /** Activation is what lets a correct password in. */
  lemma ActivationOpensPassword(u: User, token: string, pw: string, hash: string -> string)
    requires !u.isDeleted && u.token == Some(token) && !Blank(token)
    requires u.hashedPassword == Some(hash(pw))
    ensures Authenticate(Activate(u, Some(token)).1, Credentials(Some(pw), None, None),
                         (t, a) => None, hash) == PasswordLogin
  {
  }

  // ---- who may edit or delete -------------------------------------------------------

  /** The three addresses of the site's makers. */
  const SpecialAddresses: seq<string> :=
    ["inge@manualdesign.no", "thomas@manualdesign.no", "alexander@manualdesign.no"]

  /** `is_special?`: some line of the e-mail address is one of the makers' addresses. */
  predicate IsSpecial(u: User)
  {
    exists i | 0 <= i < |Lines(u.email)| :: Lines(u.email)[i] in SpecialAddresses
  }

  /** `account_holder?`: the account's holder, given by id (nil when there is none). */
  predicate IsAccountHolder(u: User, holder: Option<nat>)
  {
    holder == Some(u.id)
  }

  /**
   `editable_by?(editor)`: nobody without an editor; a special account only by special
   editors; otherwise by the account itself, special editors and the account holder.
   */
  function EditableBy(u: User, editor: Option<User>, holder: Option<nat>): (r: bool)
    ensures editor.None? ==> !r
    ensures editor.Some? && !IsSpecial(editor.value) && IsSpecial(u) ==> !r
    ensures editor.Some? && (IsSpecial(editor.value) || !IsSpecial(u)) ==>
              (r <==> editor.value.id == u.id || IsSpecial(editor.value) || IsAccountHolder(editor.value, holder))
  {
    match editor
    case None => false
    case Some(e) =>
      if !IsSpecial(e) && IsSpecial(u) then false
      else e.id == u.id || IsSpecial(e) || IsAccountHolder(e, holder)
  }

  /** `is_deletable?`: neither special nor the account holder. */
  function IsDeletable(u: User, holder: Option<nat>): (r: bool)
    ensures r <==> !IsSpecial(u) && !IsAccountHolder(u, holder)
    ensures r ==> EditableBy(u, Some(u), holder)
  {
    !IsSpecial(u) && !IsAccountHolder(u, holder)
  }

  /** A special account can edit every account; an account that is not special can edit itself. */
  lemma SpecialEditsAll(u: User, e: User, holder: Option<nat>)
    ensures IsSpecial(e) ==> EditableBy(u, Some(e), holder)
    ensures !IsSpecial(u) ==> EditableBy(u, Some(u), holder)
  {
  }

  // ---- the validation hook ---------------------------------------------------------

  /**
   `hash_password`: with a non-empty password, store its digest, and note a change of
   password when the digest differs from the one stored before.
   */
  function HashPassword(u: User, hash: string -> string): (r: User)
    ensures u.password.None? || u.password == Some("") ==> r == u
    ensures u.password.Some? && u.password != Some("") ==>
              && r.hashedPassword == Some(hash(u.password.value))
              && r.passwordChanged == (u.passwordChanged || u.hashedPassword != r.hashedPassword)
              && r == u.(hashedPassword := r.hashedPassword, passwordChanged := r.passwordChanged)
  {
    match u.password
    case Some(pw) =>
      if pw == "" then u
      else
        var h := Some(hash(pw));
        u.(hashedPassword := h, passwordChanged := if u.hashedPassword != h then true else u.passwordChanged)
    case None => u
  }

  /** Hashing the same password again reports no further change. */
  lemma HashPasswordIdempotent(u: User, hash: string -> string)
    ensures HashPassword(HashPassword(u, hash), hash) == HashPassword(u, hash)
  {
  }

  /** Some line of `s` starts with word characters followed by "://". */
  predicate HasScheme(s: string)
  {
    exists i | 0 <= i < |Lines(s)| :: SchemeAt(Lines(s)[i])
  }

  predicate SchemeAt(line: string)
  {
    exists n | 1 <= n && n + 3 <= |line| :: AllWord(line[..n]) && line[n..n + 3] == "://"
  }

  predicate AllWord(s: string)
  {
    forall k | 0 <= k < |s| :: IsWord(s[k])
  }

  /** The `web_link` rule: a non-blank link without a scheme gets "http://" in front. */
  function NormalizeWebLink(link: Option<string>): (r: Option<string>)
    ensures BlankOpt(link) || HasScheme(link.value) ==> r == link
    ensures !BlankOpt(link) && !HasScheme(link.value) ==> r == Some("http://" + link.value)
    ensures !BlankOpt(r) ==> HasScheme(r.value)
  {
    match link
    case Some(s) =>
      if !Blank(s) && !HasScheme(s) then
        var t := "http://" + s;
        assert SchemeAt(Lines(t)[0]) by {
          FieldsPrefix("http://", s, c => c == '\n');
          assert Lines(t)[0][..4] == "http";
          assert Lines(t)[0][4..7] == "://";
        }
        Some(t)
      else link
    case None => link
  }

  /** The first field of `p + s` starts with `p` when `p` holds no separator. */
  lemma {:induction false} FieldsPrefix(p: string, s: string, isSep: char -> bool)
    requires forall k | 0 <= k < |p| :: !isSep(p[k])
    ensures |FieldsBy(p + s, isSep)[0]| >= |p| && FieldsBy(p + s, isSep)[0][..|p|] == p
  {
    if |p| > 0 {
      FieldsPrefix(p[1..], s, isSep);
      assert (p + s)[1..] == p[1..] + s;
    }
  }

  /** Normalising a link twice is normalising it once. */
  lemma NormalizeWebLinkIdempotent(link: Option<string>)
    ensures NormalizeWebLink(NormalizeWebLink(link)) == NormalizeWebLink(link)
  {
    var r := NormalizeWebLink(link);
    if r.Some? && !Blank(r.value) {
      assert HasScheme(r.value);
    }
  }

  /**
   The `validate` block: hash a non-empty password, give the web link a scheme, and make
   a super admin an admin.
   */
  function ValidateHook(u: User, hash: string -> string): (r: User)
    ensures u.isSuperAdmin ==> r.isAdmin
    ensures !u.isSuperAdmin ==> r.isAdmin == u.isAdmin
    ensures r.webLink == NormalizeWebLink(u.webLink)
    ensures r.hashedPassword == HashPassword(u, hash).hashedPassword
    ensures r.(webLink := u.webLink, isAdmin := u.isAdmin) == HashPassword(u, hash)
  {
    var h := HashPassword(u, hash);
    h.(webLink := NormalizeWebLink(u.webLink), isAdmin := if u.isSuperAdmin then true else u.isAdmin)
  }

  /** Running the hook again changes nothing more. */
  lemma ValidateHookIdempotent(u: User, hash: string -> string)
    ensures ValidateHook(ValidateHook(u, hash), hash) == ValidateHook(u, hash)
  {
    NormalizeWebLinkIdempotent(u.webLink);
  }

  // ---- field validations -------------------------------------------------------------

  datatype Field = Username | Email | Realname | Password

  datatype ValidationError =
    | Missing(field: Field)
    | UsernameTaken
    | UsernameLength
    | PasswordTooShort
    | UsernameFormat
    | EmailFormat

  /** A character allowed in a username: `[-_\w\d@.]`. */
  predicate UsernameChar(c: char) { IsWord(c) || c == '-' || c == '@' || c == '.' }

  predicate UsernameLine(line: string)
  {
    |line| > 0 && forall k | 0 <= k < |line| :: UsernameChar(line[k])
  }

  /** The username format as written: `^` and `$` match at line ends, so one good line passes. */
  predicate UsernameFormatAsWritten(name: string)
  {
    exists i | 0 <= i < |Lines(name)| :: UsernameLine(Lines(name)[i])
  }

  /** The username format as intended: the whole name is made of allowed characters. */
  predicate UsernameFormatOk(name: string)
  {
    UsernameLine(name)
  }

  /** A name with a second line of markup passes the written format check. */
  lemma UsernameFormatAsWrittenAdmitsMarkup()
    ensures UsernameFormatAsWritten("anna\n<b>") && !UsernameFormatOk("anna\n<b>")
  {
    var s := "anna" + "\n" + "<b>";
    assert s == "anna\n<b>";
    assert !UsernameChar(s[4]);
    LinesFirst("anna", "<b>");
    assert UsernameLine(Lines(s)[0]);
  }

  /** The first line of `a + "\n" + b` is `a` when `a` is one line. */
  lemma {:induction false} LinesFirst(a: string, b: string)
    requires '\n' !in a
    ensures Lines(a + "\n" + b)[0] == a
  {
    if |a| > 0 {
      LinesFirst(a[1..], b);
      assert (a + "\n" + b)[1..] == a[1..] + "\n" + b;
    } else {
      assert a + "\n" + b == ['\n'] + b;
    }
  }

  /** The two formats agree on names without a line feed. */
  lemma UsernameFormatsAgree(name: string)
    requires '\n' !in name
    ensures UsernameFormatAsWritten(name) <==> UsernameFormatOk(name)
  {
    assert forall k | 0 <= k < |name| :: name[k] != '\n';
    assert Lines(name) == [name] by { FieldsOfNoSep(name, c => c == '\n'); }
    assert UsernameLine(Lines(name)[0]) <==> UsernameLine(name);
  }

  /** Letters of either case, for the `/i` flag of the e-mail pattern. */
  predicate Letter(c: char) { IsUpper(c) || IsLower(c) }

  /** A domain label `[-a-z0-9]+`, any case. */
  predicate DomainLabel(s: string)
  {
    |s| > 0 && forall k | 0 <= k < |s| :: Letter(s[k]) || IsDigit(s[k]) || s[k] == '-'
  }

  /**
   The e-mail pattern `\A([^@\s]+)@((?:[-a-z0-9]+\.)+[a-z]{2,})\Z`, ignoring case: a
   local part without "@" or blanks, then labels separated by dots ending in a top-level
   name of at least two letters. `\Z` also accepts one line feed at the very end.
   */
  predicate EmailFormatOk(email: string)
  {
    var e := if |email| > 0 && email[|email| - 1] == '\n' then email[..|email| - 1] else email;
    exists at | 0 <= at < |e| && e[at] == '@' :: EmailParts(e[..at], e[at + 1..])
  }

  predicate EmailParts(local: string, domain: string)
  {
    var labels := FieldsBy(domain, c => c == '.');
    && |local| > 0 && (forall k | 0 <= k < |local| :: local[k] != '@' && !IsSpace(local[k]))
    && |labels| >= 2
    && (forall i | 0 <= i < |labels| - 1 :: DomainLabel(labels[i]))
    && |labels[|labels| - 1]| >= 2 && AllLetters(labels[|labels| - 1])
  }

  predicate AllLetters(s: string)
  {
    forall k | 0 <= k < |s| :: Letter(s[k])
  }

  /**
   The validation errors of an account: presence of username, e-mail and real name,
   a password on creation, a unique username of 4 to 32 characters in the allowed
   alphabet, a password of at least 5 characters when one is given, and a well-formed
   e-mail address. `taken` says whether another account has the username. The username
   pattern is applied as written, with line anchors.
   */
  function Validate(u: User, onCreate: bool, taken: bool): (errors: set<ValidationError>)
    ensures Missing(Username) in errors <==> Blank(u.username)
    ensures Missing(Email) in errors <==> Blank(u.email)
    ensures Missing(Realname) in errors <==> Blank(u.realname)
    ensures Missing(Password) in errors <==> onCreate && BlankOpt(u.password)
    ensures UsernameTaken in errors <==> taken
    ensures UsernameLength in errors <==> !(4 <= |u.username| <= 32)
    ensures PasswordTooShort in errors <==> u.password.Some? && 0 < |u.password.value| < 5
    ensures UsernameFormat in errors <==> !UsernameFormatAsWritten(u.username)
    ensures EmailFormat in errors <==> !EmailFormatOk(u.email)
  {
    PresenceErrors(u, onCreate) + FormatErrors(u, taken, UsernameFormatAsWritten(u.username))
  }

  /** The same validations with the username pattern anchored at the whole string. */
  function ValidateIntended(u: User, onCreate: bool, taken: bool): (errors: set<ValidationError>)
    ensures Missing(Username) in errors <==> Blank(u.username)
    ensures Missing(Email) in errors <==> Blank(u.email)
    ensures Missing(Realname) in errors <==> Blank(u.realname)
    ensures Missing(Password) in errors <==> onCreate && BlankOpt(u.password)
    ensures UsernameTaken in errors <==> taken
    ensures UsernameLength in errors <==> !(4 <= |u.username| <= 32)
    ensures PasswordTooShort in errors <==> u.password.Some? && 0 < |u.password.value| < 5
    ensures UsernameFormat in errors <==> !UsernameFormatOk(u.username)
    ensures EmailFormat in errors <==> !EmailFormatOk(u.email)
  {
    PresenceErrors(u, onCreate) + FormatErrors(u, taken, UsernameFormatOk(u.username))
  }

  /** The presence validations. */
  function PresenceErrors(u: User, onCreate: bool): (errors: set<ValidationError>)
    ensures forall e | e in errors :: e.Missing?
    ensures Missing(Username) in errors <==> Blank(u.username)
    ensures Missing(Email) in errors <==> Blank(u.email)
    ensures Missing(Realname) in errors <==> Blank(u.realname)
    ensures Missing(Password) in errors <==> onCreate && BlankOpt(u.password)
  {
    When(Blank(u.username), Missing(Username))
    + When(Blank(u.email), Missing(Email))
    + When(Blank(u.realname), Missing(Realname))
    + When(onCreate && BlankOpt(u.password), Missing(Password))
  }

  /** The uniqueness, length and format validations; `usernameOk` is the verdict of the username pattern. */
  function FormatErrors(u: User, taken: bool, usernameOk: bool): (errors: set<ValidationError>)
    ensures forall e | e in errors :: !e.Missing?
    ensures UsernameTaken in errors <==> taken
    ensures UsernameLength in errors <==> !(4 <= |u.username| <= 32)
    ensures PasswordTooShort in errors <==> u.password.Some? && 0 < |u.password.value| < 5
    ensures UsernameFormat in errors <==> !usernameOk
    ensures EmailFormat in errors <==> !EmailFormatOk(u.email)
  {
    When(taken, UsernameTaken)
    + When(!(4 <= |u.username| <= 32), UsernameLength)
    + When(u.password.Some? && 0 < |u.password.value| < 5, PasswordTooShort)
    + When(!usernameOk, UsernameFormat)
    + When(!EmailFormatOk(u.email), EmailFormat)
  }

  /** The two validations differ at most in the username format error, and only for multi-line names. */
  lemma ValidationsAgree(u: User, onCreate: bool, taken: bool)
    ensures Validate(u, onCreate, taken) - {UsernameFormat} == ValidateIntended(u, onCreate, taken) - {UsernameFormat}
    ensures '\n' !in u.username ==> Validate(u, onCreate, taken) == ValidateIntended(u, onCreate, taken)
  {
    if '\n' !in u.username {
      UsernameFormatsAgree(u.username);
    }
  }

  /** The error `e` when `failed`. */
  function When(failed: bool, e: ValidationError): (r: set<ValidationError>)
    ensures r == if failed then {e} else {}
  {
    if failed then {e} else {}
  }

  /** A user named "anna\n<b>" gets no format error as written, but one under the intended rule. */
  lemma ValidateAdmitsMarkupName(u: User, onCreate: bool, taken: bool)
    requires u.username == "anna\n<b>"
    ensures UsernameFormat !in Validate(u, onCreate, taken)
    ensures UsernameFormat in ValidateIntended(u, onCreate, taken)
  {
    UsernameFormatAsWrittenAdmitsMarkup();
  }

  /** Under the intended rule a valid username is made of 4 to 32 allowed characters on one line. */
  lemma ValidUsername(u: User, onCreate: bool, taken: bool)
    requires ValidateIntended(u, onCreate, taken) == {}
    ensures 4 <= |u.username| <= 32 && UsernameLine(u.username) && !Blank(u.username)
    ensures '\n' !in u.username
  {
    assert !IsBlankChar(u.username[0]);
    assert forall k | 0 <= k < |u.username| :: u.username[k] != '\n';
  }

  // ---- generated passwords ---------------------------------------------------------

  /** The ASCII characters from `lo` up to `hi`, as `upto` yields them. */
  function CharRange(lo: char, hi: char): (r: string)
    requires lo as int <= hi as int < 128
    ensures |r| == hi as int - lo as int + 1
    ensures forall i | 0 <= i < |r| :: r[i] as int == lo as int + i
  {
    seq(hi as int - lo as int + 1, i requires 0 <= i < hi as int - lo as int + 1 => (lo as int + i) as char)
  }

  /** The characters `generate_new_password` draws from: 0-9, then a-z, then A-Z. */
  const PasswordAlphabet: string := CharRange('0', '9') + CharRange('a', 'z') + CharRange('A', 'Z')

  /** The alphabet is exactly the 62 ASCII letters and digits. */
  lemma PasswordAlphabetIsAlnum(c: char)
    ensures |PasswordAlphabet| == 62
    ensures c in PasswordAlphabet <==> IsAlnum(c)
  {
    if IsAlnum(c) {
      if IsDigit(c) {
        assert PasswordAlphabet[c as int - '0' as int] == c;
      } else if IsLower(c) {
        assert PasswordAlphabet[10 + c as int - 'a' as int] == c;
      } else {
        assert PasswordAlphabet[36 + c as int - 'A' as int] == c;
      }
    }
  }

  /**
   `generate_new_password`: `extra` is `rand(3)` and `picks` the successive
   `rand(62)` draws. The password has 6 to 8 characters of the alphabet and is stored
   as both the password and its confirmation.
   */
  function GenerateNewPassword(u: User, extra: nat, picks: seq<nat>): (r: (string, User))
    requires extra < 3 && |picks| == 6 + extra
    requires forall k | 0 <= k < |picks| :: picks[k] < |PasswordAlphabet|
    ensures |r.0| == |picks| && 6 <= |r.0| <= 8
    ensures forall k | 0 <= k < |r.0| :: IsAlnum(r.0[k]) && r.0[k] == PasswordAlphabet[picks[k]]
    ensures r.1 == u.(password := Some(r.0), confirmPassword := Some(r.0))
  {
    var pass := seq(|picks|, k requires 0 <= k < |picks| => PasswordAlphabet[picks[k]]);
    assert forall k | 0 <= k < |pass| :: IsAlnum(pass[k]) by {
      forall k | 0 <= k < |pass| ensures IsAlnum(pass[k]) {
        PasswordAlphabetIsAlnum(pass[k]);
      }
    }
    (pass, u.(password := Some(pass), confirmPassword := Some(pass)))
  }

  /** A generated password passes the password length rule. */
  lemma GeneratedPasswordLongEnough(u: User, extra: nat, picks: seq<nat>, onCreate: bool, taken: bool)
    requires extra < 3 && |picks| == 6 + extra
    requires forall k | 0 <= k < |picks| :: picks[k] < |PasswordAlphabet|
    ensures var v := GenerateNewPassword(u, extra, picks).1;
            PasswordTooShort !in Validate(v, onCreate, taken) && Missing(Password) !in Validate(v, onCreate, taken)
  {
    var p := GenerateNewPassword(u, extra, picks).0;
    assert !IsBlankChar(p[0]);
  }
}

=== FILE: wrappers.dfy ===
/** Optional values and results with an error, shared by every module of the model. */
module Wrappers {

  /** A value that may be missing (Ruby's `nil`). */
  datatype Option<+T> = None | Some(value: T) {

    /** The value, or `default` when missing (Ruby's `x || default` on a non-boolean). */
    function GetOr(default: T): T
    {
      match this
      case Some(v) => v
      case None => default
    }

    /** The first present value of `this` and `other` (Ruby's `a || b`). */
    function Or(other: Option<T>): Option<T>
    {
      if Some? then this else other
    }
  }

  /** The outcome of an operation that may raise. */
  datatype Result<+T, +E> = Ok(value: T) | Err(error: E)
}
